=== FILE: README.md ===
# Natours core in Dafny

A model of the authentication, authorization and request-handling core of the Natours
tour-booking backend, an Express application on a MongoDB database through Mongoose. It
covers the following parts:

- **Session gate and role policy** (`Auth`):
  - token extraction from the `Authorization: Bearer` header or the `jwt` cookie;
  - `protect`, `isLoggedIn` and `restrictTo`.
- **Credential operations** (`Auth`): signup, login, logout, forgot, reset and update
  password.
- **User model** (`UserModel`):
  - its save hooks, which hash the password and stamp `passwordChangedAt`;
  - the query hook that hides inactive users;
  - `changedPasswordAfter` and the reset-token issue.
- **Route tables** (`Routes`): the user, review, booking and view routers, over a small
  model of Express routing. The routing model covers:
  - path-less `router.use`;
  - verb and pattern matching, with case-insensitive literal segments;
  - parameter binding;
  - middleware chains.
- **Generic CRUD handlers** (`Factory`), over an abstract collection.
- **ObjectIds** (`ObjectIds`): the ORM's cast of a string to an ObjectId, and the printed
  form ids and references are stored in.
- **Reviews** (`Reviews`):
  - the review validators and the unique (tour, user) index;
  - the rating aggregate `calcAverageRatings` and the hooks that rerun it;
  - the `setTourUserIds` body defaults.
- **Tours** (`Tours`):
  - the tour schema's validators and defaults, the slug save hook and the secret-tour find
    filter;
  - `aliasTopTours`, the `lat,lng` parameter check, the image upload limits and the stored
    image names.
- **User self-service handlers** (`UserController`): `filterObj`, `updateMe`, `deleteMe`,
  `getMe`, `createUser` and the profile-photo steps.
- **Pages** (`Views`): `alerts`, the tour page lookup, the my-tours join and the account
  form.
- **Error handling**:
  - the multipart upload filter and per-field limits (`Upload`);
  - the global error handler's defaulting (`Errors`).

The model is functional throughout. Requests, users, tours, reviews and errors are
immutable datatypes, and every handler is a pure function. A handler returns one of two
things:

- the next state and its answer;
- the `Step` a middleware takes, which is `next()` with an updated context or `next(err)`.

Foreign or nondeterministic inputs become parameters:

| input | how the model takes it |
|---|---|
| the clock | `nowMs`, in milliseconds |
| `crypto.randomBytes(32)` | a 32-byte sequence |
| bcrypt, the JWT signer and verifier, SHA-256 | function fields of `Crypto.Primitives` |
| whether the welcome mail was delivered | a boolean |
| the `slugify` library | a function parameter |
| the order in which concurrent image writes complete | a permutation |

The lemmas that rely on the crypto functions assume only what the application relies on:

- `JwtSound`: a signed token verifies to its own claims until `exp`, and it is a word
  made of dot-separated parts;
- `JwtEnforcesExpiry`: the verifier refuses a signed token once `exp` is reached;
- `JwtRejectsMalformed`: a string without a dot does not verify;
- `BcryptSound`: a password matches its own hash;
- `BcryptBinding`: a hash matches no other password.

The routing lemmas are stated for any middleware interpretation that satisfies
`Routes.Sound`. `Routes.Middleware` proves that the application's own middleware does.

Behaviour of the code that a reader might not expect:

- **Token errors.** A token that fails verification reaches the error handler as the
  library's error, which has no status code, so the answer is 500, not 401.
- **Signup.** The new user is stored before the welcome mail is sent. If the mail fails,
  the request fails and the user stays stored.
- **`deleteMe`.** It removes the record outright. The `{ active: false }` argument is an
  options object, so nothing is flagged inactive.
- **`forgotPassword`.**
  - It never sends mail and answers 201 without the token.
  - Its rollback branch cannot run.
- **`isLoggedIn`.** It reads only the cookie.
- **Password confirmation.** Nothing checks that `passwordConfirm` equals `password`.
- **`createOne`.** It answers 201 only for a document that passes validation. Otherwise
  the validation error reaches the error handler.
- **Update validators.** They run only over the paths an update sets. A failure writes
  nothing, because they run before the query. A path set to `undefined` stays in the
  update (the ORM does not drop undefined values by default), so the `required` validator
  refuses it: the account form fails when it lacks the name or the email.
- **Route parameters.** No router is created with `mergeParams`, so a handler's
  `req.params` holds only its own route's parameters. The review router is mounted only at
  `/api/v1/reviews` (src/app.ts:87), so the `tourId` branches of `setTourUserIds`
  (src/controllers/review.controller.ts:12) and `getAll`
  (src/controllers/handlerFactory.controller.ts:61) are never taken through it. They are
  modelled as written.
- **Ids.** The ORM casts an id to an ObjectId before the query runs, and the query
  compares the cast bytes.
  - An id that does not cast (`GET /api/v1/reviews/abc`) throws a cast error, which has no
    status code, so the answer is 500, not 404.
  - Hex digits are read in either case, so `AAAA…` (24 digits) finds the document stored
    as `aaaa…`.
  - A review's `tour` and `user` are stored as the ObjectIds they cast to, printed as 24
    lower-case hex digits. Two spellings of one tour therefore meet on the unique index,
    and the aggregate recomputes the tour stored under that id.
  - A review whose `tour` or `user` does not cast fails on save as a validation error, and
    an update that sets such a value fails its cast. Either way the answer is 500 and
    nothing is written.

## Model

| member | source | states |
|---|---|---|
| Errors.Normalize | src/controllers/error.controller.ts:22-23 | a missing or zero status code becomes 500 and any other is kept; a missing or empty status becomes 'error'; the message is kept |
| Errors.NormalizeIdempotent | src/controllers/error.controller.ts:22-23 | defaulting an error that was already defaulted changes nothing |
| Errors.StatusOfConstructors | src/controllers/error.controller.ts:22 | an application error answers with its own non-zero code; an error thrown by a library answers 500 |
| Errors.HandleError | src/controllers/error.controller.ts:5-29 | in development the answer carries the defaulted code, which is the error's own code when it had one, and the message; in production and any other environment nothing is sent |
| Crypto.ToHex | src/models/user.model.ts:86 | every byte becomes two lower-case hex digits, so the 32 random bytes give a 64-digit token |
| Crypto.HexRoundTrip | src/models/user.model.ts:86 | the bytes can be read back from their hex text |
| Crypto.HexInjective | src/models/user.model.ts:86 | two byte strings with the same hex text are equal, so distinct random draws give distinct tokens |
| Crypto.IssueClaims | src/controllers/auth.controller.ts:10-14 | a session token names the user as subject, is stamped with the current second, and expires the configured lifetime later |
| Crypto.SignedTokenVerifies | src/controllers/auth.controller.ts:87-98 | a token signed for a user verifies to that subject until its lifetime has elapsed |
| Crypto.SignedTokenExpires | src/controllers/auth.controller.ts:87-98 | once the lifetime has elapsed, the verifier refuses the token as expired |
| UserModel.CastRole | src/models/user.model.ts:31-35 | a role is one of user, guide, lead-guide and admin, and 'user' when absent; any other value fails validation |
| UserModel.RoleRoundTrip | src/models/user.model.ts:31-35 | every role is stored under a name that casts back to it |
| UserModel.FindFirst | src/models/user.model.ts:60-63 | a query returns the first user the filter accepts among active users only; it returns none exactly when no active user matches |
| UserModel.FindById | src/models/user.model.ts:60-63 | lookup by id never returns an inactive user, and returns none only when no active user has the id |
| UserModel.FindByIdUnique | src/models/user.model.ts:60-63 | with unique ids, every active user is found by their id |
| UserModel.CastEmail | src/models/user.model.ts:29 | emails are stored and queried in lower case |
| UserModel.FindByEmail | src/models/user.model.ts:60-63 | lookup by email compares against the lower-cased query and skips inactive users |
| UserModel.FindByEmailUnique | src/models/user.model.ts:29 | with the unique email index, an active user is found by any spelling of their email that lower-cases to it |
| UserModel.Replace | src/controllers/auth.controller.ts:189-190 | saving a stored document replaces the record with its id and no other, and keeps every position |
| UserModel.ReplaceKeepsIds | src/controllers/auth.controller.ts:189-190 | saving keeps ids unique, and the saved record is in the collection |
| UserModel.DeleteById | src/controllers/user.controller.ts:90 | the delete passes through the query hook that hides inactive users: the first active record with the id is removed and nothing else, an inactive record with the id stays, and with no such record the collection is unchanged |
| UserModel.DeleteByIdRemovesId | src/models/user.model.ts:60-63 | with unique ids, no active record with the id survives its deletion |
| UserModel.ChangedPasswordAfter | src/models/user.model.ts:72-83 | false without a recorded change; otherwise true iff the token's issue second is before the change time in seconds |
| UserModel.HashPasswordHook | src/models/user.model.ts:46-52 | an unmodified password leaves the document alone; a modified one is replaced by its bcrypt hash, the confirmation is dropped, and nothing else changes |
| UserModel.PasswordChangedAtHook | src/models/user.model.ts:54-58 | `passwordChangedAt` becomes one second before now only when the password was modified on a document that is not new; nothing else changes |
| UserModel.Save | src/models/user.model.ts:26-58 | with validation on, a missing required path fails the save; otherwise the saved user holds the hashed password, no confirmation and the stamped change time, and every other path unchanged |
| UserModel.SavedPasswordMatches | src/models/user.model.ts:46-70 | the plaintext a password was saved from matches the stored hash |
| UserModel.TokenIssuedAfterChangeIsFresh | src/models/user.model.ts:54-83 | thanks to the one-second backdate, a token issued no earlier than the password change is not stale |
| UserModel.TokenIssuedBeforeChangeIsStale | src/models/user.model.ts:54-83 | a token issued more than a second before the change is stale |
| UserModel.CreatePasswordResetToken | src/models/user.model.ts:85-97 | the returned token is 64 hex digits encoding the random bytes; only its SHA-256 digest is stored; the expiry is ten minutes from now; nothing else changes |
| UserModel.CreatePasswordResetTokenAsWritten | src/models/user.model.ts:94 | as written, the same token and digest are produced, but the stored expiry is left as it was |
| UserModel.IssuedResetTokenMatches | src/models/user.model.ts:89-94 | a freshly issued token matches its holder's record exactly until ten minutes have passed |
| UserModel.ReissueSupersedes | src/models/user.model.ts:85-97 | issuing a second token leaves the record as if only the second had been issued; when the two digests differ, the first token stops matching |
| Auth.ExtractToken | src/controllers/auth.controller.ts:102-111 | a header starting with "Bearer" decides alone: its second space-separated word is the token, if non-empty; otherwise the `jwt` cookie is the token when non-empty |
| Auth.BearerHeaderWins | src/controllers/auth.controller.ts:104-108 | "Bearer <token>" yields that token whatever the cookie holds |
| Auth.BareBearerIgnoresCookie | src/controllers/auth.controller.ts:104-117 | a bare "Bearer" header yields no token, and the cookie is not consulted |
| Auth.Resolve | src/controllers/auth.controller.ts:119-138 | a session resolves only to an active stored user that the verified token names, whose password has not changed since issue; otherwise it fails with a token error, "user gone" or "password changed" |
| Auth.Protect | src/controllers/auth.controller.ts:100-146 | without a token the answer is 401; on success `req.user` and `res.locals.user` both hold the resolved user and nothing else changes; no failure is a 403 |
| Auth.ProtectAdmits | src/controllers/auth.controller.ts:119-144 | every valid session of an active user passes the gate as that user |
| Auth.ProtectRejectsStale | src/controllers/auth.controller.ts:134-138 | a verified token of a user who changed their password after it was issued is refused with 401 |
| Auth.IsLoggedIn | src/controllers/auth.controller.ts:148-168 | never fails and never touches `req`; `res.locals.user` changes only to a user whom the cookie's session resolves to |
| Auth.IsLoggedInAgreesWithProtect | src/controllers/auth.controller.ts:148-168 | without an Authorization header, the optional gate attaches the identity `protect` would, and passes the request on untouched where `protect` fails |
| Auth.IsLoggedInIgnoresHeader | src/controllers/auth.controller.ts:148-149 | the Authorization header has no effect on the optional gate |
| Auth.RestrictTo | src/controllers/auth.controller.ts:172-181 | passes the request on unchanged iff the current user's role is listed, and answers 403 otherwise |
| Auth.GuardOutcomes | src/controllers/auth.controller.ts:100-181 | gate then policy: an unauthenticated request gets the gate's error, never 403; an authenticated one passes iff its role is listed, and 403 otherwise |
| Auth.Signup | src/controllers/auth.controller.ts:42-57 | the collection only grows, by at most one user; a success stores a new 'user'-role, active account with the lower-cased email and hashed password and answers 201 with its token; complete, fresh credentials with delivered mail always succeed |
| Auth.SignupAcceptsMismatchedConfirmation | src/models/user.model.ts:36-37 | for every body, any two non-empty confirmations give the same signup, so a confirmation that differs from the password is accepted whenever the rest of the body is |
| Auth.Login | src/controllers/auth.controller.ts:59-75 | missing fields give 400; a success is a stored active user whose email and password match, with a token; the collection never changes |
| Auth.LoginFailuresIndistinguishable | src/controllers/auth.controller.ts:67-71 | an unknown email and a wrong password give the identical 401 |
| Auth.LoginAdmitsStoredUser | src/controllers/auth.controller.ts:59-75 | the right password for a stored active user logs exactly that user in |
| Auth.Logout | src/controllers/auth.controller.ts:77-85 | the answer is 200; the session cookie is replaced by the placeholder 'loggedout', which contains no dot and so cannot be a token, and expires after now; nothing else in the request changes |
| Auth.LogoutEndsSession | src/controllers/auth.controller.ts:77-85 | after logout, a request with no Authorization header is refused by `protect` as malformed and gets no user from `isLoggedIn`, whatever token the cookie held |
| Auth.ForgotPassword | src/controllers/auth.controller.ts:183-214 | an unknown email gives 404 and changes nothing; otherwise the user's record gets a fresh reset digest and expiry and the answer is 201 |
| Auth.ForgotPasswordAsWritten | src/controllers/auth.controller.ts:183-214 | as written, the answer is the same, but no record ends up with an expiry the collection did not already hold |
| Auth.FindByResetToken | src/controllers/auth.controller.ts:218-226 | the reset lookup finds an active user whose stored digest is that of the token and whose expiry lies after now; it finds none only when no such user exists |
| Auth.ResetPassword | src/controllers/auth.controller.ts:216-238 | only a matching, unexpired token succeeds; the success stores the bcrypt hash of the new password with a change stamp one second before now (when it differs from the stored value), clears both reset fields, changes no other path, saves only that user and logs them in; every failure changes nothing |
| Auth.ResetPasswordAsWritten | src/controllers/auth.controller.ts:230-234 | as written, a successful reset leaves the stored expiry in place |
| Auth.UpdatePassword | src/controllers/auth.controller.ts:240-258 | a wrong current password gives 401 and saves nothing; a success requires the right current password, stores the bcrypt hash of the new password with a change stamp one second before now (when it differs from the stored value), changes no other path, replaces only the current user's record and issues a fresh token |
| Auth.AsWrittenResetAlwaysRejected | src/controllers/auth.controller.ts:223-233 | as written, on a collection where no expiry was ever stored, every reset after `forgotPassword` is refused with 400, at any time and for any token |
| Auth.ForgotThenResetSucceeds | src/controllers/auth.controller.ts:183-238 | with the expiry stored, the token `forgotPassword` issues lets its owner set a new password within ten minutes: hashed, change-stamped, reset fields cleared, and the owner logged in |
| Auth.IssuedTokenFindsOwner | src/controllers/auth.controller.ts:223-226 | once the issued digest is saved, the token finds its owner until it expires |
| Auth.ResetTokenSingleUse | src/controllers/auth.controller.ts:230-236 | after a successful reset the same token is refused at any later time |
| Auth.UpdatePasswordTokenAuthenticates | src/controllers/auth.controller.ts:252-256 | the token `updatePassword` answers with passes the gate as the updated user until it expires |
| Auth.UpdatePasswordThenLogin | src/controllers/auth.controller.ts:252-254 | after `updatePassword`, login with the new password logs the user in, and login with the password it replaced fails |
| Auth.OldTokenRejectedAfterUpdate | src/controllers/auth.controller.ts:134-138 | a session issued more than a second before a password update is refused after it, though it still verifies |
| Auth.SignupThenLogin | src/controllers/auth.controller.ts:42-75 | logging in with the credentials just signed up with logs the new user in |
| Upload.Accept | src/controllers/user.controller.ts:17-29 | the in-order check accepts the files unchanged, or fails with the image error or the library's `Unexpected field` error |
| Upload.AcceptWithinLimits | src/controllers/tour.controller.ts:15-37 | the in-order check accepts iff every file is an image under a configured field and no field receives more than its limit |
| Upload.Single | src/controllers/user.controller.ts:26-31 | a request without files passes; otherwise it passes iff it is one image under the field, which becomes `req.file`; every failure is the 400 image error or a library error |
| Upload.Fields | src/controllers/tour.controller.ts:29-37 | an accepted upload is grouped by field, in arrival order, each group within its limit and only fields that received files present |
| UserController.FilterObj | src/controllers/user.controller.ts:49-55 | the kept keys are exactly the object's keys that are allowed, with their values unchanged |
| UserController.FilterObjCompose | src/controllers/user.controller.ts:49-55 | filtering twice is filtering once by both whitelists; filtering is idempotent |
| UserController.UpdateProfile | src/controllers/user.controller.ts:75-79 | a success needs a non-empty name and email and an email no other user has; it rewrites only the active user with the id, giving the name, lower-cased email and photo the update sets and keeping every other path; a failure or a missing user (answered null) writes nothing |
| UserController.UpdateMe | src/controllers/user.controller.ts:62-86 | a body with a password or its confirmation gives 400 and writes nothing; otherwise only the whitelisted profile update is applied to the current user |
| UserController.ProfileUpdate | src/controllers/user.controller.ts:72-73 | the update holds at most name, email and photo: name and email as the body gave them, and the photo as the uploaded file's stored name |
| UserController.UpdateMeKeepsCredentials | src/controllers/user.controller.ts:72-79 | `updateMe` never changes the password, its change time, the role, the activity flag or the reset digest |
| UserController.DeleteMe | src/controllers/user.controller.ts:88-97 | answers 204 with a signed-in user, whether or not a record was found; the current user's active record is removed and every other record kept; without `req.user` the handler throws and nothing changes |
| UserController.DeletedUserIsGone | src/controllers/user.controller.ts:90 | after `deleteMe` the user is found neither by id nor by email, while every other active user is still found |
| UserController.GetMe | src/controllers/user.controller.ts:57-60 | `params.id` becomes the current user's id, and nothing else changes |
| UserController.UploadUserPhoto | src/controllers/user.controller.ts:31 | at most one image under `photo` is admitted and becomes `req.file`; a request without files passes unchanged |
| UserController.UserPhotoNameRoundTrip | src/controllers/user.controller.ts:37 | for a user id without '-' (database ids are hex), the stored photo name can be read back into the id and the timestamp |
| UserController.UserPhotoNameInjective | src/controllers/user.controller.ts:37 | for ids without '-', two uploads get the same photo name only for the same user at the same millisecond |
| UserController.ResizeUserPhoto | src/controllers/user.controller.ts:33-47 | without a file it does nothing; with one but no current user it fails; otherwise only the file's name changes, to `user-<id>-<timestamp>.jpeg` |
| Tours.CastDifficulty | src/models/tour.model.ts:42-49 | a difficulty is exactly one of easy, medium and difficult, and is stored under that name |
| Tours.Trimmed | src/models/tour.model.ts:28-35 | a string path holds its trimmed value; an absent one stays absent |
| Tours.Violations | src/models/tour.model.ts:26-97 | the reported paths are exactly those that fail their validator |
| Tours.ValidIffNoViolations | src/models/tour.model.ts:26-97 | a tour validates iff no path is reported |
| Tours.Defaults | src/models/tour.model.ts:50-80 | a created tour has its name and summary trimmed, an average rating of 4.5, a quantity of 0, `secretTour` false and start-location type 'Point' unless given |
| Tours.NewTour | src/models/tour.model.ts:26-116 | a tour is created iff its input validates, and is then stored with its defaults and slug |
| Tours.NewTourWellFormed | src/models/tour.model.ts:26-97 | every created tour has a trimmed name of 10 to 40 characters, a non-empty trimmed summary, a cover, an average in [1, 5] and a 'Point' start location |
| Tours.SaveHook | src/models/tour.model.ts:113-116 | saving sets the slug from the name and changes nothing else |
| Tours.SlugDependsOnNameOnly | src/models/tour.model.ts:113-116 | tours with the same name get the same slug whatever else differs; saving twice is saving once |
| Tours.RevalidateStored | src/models/tour.model.ts:26-97 | a well-formed stored tour, read back as input, validates again to itself |
| Tours.FindTour | src/models/tour.model.ts:118-121 | a find returns the first tour the filter accepts among visible tours; it returns none only when no visible tour matches; secret tours are never returned |
| Tours.FindAll | src/models/tour.model.ts:118-121 | listing tours returns exactly the tours that are not secret |
| Tours.AliasTopTours | src/controllers/tour.controller.ts:69-74 | the query asks for limit 5, sort '-ratingsAverage,price' and the fixed field list; every other query key is unchanged |
| Tours.AliasTopToursIdempotent | src/controllers/tour.controller.ts:69-74 | aliasing twice is aliasing once |
| Tours.ParseLatLng | src/controllers/tour.controller.ts:134-147 | the parameter is accepted iff splitting on ',' gives a non-empty first and second part, which are the latitude and longitude; otherwise 400 |
| Tours.LatLngRoundTrip | src/controllers/tour.controller.ts:161-173 | writing a coordinate pair as "lat,lng" and parsing it gives the pair back |
| Tours.UploadTourImages | src/controllers/tour.controller.ts:34-37 | an upload is accepted iff it is all images, with at most one cover and at most three images, under those two fields |
| Tours.PushedNames | src/controllers/tour.controller.ts:50-63 | each pushed name is that of the image whose write completed at that position |
| Tours.PushedNamesCoverAll | src/controllers/tour.controller.ts:50-63 | every image's own name is in the body, whatever order the writes complete in |
| Tours.SequentialOrderKeepsPositions | src/controllers/tour.controller.ts:52-61 | when the writes complete in upload order, image i's name is at position i |
| Tours.ResizeTourImagesAsWritten | src/controllers/tour.controller.ts:39-41 | as written, a request that was not multipart fails; otherwise it behaves as intended |
| Tours.ResizeTourImages | src/controllers/tour.controller.ts:39-67 | a no-op unless both a cover and images arrived; then the cover is named `tour-<id>-<ts>-cover.jpeg` and the image names, each carrying its upload index, are listed in the order the writes complete |
| Tours.ResizeWithoutMultipartFails | src/controllers/tour.controller.ts:41 | a request without files fails as written and passes through as intended |
| Factory.FindIndex | src/controllers/handlerFactory.controller.ts:45 | lookup by id finds the first document the model's find filter shows whose id is the ObjectId the given id casts to; it finds none only when no shown document has that ObjectId |
| Factory.SameCastSameIndex | src/controllers/handlerFactory.controller.ts:11-45 | two ids that cast to the same ObjectId find the same document |
| Factory.SpellingsAnswerAlike | src/controllers/handlerFactory.controller.ts:9-55 | an id in upper-case hex is read, updated and deleted exactly as its lower-case form is |
| Factory.DeleteOne | src/controllers/handlerFactory.controller.ts:9-16 | an id that is not an ObjectId gives the cast error (500) and a missing id gives 404, both removing nothing; otherwise 204 and that document is removed |
| Factory.DeleteOneKeepsOthers | src/controllers/handlerFactory.controller.ts:9-16 | a successful delete shortens the collection by one and keeps every other document in order |
| Factory.UpdateOne | src/controllers/handlerFactory.controller.ts:18-31 | an id that is not an ObjectId gives the cast error (500) and writes nothing; so does a failing update validator; a missing id gives 404; otherwise 200 with the updated document and no `results` count, and it replaces the found one and nothing else |
| Factory.GetOne | src/controllers/handlerFactory.controller.ts:43-55 | the cast error (500) exactly when the id is not an ObjectId; 404 exactly when it is one and no shown document has it; otherwise 200 with that document and no `results` count; nothing changes |
| Factory.CreateOne | src/controllers/handlerFactory.controller.ts:33-41 | a document that validates is appended and answered with 201 and no `results` count; an invalid one fails and changes nothing |
| Factory.Matching | src/controllers/handlerFactory.controller.ts:57-69 | the listed documents are exactly the shown ones in scope of the route's `tourId`, and there are no more of them than stored documents |
| Factory.GetAll | src/controllers/handlerFactory.controller.ts:57-76 | 200 with exactly the shown documents in scope, and `results` equal to how many there are |
| Factory.GetAllNestedOnlyThatTour | src/controllers/handlerFactory.controller.ts:61 | on a nested route every listed document belongs to that tour |
| Factory.HiddenIsNotFound | src/controllers/handlerFactory.controller.ts:9-55 | a document the find filter hides cannot be read, updated or deleted: each gives 404, or the cast error when the id is not an ObjectId |
| ObjectIds.Cast | src/models/review.model.ts:17-18 | the cast the ORM applies to ids in `findById` (src/controllers/handlerFactory.controller.ts:11, 20, 45) and to `ObjectId` paths: it succeeds exactly for 24 hex digits in either case or any 12 characters, and gives 12 bytes, read from the hex without regard to case |
| ObjectIds.Hex | src/models/review.model.ts:17-18 | an id's printed form is 24 lower-case hex digits that cast back to the same bytes |
| ObjectIds.Ref | src/models/review.model.ts:17-18 | a reference that casts is stored in printed form; a missing one stays missing and one that does not cast is kept for the validators to refuse |
| ObjectIds.CaseIgnored | src/models/review.model.ts:17-18 | an id in upper-case hex casts to the same ObjectId as its lower-case form, so a stored id matches both |
| ObjectIds.HexCanonical | src/models/review.model.ts:17-18 | printing is idempotent, and two ids cast alike exactly when they print alike |
| ObjectIds.StoredFormFixed | src/models/review.model.ts:17-18 | an id already in printed form is its own printed form, so stored references compared directly are compared as ObjectIds |
| Reviews.NewReview | src/models/review.model.ts:13-19 | a created review keeps the body's text and rating and stores its tour and user as the ObjectIds they cast to |
| Reviews.Patch | src/controllers/handlerFactory.controller.ts:20-23 | an update replaces exactly the paths it sets, a tour or user as the ObjectId it casts to, and keeps the id |
| Reviews.PatchKeepsValid | src/models/review.model.ts:13-19 | an update that casts and passes the update validators keeps a valid review valid, ObjectId tour and user included |
| Reviews.Group | src/models/review.model.ts:35-44 | no group without reviews; otherwise the count of the tour's reviews, and an average that, times the number of rated reviews, is their rating sum (null when none is rated) |
| Reviews.RatingSumBounds | src/models/review.model.ts:16 | ratings in [1, 5] sum to between k and 5k over k rated reviews |
| Reviews.AverageInRange | src/models/review.model.ts:35-44 | the aggregate's mean of valid ratings lies in [1, 5] |
| Reviews.SetRatings | src/models/review.model.ts:47-55 | tours with another id are unchanged, and each tour either keeps its values or takes the new quantity and average; the first visible tour with the id is found with them afterwards; when no visible tour has the id nothing changes |
| Reviews.CalcAverageRatings | src/models/review.model.ts:34-57 | afterwards the tour's quantity and average agree with its reviews (0 and 4.5 without reviews), and no other tour changes |
| Reviews.NoReviewsResetsTour | src/models/review.model.ts:51-56 | with no reviews left, the tour is back at quantity 0 and average 4.5 |
| Reviews.RecomputedAverageInRange | src/models/review.model.ts:46-50 | when every review is valid, the recomputed average is one the tour schema accepts |
| Reviews.FindReview | src/models/review.model.ts:63-66 | the lookup finds the first review whose id is the ObjectId the given id casts to, or none when no review has it |
| Reviews.SameCastSameReview | src/models/review.model.ts:63-66 | two ids that cast to the same ObjectId find the same review |
| Reviews.ReviewSpellingsAlike | src/models/review.model.ts:63-70 | an upper-case spelling of a review id updates and deletes that review, as written and corrected alike |
| Reviews.CreateSpellingsAlike | src/models/review.model.ts:17-27 | a tour spelt in upper-case hex gives the same creation as its lower-case form: the same stored pair, the same unique-index verdict and the same recomputed tour |
| Reviews.CreateReview | src/models/review.model.ts:13-61 | a review is created iff it validates, its tour and user included as ObjectIds, and its (tour, user) pair, compared as ObjectIds, is free; it is then appended with both stored in printed form, its tour's aggregate is current, and pairs stay unique; a failure changes nothing |
| Reviews.UpdateReview | src/models/review.model.ts:63-70 | an id or a set tour or user that is not an ObjectId gives the cast error; then the update validators, then 404 for a missing review, then the unique pair; a success replaces only that review and brings the tour it had before the update up to date, leaving other tours alone |
| Reviews.UpdateReviewAsWritten | src/models/review.model.ts:63-70 | as written, an accepted update of a well-formed id no review has fails with the post hook's TypeError; otherwise it behaves as intended |
| Reviews.DeleteReview | src/models/review.model.ts:63-70 | an id that is not an ObjectId gives the cast error; a missing review gives 404; otherwise 204, that review is removed, its tour's aggregate is current, and pairs stay unique |
| Reviews.RemoveKeepsUnique | src/models/review.model.ts:27 | removing a review cannot create a duplicate (tour, user) pair |
| Reviews.DeleteReviewAsWritten | src/models/review.model.ts:63-70 | as written, deleting by a well-formed id no review has fails with the post hook's TypeError; otherwise it behaves as intended |
| Reviews.MissingReviewIsServerError | src/models/review.model.ts:68-70 | for a well-formed id no review has, the hooks as written answer 500 where the handlers intend 404 |
| Reviews.MalformedIdIsServerError | src/models/review.model.ts:17-18 | an id that is not an ObjectId makes delete and update a 500 that changes nothing, as written and corrected alike; a review naming such a tour is refused with a validation error |
| Reviews.MovedReviewLeavesNewTourStale | src/models/review.model.ts:63-70 | moving a review to another tour leaves the tour it joined with its old aggregate |
| Reviews.SetTourUserIds | src/controllers/review.controller.ts:11-15 | a missing or empty `tour` becomes the route's `tourId`, and a missing or empty `user` becomes the current user's id; no other body key and nothing else changes; it fails exactly when the user must be defaulted and `req.user` is undefined |
| Reviews.SetTourUserIdsKeepsSupplied | src/controllers/review.controller.ts:12-13 | a tour and a user the client supplied are kept as they are |
| Reviews.NestedCreateHasTourAndUser | src/controllers/review.controller.ts:11-15 | on a nested route with a signed-in user the body always ends up with a tour and a user |
| Views.Alerts | src/controllers/view.controller.ts:8-14 | the booking alert is set exactly when the query's alert is 'booking'; nothing else changes |
| Views.AlertsIdempotent | src/controllers/view.controller.ts:8-14 | running the step twice is running it once |
| Views.GetTour | src/controllers/view.controller.ts:24-36 | the page shows a visible tour with the slug, and is 404 exactly when there is none |
| Views.SecretTourHasNoPage | src/controllers/view.controller.ts:26-32 | a secret tour has no page even when its slug is known |
| Views.BookedTourIds | src/controllers/view.controller.ts:48-50 | the ids are exactly the tours of the user's bookings |
| Views.ToursWithIds | src/controllers/view.controller.ts:51 | the listed tours are exactly the visible tours whose id is listed |
| Views.GetMyTours | src/controllers/view.controller.ts:46-55 | the page lists exactly the visible tours that some booking of the current user refers to, and fails exactly when there is no current user |
| Views.OthersBookingsIgnored | src/controllers/view.controller.ts:48-51 | another user's booking never changes my page |
| Views.UpdateUserData | src/controllers/view.controller.ts:57-69 | a form lacking the name or the email fails validation and writes nothing, as does an empty one; on success the stored name and email are the submitted ones (the email lower-cased), no other user holds that email, and every other path of the user is kept; a signed-in user with both fields filled, found active, whose email no one else holds, always succeeds |
| Views.UpdateUserDataOnlyNameAndEmail | src/controllers/view.controller.ts:59-63 | the account form leaves the photo, the credentials, the role and the activity flag as they were |
| Routes.Apply | src/controllers/auth.controller.ts:100-181 | the role check is `restrictTo`; no other middleware answers 403; the optional gate never fails and leaves the request alone; a passing session gate has set `req.user` |
| Routes.Middleware | src/controllers/auth.controller.ts:100-181 | the application's middleware satisfies what the routing facts assume, and its session gate is `protect` |
| Routes.Dispatch | src/routes/user.route.ts:27-45 | a router reaches only handlers it mounts; with sound middleware and no role check in any layer, it never answers 403 |
| Routes.UseFirst | src/routes/user.route.ts:34 | a path-less `use` runs for every request that reaches it: its failure is the router's answer, and its success hands its context to the rest |
| Routes.UserPublicRoutesOpen | src/routes/user.route.ts:27-32 | the five public routes run as they are, whatever the request carries |
| Routes.SignupNeedsNoSession | src/routes/user.route.ts:27 | any request, with or without a session token, reaches `signup` with no route parameters and otherwise unchanged |
| Routes.LoginNeedsNoSession | src/routes/user.route.ts:28 | any request, with or without a session token, reaches `login` with no route parameters and otherwise unchanged |
| Routes.LogoutNeedsNoSession | src/routes/user.route.ts:29 | any request, with or without a session token, reaches `logout` with no route parameters and otherwise unchanged |
| Routes.ForgotPasswordNeedsNoSession | src/routes/user.route.ts:31 | any request, with or without a session token, reaches `forgotPassword` through the mixed-case path the route declares, with no route parameters and otherwise unchanged |
| Routes.ResetPasswordNeedsNoSession | src/routes/user.route.ts:32 | any request, with or without a session token, reaches `resetPassword` with `req.params` exactly `{ token }`, whatever parameters it carried before |
| Routes.UserRouterNeedsSession | src/routes/user.route.ts:34 | every other user route needs a session: without one the answer is the gate's error, never 403 |
| Routes.UserRouterLayers | src/routes/user.route.ts:34-45 | past the gate, the self-service routes come first, then the admin role check, then the admin routes |
| Routes.UserRouterGate | src/routes/user.route.ts:34-45 | with a session, the self-service routes run for every role; anything past them is 403 for anyone but an admin |
| Routes.CreateUserOnlyForAdmins | src/routes/user.route.ts:41-43 | a signed-in admin's `POST /` reaches `createUser`, which answers 500 whatever the body (src/controllers/user.controller.ts:99-104); every other role gets 403 |
| Routes.MeReachesOwnRecord | src/routes/user.route.ts:37 | `GET /me` reaches `getUser` for every signed-in role, as that user and with the caller's own id as the only parameter |
| Routes.PublicTable | src/routes/user.route.ts:27-32 | no public route ends at a user-management handler |
| Routes.SelfTable | src/routes/user.route.ts:36-39 | no self-service route ends at a user-management handler |
| Routes.AdminTable | src/routes/user.route.ts:43-45 | the user-management routes run no middleware of their own |
| Routes.OnlyAdminManagesUsers | src/routes/user.route.ts:41-45 | listing, creating, updating and deleting users are reached only with an admin in `req.user` |
| Routes.SelfRoutesAnyRole | src/routes/user.route.ts:36-39 | an authenticated request to a self-service route is never refused for its role |
| Routes.ReviewsNeedSession | src/routes/review.route.ts:14 | every review request needs a session: without one the answer is the gate's error, never 403 |
| Routes.ReviewListAnyRole | src/routes/review.route.ts:18 | listing reviews is open to every signed-in role, with no route parameters bound |
| Routes.ReviewReadAnyRole | src/routes/review.route.ts:23 | reading one review is open to every signed-in role, with `req.params` exactly `{ id }` |
| Routes.ReviewCreateOnlyUsers | src/routes/review.route.ts:19 | creating a review is 403 for every role but 'user', and the body defaults run only after that check, with no route parameters bound |
| Routes.ReviewCreateNeverDefaultsTour | src/routes/review.route.ts:12-19 | through the review router a new review names only the tour its body names, since no `tourId` is ever bound; its author defaults to the caller |
| Routes.ReviewWritesUserOrAdmin | src/routes/review.route.ts:24-25 | updating and deleting a review are reached iff the role is user or admin, and 403 otherwise |
| Routes.BookingRouterPolicy | src/routes/booking.route.ts:13-21 | without a session the answer is the gate's error, never 403; with one, every path is 403 unless the role is admin or lead-guide |
| Routes.BookingTable | src/routes/booking.route.ts:19-21 | the booking routes run no middleware of their own |
| Routes.BookingsOnlyForStaff | src/routes/booking.route.ts:17-21 | every booking handler is reached only by an admin or a lead guide |
| Routes.ViewsNeverForbid | src/routes/view.route.ts:14-21 | no page is ever refused with 403 |
| Routes.OptionalGateViews | src/routes/view.route.ts:14-16 | the overview, tour and login pages are always reached, and never with a `req.user` the request did not bring |
| Routes.ProtectedViews | src/routes/view.route.ts:17-21 | the account, my-tours and account-form pages answer with the gate's error when there is no session |
| Routes.ProtectedViewsSeeUser | src/routes/view.route.ts:17-21 | those pages' handlers always see `req.user` |
| Routes.ViewGates | src/routes/view.route.ts:14-21 | the three pages with private data use `protect`, and the other three use the optional gate |

## Left out

- Cryptography is not modelled. bcrypt, JWT signing and verification, SHA-256 and random
  bytes are abstract parameters, and their assumed properties are stated as predicates.
- The clock is not modelled. `Date.now()` is a parameter.
- HTTP plumbing is left out:
  - cookie options;
  - JSON body shapes;
  - the `password = undefined` before replying;
  - template rendering.

  Only status codes, the state written and the values handed to handlers are modelled.
- The trivial pages are not modelled separately:
  - `getOverview` is the tour listing `Tours.FindAll`;
  - `getLoginForm` and `getAccount` only render.
- The email transport is a parameter:
  - signup takes whether the welcome mail was delivered;
  - `forgotPassword` sends no mail.
- Image processing and file writes (sharp, the multer memory buffers) are I/O. Only the
  names given to the files are modelled.
- The `Promise.all` in `resizeTourImages` is concurrent. Its completion order is a
  parameter, and the clock reading for each image is a separate parameter.
- The database aggregations and geospatial queries are not modelled. This covers
  `getTourStats`, `getMonthlyPlan` and the `getToursWithin` and `getDistances` queries
  past their `latlng` check:
  - their radius and distance arithmetic is floating point;
  - they are database internals.
- `durationWeeks` and `populate` are not modelled; they change no stored state.
- `APIFeatures` is not modelled. Its filtering, sorting, field selection and pagination
  belong to a utility outside this model. `getAll` lists every matching document; the
  order of the list is not stated.
- `slugify` is not part of this model. It is a function parameter.
- The tour and booking handlers, other than their access table, are not modelled. The
  tour router and `src/app.ts` are outside this model: the rate limiter, the middleware
  stack, the server and the database connection.
- The `post('save')` hook on reviews is not awaited. The model completes the recompute
  before the answer, so a reader that overlaps with it is not modelled.
- Reviews.UpdateReview and Reviews.DeleteReview follow an assumption about the ORM: the
  `pre(/^findOneAnd/)` hook can run `findOne` on the query before the query itself runs.
  Newer releases of the ORM refuse to run the same query twice, and that refusal is not
  modelled.
- Reviews.UpdateReview does not model casting a rating from text. Its input is the
  rating after casting, and a value that fails to cast is not represented.
- Tours.NewTour does not check the unique index on the tour name. The paths without
  validators (`priceDiscount`, `description`, `images`, `startDates`, `locations`,
  `guides`) are not represented.
- Tours.Violations reports which paths fail, not the messages of the validation error.
  Its length bounds on the name count characters, where the source counts UTF-16 code
  units, so a name with characters outside the Basic Multilingual Plane is measured
  differently.
- Tours.Trimmed measures and trims characters, where JavaScript works on UTF-16 code
  units. A character outside the Basic Multilingual Plane is one character here and two
  units there; trimming gives the same string either way.
- UserModel.CastEmail lower-cases ASCII letters only. JavaScript's `toLowerCase` also
  maps the other Unicode upper-case letters, so an email with such letters is stored
  differently.
- UserModel.FindByEmail inherits the ASCII-only lower-casing of UserModel.CastEmail.
- UserModel.FindByEmailUnique inherits the ASCII-only lower-casing of
  UserModel.CastEmail: an email that differs only in non-ASCII case is not found.
- Tours.ResizeTourImages states the image names only when the completion order and the
  clock readings fit the number of images. When they do not fit, the parameters
  describe no real run.
- UserModel.ChangedPasswordAfter compares over the reals. The source divides in
  floating point, which is exact for millisecond timestamps of realistic size.
- Errors.HandleError omits two parts of the development body: the error object and its
  stack.
- Errors.AppError leaves the status text undefined. The text the `AppError` class
  derives ('fail' or 'error') comes from a utility outside this model, so the handler's
  defaulting is stated for every value of it.
- Upload.Single states the multer error's message only for the image filter. For the
  library's own errors it states only that they carry no status code.
- ObjectIds.Cast accepts every 12-character string and takes it as the id's bytes, each
  character code reduced to its low byte. This follows the driver releases that read such
  a string as a binary string. Releases that refuse some of them, or encode them as
  UTF-8, are not modelled.
- UserModel.FindById compares ids as strings, not through the cast. Its callers pass the
  id printed in a signed token or taken from `req.user`, which is already in the stored
  form.
- Reviews.CalcAverageRatings and Reviews.SetRatings compare tour ids as strings. The tour
  id they receive is a review's stored reference, which is in printed form, and tour ids
  are held in that form too.
- Factory.Matching compares a review's tour with the `tourId` parameter as strings,
  without the cast. That branch is never taken through the review router.
- Routes.Dispatch stops at `Unmatched` when no layer answers. The routers after it and
  the 404 fallback belong to the application wiring.

## Findings

| source | as written | input that shows it | evidently intended | confidence | as-written member | corrected member |
|---|---|---|---|---|---|---|
| src/models/user.model.ts:94 | the reset expiry is assigned to `passwordresetExpires`, a path the schema does not declare, so it is never stored; `resetPassword` clears the same misspelt path (src/controllers/auth.controller.ts:233) | a user created by signup calls `forgotPassword`, then `resetPassword` with the issued token one minute later: the lookup needs `passwordResetExpires > now`, finds nothing and answers 400 | the expiry is stored in `passwordResetExpires`, and the token resets the password for ten minutes | high; not executed | Auth.AsWrittenResetAlwaysRejected | Auth.ForgotThenResetSucceeds |
| src/controllers/tour.controller.ts:41 | `req.files.imageCover` is read without checking `req.files`, which the upload step leaves undefined for a request that is not multipart | a JSON `PATCH` of a tour with no files: reading `imageCover` of undefined throws, and the update is answered 500 | no files means the step does nothing and the update proceeds | medium; not executed | Tours.ResizeWithoutMultipartFails | Tours.ResizeTourImages |
| src/models/review.model.ts:68-70 | the `post(/^findOneAnd/)` hook reads `this.r.constructor`, but the `pre` hook stored `null` when no review has the id | `DELETE` or `PATCH` of a well-formed review id that does not exist: the hook throws a TypeError and the answer is 500 instead of the handler's 404 | a missing review is answered with 404 and no recompute | medium; not executed | Reviews.MissingReviewIsServerError | Reviews.DeleteReview |

=== FILE: auth.dfy ===
/** The authentication controller (src/controllers/auth.controller.ts): the session gate
    (`protect`), the optional gate (`isLoggedIn`), the role policy (`restrictTo`) and the
    credential operations (signup, login, forgot/reset/update password). */
module Auth {
  import opened Common
  import opened Errors
  import opened Crypto
  import opened UserModel
  import opened Http

  // ---------------------------------------------------------------- error values

  const NotLoggedIn: Err := AppError("You are not logged in! Please log in to get access.", 401)
  const UserGone: Err := AppError("The user belonging to this token does no longer exist", 401)
  const PasswordChanged: Err := AppError("User recently changed password! Please log in again", 401)
  const Forbidden: Err := AppError("You do not have permission to perform this action", 403)
  const MissingCredentials: Err := AppError("Please provide email and password!", 400)
  const IncorrectCredentials: Err := AppError("Incorrect email or password", 401)
  const NoUserWithEmail: Err := AppError("There is no user with email address", 404)
  const InvalidResetToken: Err := AppError("Token is invalid or has expired", 400)
  const CurrentUserMissing: Err := AppError("Someting wrong happened", 500)
  const WrongCurrentPassword: Err := AppError("Your current password is wrong", 401)

  /** What the token library throws; it carries no status code. */
  function JwtError(f: JwtFailure): Err {
    match f
    case Expired => LibraryError("TokenExpiredError: jwt expired")
    case InvalidSignature => LibraryError("JsonWebTokenError: invalid signature")
    case Malformed => LibraryError("JsonWebTokenError: jwt malformed")
  }

  /** bcrypt's comparison called with an undefined argument throws. */
  const HashMissing: Err := LibraryError("Error: data and hash arguments required")

  /** `req.user.<field>` read while `req.user` is undefined. */
  const NoCurrentUser: Err := LibraryError("TypeError: Cannot read properties of undefined")

  // ---------------------------------------------------------------- token extraction

  /** An `Authorization` header that is present and starts with "Bearer". */
  predicate HasBearerHeader(req: Req) {
    Truthy(req.authorization) && StartsWith(req.authorization.value, "Bearer")
  }

  /** The token `protect` extracts, `None` standing for every falsy value: the second
      space-separated word of a Bearer header (section 2.1 of RFC 6750), or else the `jwt`
      cookie. A Bearer header without a second word yields no token at all; the cookie is
      not consulted then. */
  function ExtractToken(req: Req): (t: Option<string>)
    ensures t.Some? ==> t.value != ""
    ensures HasBearerHeader(req) ==>
              var words := Split(req.authorization.value, ' ');
              (t.Some? <==> |words| >= 2 && words[1] != "") && (t.Some? ==> t.value == words[1])
    ensures !HasBearerHeader(req) ==> t == (if Truthy(req.jwtCookie) then req.jwtCookie else None)
  {
    if HasBearerHeader(req) then
      var word := Nth(Split(req.authorization.value, ' '), 1);
      if Truthy(word) then word else None
    else if Truthy(req.jwtCookie) then req.jwtCookie
    else None
  }

  /** "Bearer <token>" yields the token, whatever the cookie holds. */
  lemma BearerHeaderWins(req: Req, token: string)
    requires req.authorization == Some("Bearer " + token)
    requires token != "" && ' ' !in token
    ensures ExtractToken(req) == Some(token)
  {
    var h := "Bearer " + token;
    assert h[..6] == "Bearer";
    assert h == "Bearer" + [' '] + token;
    SplitJoin(["Bearer", token], ' ');
    assert Join(["Bearer", token], ' ') == "Bearer" + [' '] + Join([token], ' ');
  }

  /** A bare "Bearer" header yields no token even when a cookie is present. */
  lemma BareBearerIgnoresCookie(req: Req)
    requires req.authorization == Some("Bearer")
    ensures ExtractToken(req) == None
  {
    SplitFree("Bearer", ' ');
  }

  // ---------------------------------------------------------------- the session gate

  /** The token verifies now, names `u` as its subject, and was not issued before `u`'s
      last password change. */
  ghost predicate SessionOf(token: string, env: Env, u: User) {
    var v := env.crypto.verify(token, env.nowMs);
    v.Valid? && v.claims.sub == u.id && !ChangedPasswordAfter(u, v.claims.iat)
  }

  /** Steps 2-4 of the gate, shared by `protect` and `isLoggedIn`: verify the token, look the
      subject up among active users, refuse a session older than the last password change. */
  function Resolve(token: string, env: Env): (r: Result<User>)
    ensures r.Ok? ==> r.value in env.users && r.value.active && SessionOf(token, env, r.value)
    ensures r.Error? ==> env.crypto.verify(token, env.nowMs).Invalid? || r.err in {UserGone, PasswordChanged}
  {
    match env.crypto.verify(token, env.nowMs)
    case Invalid(f) => Error(JwtError(f))
    case Valid(claims) =>
      match FindById(env.users, claims.sub)
      case None => Error(UserGone)
      case Some(u) => if ChangedPasswordAfter(u, claims.iat) then Error(PasswordChanged) else Ok(u)
  }

  /** `protect`. On success `req.user` and `res.locals.user` both hold the resolved user and
      nothing else changes; every failure is an authentication failure, never a 403. */
  function Protect(ctx: Ctx, env: Env): (r: Step)
    ensures ExtractToken(ctx.req).None? ==> r == Abort(NotLoggedIn)
    ensures r.Next? ==>
              && ExtractToken(ctx.req).Some? && r.ctx.req.user.Some?
              && var u := r.ctx.req.user.value;
                 && r.ctx == WithUser(ctx, u)
                 && u in env.users && u.active
                 && SessionOf(ExtractToken(ctx.req).value, env, u)
    ensures r.Abort? ==> r.err in {NotLoggedIn, UserGone, PasswordChanged} || r.err.statusCode.None?
    ensures r.Abort? ==> r.err.statusCode != Some(403)
  {
    match ExtractToken(ctx.req)
    case None => Abort(NotLoggedIn)
    case Some(token) =>
      match Resolve(token, env)
      case Error(e) => Abort(e)
      case Ok(u) => Next(WithUser(ctx, u))
  }

  /** Every valid session for an active user passes the gate (ids being unique). */
  lemma ProtectAdmits(ctx: Ctx, env: Env, u: User)
    requires UniqueIds(env.users)
    requires u in env.users && u.active
    requires ExtractToken(ctx.req).Some? && SessionOf(ExtractToken(ctx.req).value, env, u)
    ensures Protect(ctx, env) == Next(WithUser(ctx, u))
  {
    FindByIdUnique(env.users, u);
  }

  /** A verified token whose subject is an active user who changed the password after it
      was issued is refused as stale. */
  lemma ProtectRejectsStale(ctx: Ctx, env: Env, u: User)
    requires UniqueIds(env.users)
    requires u in env.users && u.active
    requires ExtractToken(ctx.req).Some?
    requires var v := env.crypto.verify(ExtractToken(ctx.req).value, env.nowMs);
             v.Valid? && v.claims.sub == u.id && ChangedPasswordAfter(u, v.claims.iat)
    ensures Protect(ctx, env) == Abort(PasswordChanged)
  {
    FindByIdUnique(env.users, u);
  }

  /** `isLoggedIn`: reads only the cookie, never fails, never sets `req.user`; it sets
      `res.locals.user` exactly when the cookie resolves to a user. */
  function IsLoggedIn(ctx: Ctx, env: Env): (r: Ctx)
    ensures r.req == ctx.req && r.localsAlert == ctx.localsAlert
    ensures r.localsUser != ctx.localsUser ==>
              && Truthy(ctx.req.jwtCookie) && r.localsUser.Some?
              && r.localsUser.value in env.users && r.localsUser.value.active
              && SessionOf(ctx.req.jwtCookie.value, env, r.localsUser.value)
  {
    if Truthy(ctx.req.jwtCookie) then
      match Resolve(ctx.req.jwtCookie.value, env)
      case Ok(u) => ctx.(localsUser := Some(u))
      case Error(_) => ctx
    else ctx
  }

  /** Without an Authorization header both gates read the cookie: `isLoggedIn` attaches the
      identity `protect` would, and passes the request on untouched where `protect` fails. */
  lemma IsLoggedInAgreesWithProtect(ctx: Ctx, env: Env)
    requires ctx.req.authorization.None?
    ensures Protect(ctx, env).Next? ==>
              IsLoggedIn(ctx, env).localsUser == Protect(ctx, env).ctx.localsUser
    ensures Protect(ctx, env).Abort? ==> IsLoggedIn(ctx, env) == ctx
  {
  }

  /** The Authorization header does not matter to `isLoggedIn`. */
  lemma IsLoggedInIgnoresHeader(ctx: Ctx, env: Env, header: Option<string>)
    ensures IsLoggedIn(ctx.(req := ctx.req.(authorization := header)), env)
            == IsLoggedIn(ctx, env).(req := ctx.req.(authorization := header))
  {
  }

  // ---------------------------------------------------------------- the role policy

  /** `restrictTo(...roles)`: passes the request on unchanged exactly when the current user's
      role is listed, answers 403 otherwise; reading the role of an absent user throws. */
  function RestrictTo(roles: set<Role>, ctx: Ctx): (r: Step)
    ensures ctx.req.user.None? ==> r == Abort(NoCurrentUser)
    ensures ctx.req.user.Some? ==> (r == Next(ctx) <==> ctx.req.user.value.role in roles)
    ensures ctx.req.user.Some? && ctx.req.user.value.role !in roles ==> r == Abort(Forbidden)
  {
    match ctx.req.user
    case None => Abort(NoCurrentUser)
    case Some(u) => if u.role in roles then Next(ctx) else Abort(Forbidden)
  }

  /** The gate followed by the policy: an unauthenticated request gets the gate's error (a
      401 or a token error, never 403); an authenticated one passes iff its role is listed. */
  function Guard(roles: set<Role>, ctx: Ctx, env: Env): Step {
    match Protect(ctx, env)
    case Abort(e) => Abort(e)
    case Next(c) => RestrictTo(roles, c)
  }

  lemma GuardOutcomes(roles: set<Role>, ctx: Ctx, env: Env)
    ensures Protect(ctx, env).Abort? ==>
              Guard(roles, ctx, env) == Protect(ctx, env) && Guard(roles, ctx, env).err.statusCode != Some(403)
    ensures Protect(ctx, env).Next? ==>
              var u := Protect(ctx, env).ctx.req.user.value;
              && (u.role in roles ==> Guard(roles, ctx, env) == Next(WithUser(ctx, u)))
              && (u.role !in roles ==> Guard(roles, ctx, env) == Abort(Forbidden))
  {
  }

  // ---------------------------------------------------------------- credential operations

  /** What a credential operation answers: a session token (with the cookie set), a bare
      status, or an error. */
  datatype Reply = Token(status: int, user: User, jwt: string) | Status(code: int) | Failure(err: Err)

  /** The users collection after the operation, and the reply. */
  datatype Effect = Effect(users: Users, reply: Reply)

  /** `createSendToken(user, status)`: a token signed for the user now. */
  function SendToken(env: Env, u: User, status: int): Reply {
    Token(status, u, SignToken(env.crypto, u.id, env.nowMs))
  }

  /** Every stored user passed validation and ids and emails are unique. */
  ghost predicate WellFormedStore(users: Users) {
    && UniqueIds(users) && UniqueEmails(users)
    && forall u :: u in users ==> Truthy(u.name) && Truthy(u.email)
  }

  /** The document `UserModel.create({ name, email, password, passwordConfirm })` builds:
      role and `active` take their defaults; the email goes through the lowercase setter. */
  function NewUserDoc(id: string, body: map<string, string>): UserDoc {
    var u := User(id, Lookup(body, "name"), CastEmail(Lookup(body, "email")), None, RegularUser,
                  Lookup(body, "password"), Lookup(body, "passwordConfirm"), None, None, None, true);
    UserDoc(u, true, u.password.Some?)
  }

  /** `signup`. The new user is stored once validated and hashed; then the welcome mail is
      sent and, should it fail, the request fails although the user stays stored. No role can
      be chosen, and nothing checks that the confirmation equals the password. */
  function Signup(env: Env, body: map<string, string>, newId: string, mailDelivered: bool)
    : (e: Effect)
    ensures e.users == env.users || (|e.users| == |env.users| + 1 && e.users[..|env.users|] == env.users)
    ensures e.reply.Token? ==>
              && e.reply.status == 201 && e.users == env.users + [e.reply.user]
              && e.reply.user.id == newId && e.reply.user.role == RegularUser && e.reply.user.active
              && e.reply.user.passwordChangedAt.None? && e.reply.user.passwordConfirm.None?
              && "password" in body && "email" in body
              && e.reply.user.password == Some(env.crypto.bcryptHash(body["password"]))
              && e.reply.user.email == Some(ToLower(body["email"]))
              && e.reply.jwt == SignToken(env.crypto, newId, env.nowMs)
    ensures e.reply.Token? ==> forall u :: u in env.users ==> u.email != e.reply.user.email
    ensures (&& Truthy(Lookup(body, "name")) && Truthy(Lookup(body, "email"))
             && Truthy(Lookup(body, "password")) && Truthy(Lookup(body, "passwordConfirm"))
             && (forall u :: u in env.users ==> u.email != CastEmail(Lookup(body, "email")))
             && mailDelivered)
            ==> e.reply.Token?
  {
    var doc := NewUserDoc(newId, body);
    match Save(doc, true, env.crypto, env.nowMs)
    case Error(err) => Effect(env.users, Failure(err))
    case Ok(u) =>
      if exists v :: v in env.users && v.email == u.email then
        Effect(env.users, Failure(LibraryError("MongoServerError: E11000 duplicate key error")))
      else if !mailDelivered then
        Effect(env.users + [u], Failure(LibraryError("welcome mail could not be sent")))
      else
        Effect(env.users + [u], SendToken(env, u, 201))
  }

  /** Nothing compares the confirmation with the password: any two non-empty confirmations
      give the same signup, so one that differs from the password is accepted whenever the
      rest of the body is. */
  lemma SignupAcceptsMismatchedConfirmation(env: Env, body: map<string, string>, newId: string,
                                            mailDelivered: bool, a: string, b: string)
    requires a != "" && b != ""
    ensures Signup(env, body["passwordConfirm" := a], newId, mailDelivered)
            == Signup(env, body["passwordConfirm" := b], newId, mailDelivered)
  {
    var da := NewUserDoc(newId, body["passwordConfirm" := a]);
    var db := NewUserDoc(newId, body["passwordConfirm" := b]);
    assert da == db.(user := db.user.(passwordConfirm := Some(a)));
    assert Save(da, true, env.crypto, env.nowMs) == Save(db, true, env.crypto, env.nowMs);
  }

  /** `login`. Missing fields give 400; an unknown email and a wrong password give the same
      401; the collection is never changed. */
  function Login(env: Env, body: map<string, string>): (e: Effect)
    ensures e.users == env.users
    ensures !Truthy(Lookup(body, "email")) || !Truthy(Lookup(body, "password")) ==>
              e.reply == Failure(MissingCredentials)
    ensures e.reply.Failure? ==> e.reply.err in {MissingCredentials, IncorrectCredentials, HashMissing}
    ensures e.reply.Token? ==>
              && e.reply.status == 200
              && e.reply.user in env.users && e.reply.user.active
              && e.reply.user.email == CastEmail(Lookup(body, "email"))
              && e.reply.user.password.Some?
              && CorrectPassword(env.crypto, body["password"], e.reply.user.password.value)
              && e.reply.jwt == SignToken(env.crypto, e.reply.user.id, env.nowMs)
  {
    var email := Lookup(body, "email");
    var password := Lookup(body, "password");
    if !Truthy(email) || !Truthy(password) then Effect(env.users, Failure(MissingCredentials))
    else match FindByEmail(env.users, email)
      case None => Effect(env.users, Failure(IncorrectCredentials))
      case Some(u) =>
        if u.password.None? then Effect(env.users, Failure(HashMissing))
        else if !CorrectPassword(env.crypto, password.value, u.password.value) then
          Effect(env.users, Failure(IncorrectCredentials))
        else Effect(env.users, SendToken(env, u, 200))
  }

  /** Enumeration resistance: an unknown email and a wrong password are indistinguishable. */
  lemma LoginFailuresIndistinguishable(env: Env, body: map<string, string>)
    requires Truthy(Lookup(body, "email")) && Truthy(Lookup(body, "password"))
    ensures FindByEmail(env.users, Lookup(body, "email")).None? ==>
              Login(env, body).reply == Failure(IncorrectCredentials)
    ensures var u := FindByEmail(env.users, Lookup(body, "email"));
            u.Some? && u.value.password.Some?
            && !CorrectPassword(env.crypto, body["password"], u.value.password.value) ==>
              Login(env, body).reply == Failure(IncorrectCredentials)
  {
  }

  /** The right password for a stored user logs that user in. */
  lemma LoginAdmitsStoredUser(env: Env, body: map<string, string>, u: User)
    requires BcryptSound(env.crypto) && UniqueEmails(env.users)
    requires u in env.users && u.active
    requires Truthy(Lookup(body, "email")) && Truthy(Lookup(body, "password"))
    requires u.email == CastEmail(Lookup(body, "email"))
    requires u.password == Some(env.crypto.bcryptHash(body["password"]))
    ensures Login(env, body).reply == SendToken(env, u, 200)
  {
    FindByEmailUnique(env.users, u, Lookup(body, "email"));
    assert env.crypto.bcryptCompare(body["password"], env.crypto.bcryptHash(body["password"]));
  }

  /** `logout`: the cookie is overwritten with a placeholder that is not a token. */
  const LoggedOutCookie: string := "loggedout"

  /** How long the placeholder cookie lives: ten seconds. */
  const LoggedOutCookieLifetimeMs: int := 10 * 1000

  /** The answer to `logout`: the context the client's next request carries (its cookie
      replaced), the status, and when the placeholder cookie expires. */
  datatype LoggedOut = LoggedOut(ctx: Ctx, status: int, cookieExpiresMs: int)

  function Logout(ctx: Ctx, nowMs: nat): (r: LoggedOut)
    ensures r.status == 200
    ensures r.ctx.req.jwtCookie == Some(LoggedOutCookie) && '.' !in r.ctx.req.jwtCookie.value
    ensures r.ctx == ctx.(req := ctx.req.(jwtCookie := r.ctx.req.jwtCookie))
    ensures r.cookieExpiresMs > nowMs
  {
    LoggedOut(ctx.(req := ctx.req.(jwtCookie := Some(LoggedOutCookie))), 200,
              nowMs + LoggedOutCookieLifetimeMs)
  }

  /** Logging out ends the cookie session: with no Authorization header, the next request is
      refused by `protect` (the placeholder does not verify) and `isLoggedIn` attaches no one
      new, whatever token the cookie held before. */
  lemma LogoutEndsSession(env: Env, ctx: Ctx)
    requires JwtRejectsMalformed(env.crypto)
    requires ctx.req.authorization.None?
    ensures var c := Logout(ctx, env.nowMs).ctx;
            && Protect(c, env) == Abort(JwtError(Malformed))
            && IsLoggedIn(c, env) == c
  {
    var c := Logout(ctx, env.nowMs).ctx;
    assert ExtractToken(c.req) == Some(LoggedOutCookie);
    assert env.crypto.verify(LoggedOutCookie, env.nowMs) == Invalid(Malformed);
  }

  /** `forgotPassword`, as intended: the user found by email gets a fresh reset digest and
      expiry, saved without validation; the reply carries no token (the mail is never sent). */
  function ForgotPassword(env: Env, body: map<string, string>, random: seq<byte>): (e: Effect)
    requires |random| == ResetTokenBytes
    ensures FindByEmail(env.users, Lookup(body, "email")).None? ==>
              e == Effect(env.users, Failure(NoUserWithEmail))
    ensures FindByEmail(env.users, Lookup(body, "email")).Some? ==>
              var u := FindByEmail(env.users, Lookup(body, "email")).value;
              e == Effect(Replace(env.users, CreatePasswordResetToken(u, random, env.crypto, env.nowMs).user),
                          Status(201))
  {
    match FindByEmail(env.users, Lookup(body, "email"))
    case None => Effect(env.users, Failure(NoUserWithEmail))
    case Some(u) =>
      var issued := CreatePasswordResetToken(u, random, env.crypto, env.nowMs);
      match Save(UserDoc(issued.user, false, false), false, env.crypto, env.nowMs)
      case Error(err) => Effect(env.users, Failure(err))
      case Ok(saved) => Effect(Replace(env.users, saved), Status(201))
  }

  /** The reset expiries stored in a collection. */
  ghost function Expiries(users: Users): set<Option<int>> {
    set u | u in users :: u.passwordResetExpires
  }

  /** `forgotPassword` as written: the expiry never reaches the stored record. */
  function ForgotPasswordAsWritten(env: Env, body: map<string, string>, random: seq<byte>)
    : (e: Effect)
    requires |random| == ResetTokenBytes
    ensures e.reply == ForgotPassword(env, body, random).reply
    ensures |e.users| == |env.users|
    ensures forall i :: 0 <= i < |e.users| ==> e.users[i].passwordResetExpires in Expiries(env.users)
  {
    match FindByEmail(env.users, Lookup(body, "email"))
    case None => Effect(env.users, Failure(NoUserWithEmail))
    case Some(u) =>
      var issued := CreatePasswordResetTokenAsWritten(u, random, env.crypto, env.nowMs);
      match Save(UserDoc(issued.user, false, false), false, env.crypto, env.nowMs)
      case Error(err) => Effect(env.users, Failure(err))
      case Ok(saved) => Effect(Replace(env.users, saved), Status(201))
  }

  /** The `findOne` of `resetPassword`: an active user whose stored digest is that of the
      presented token and whose expiry lies after now. */
  function FindByResetToken(env: Env, token: string): (r: Option<User>)
    ensures r.Some? ==> r.value in env.users && r.value.active
                        && ResetTokenMatches(r.value, token, env.crypto, env.nowMs)
    ensures r.None? ==> forall u :: u in env.users && u.active ==>
                          !ResetTokenMatches(u, token, env.crypto, env.nowMs)
  {
    FindFirst(env.users, (u: User) => ResetTokenMatches(u, token, env.crypto, env.nowMs))
  }

  /** `user.password = body.password; user.passwordConfirm = body.passwordConfirm`, the
      assignment marking the password modified when the value differs. */
  function SetPassword(u: User, body: map<string, string>): UserDoc {
    var pw := Lookup(body, "password");
    UserDoc(u.(password := pw, passwordConfirm := Lookup(body, "passwordConfirm")), false,
            pw != u.password)
  }

  /** What a successful save of `SetPassword(before, body)` leaves: when the submitted password
      differs from the stored value (the ORM's `isModified`), the record holds its bcrypt hash,
      no confirmation, and a change stamp one second before now; otherwise the password paths
      are as submitted. Every other path is that of `before`. */
  ghost predicate NewPasswordStored(env: Env, before: User, body: map<string, string>, after: User) {
    && (Lookup(body, "password") != before.password ==>
          && "password" in body
          && after.password == Some(env.crypto.bcryptHash(body["password"]))
          && after.passwordConfirm.None?
          && after.passwordChangedAt == Some(env.nowMs - PasswordChangeBackdateMs))
    && (Lookup(body, "password") == before.password ==> after.password == before.password)
    && after.(password := before.password, passwordConfirm := before.passwordConfirm,
              passwordChangedAt := before.passwordChangedAt) == before
  }

  /** `resetPassword`, as intended: a matching, unexpired token lets the new password be set
      (validated, hashed, `passwordChangedAt` stamped), clears both reset fields and logs the
      user in; anything else is 400 and changes nothing. */
  function ResetPassword(env: Env, token: string, body: map<string, string>): (e: Effect)
    ensures FindByResetToken(env, token).None? ==> e == Effect(env.users, Failure(InvalidResetToken))
    ensures e.reply.Failure? ==> e.users == env.users
    ensures e.reply.Token? ==>
              && e.reply.status == 200
              && FindByResetToken(env, token).Some?
              && e.reply.user.id == FindByResetToken(env, token).value.id
              && e.reply.user.passwordResetToken.None? && e.reply.user.passwordResetExpires.None?
              && NewPasswordStored(env, FindByResetToken(env, token).value.(passwordResetToken := None,
                                                                            passwordResetExpires := None),
                                   body, e.reply.user)
              && e.users == Replace(env.users, e.reply.user)
              && e.reply.jwt == SignToken(env.crypto, e.reply.user.id, env.nowMs)
  {
    match FindByResetToken(env, token)
    case None => Effect(env.users, Failure(InvalidResetToken))
    case Some(u) =>
      var cleared := u.(passwordResetToken := None, passwordResetExpires := None);
      match Save(SetPassword(cleared, body), true, env.crypto, env.nowMs)
      case Error(err) => Effect(env.users, Failure(err))
      case Ok(saved) => Effect(Replace(env.users, saved), SendToken(env, saved, 200))
  }

  /** `resetPassword` as written: the expiry is cleared under the misspelt name, so the stored
      expiry is left in place. */
  function ResetPasswordAsWritten(env: Env, token: string, body: map<string, string>): (e: Effect)
    ensures FindByResetToken(env, token).None? ==> e == Effect(env.users, Failure(InvalidResetToken))
    ensures e.reply.Token? ==>
              && FindByResetToken(env, token).Some?
              && e.reply.user.passwordResetExpires == FindByResetToken(env, token).value.passwordResetExpires
  {
    match FindByResetToken(env, token)
    case None => Effect(env.users, Failure(InvalidResetToken))
    case Some(u) =>
      var cleared := u.(passwordResetToken := None);
      match Save(SetPassword(cleared, body), true, env.crypto, env.nowMs)
      case Error(err) => Effect(env.users, Failure(err))
      case Ok(saved) => Effect(Replace(env.users, saved), SendToken(env, saved, 200))
  }

  /** `updatePassword`: the current password must match the stored hash (a wrong one is 401
      and saves nothing); the new one is then validated, hashed and stamped, and a fresh
      token is issued. */
  function UpdatePassword(env: Env, current: Option<User>, body: map<string, string>): (e: Effect)
    ensures current.None? ==> e == Effect(env.users, Failure(NoCurrentUser))
    ensures current.Some? && FindById(env.users, current.value.id).None? ==>
              e == Effect(env.users, Failure(CurrentUserMissing))
    ensures e.reply.Failure? ==> e.users == env.users
    ensures (&& current.Some?
             && var stored := FindById(env.users, current.value.id);
                && stored.Some? && stored.value.password.Some? && Lookup(body, "passwordCurrent").Some?
                && !CorrectPassword(env.crypto, body["passwordCurrent"], stored.value.password.value))
            ==> e == Effect(env.users, Failure(WrongCurrentPassword))
    ensures e.reply.Token? ==>
              && current.Some? && e.reply.status == 200
              && var stored := FindById(env.users, current.value.id);
                 && stored.Some? && stored.value.password.Some? && "passwordCurrent" in body
                 && CorrectPassword(env.crypto, body["passwordCurrent"], stored.value.password.value)
                 && e.reply.user.id == current.value.id
                 && NewPasswordStored(env, stored.value, body, e.reply.user)
                 && e.users == Replace(env.users, e.reply.user)
                 && e.reply.jwt == SignToken(env.crypto, e.reply.user.id, env.nowMs)
  {
    match current
    case None => Effect(env.users, Failure(NoCurrentUser))
    case Some(me) =>
      match FindById(env.users, me.id)
      case None => Effect(env.users, Failure(CurrentUserMissing))
      case Some(u) =>
        var candidate := Lookup(body, "passwordCurrent");
        if candidate.None? || u.password.None? then
          Effect(env.users, Failure(HashMissing))
        else if !CorrectPassword(env.crypto, candidate.value, u.password.value) then
          Effect(env.users, Failure(WrongCurrentPassword))
        else match Save(SetPassword(u, body), true, env.crypto, env.nowMs)
          case Error(err) => Effect(env.users, Failure(err))
          case Ok(saved) => Effect(Replace(env.users, saved), SendToken(env, saved, 200))
  }

  // ---------------------------------------------------------------- end-to-end properties

  /** As written, no reset ever succeeds on a collection where no expiry has been stored
      (every user created through signup): the expiry `forgotPassword` sets is never persisted,
      so the lookup's `passwordResetExpires > now` fails for every token, at every time. */
  lemma AsWrittenResetAlwaysRejected(env: Env, body: map<string, string>, random: seq<byte>,
                                     token: string, later: nat, newBody: map<string, string>)
    requires |random| == ResetTokenBytes
    requires forall u :: u in env.users ==> u.passwordResetExpires.None?
    ensures var e := ForgotPasswordAsWritten(env, body, random);
            ResetPasswordAsWritten(Env(e.users, env.crypto, later), token, newBody)
            == Effect(e.users, Failure(InvalidResetToken))
  {
    var e := ForgotPasswordAsWritten(env, body, random);
    var env2 := Env(e.users, env.crypto, later);
    var r := FindByResetToken(env2, token);
    if r.Some? {
      assert false;
    }
  }

  /** Exactly one user id holds this reset digest, if any does. */
  ghost predicate DigestHeldOnce(users: Users, digest: string) {
    forall i, j :: 0 <= i < |users| && 0 <= j < |users|
                   && users[i].passwordResetToken == Some(digest) && users[j].passwordResetToken == Some(digest)
                   ==> users[i].id == users[j].id
  }

  /** With the corrected expiry, the token `forgotPassword` issues lets its owner set a new
      password within the next ten minutes: the reply logs that user in, the stored record
      holds the hash of the new password, a fresh change stamp, and no reset fields. */
  lemma ForgotThenResetSucceeds(env: Env, body: map<string, string>, random: seq<byte>, u: User,
                                later: nat, newBody: map<string, string>)
    requires |random| == ResetTokenBytes
    requires UniqueIds(env.users) && UniqueEmails(env.users)
    requires u in env.users && u.active && Truthy(u.name) && Truthy(u.email)
    requires u.email == CastEmail(Lookup(body, "email"))
    requires forall v :: v in env.users && v.id != u.id ==>
               v.passwordResetToken != Some(env.crypto.sha256Hex(ToHex(random)))
    requires env.nowMs <= later < env.nowMs + ResetTokenLifetimeMs
    requires Truthy(Lookup(newBody, "password")) && Truthy(Lookup(newBody, "passwordConfirm"))
    requires u.password != Lookup(newBody, "password")
    ensures var token := CreatePasswordResetToken(u, random, env.crypto, env.nowMs).token;
            var e1 := ForgotPassword(env, body, random);
            var e2 := ResetPassword(Env(e1.users, env.crypto, later), token, newBody);
            && e1.reply == Status(201)
            && e2.reply.Token? && e2.reply.user.id == u.id
            && e2.reply.user.password == Some(env.crypto.bcryptHash(newBody["password"]))
            && e2.reply.user.passwordChangedAt == Some(later - PasswordChangeBackdateMs)
            && e2.reply.user.passwordResetToken.None? && e2.reply.user.passwordResetExpires.None?
            && e2.users == Replace(env.users, e2.reply.user)
  {
    var issued := CreatePasswordResetToken(u, random, env.crypto, env.nowMs);
    var e1 := ForgotPassword(env, body, random);
    FindByEmailUnique(env.users, u, Lookup(body, "email"));
    assert e1.users == Replace(env.users, issued.user);
    ReplaceKeepsIds(env.users, u);
    IssuedTokenFindsOwner(env.users, issued.user, issued.token, env.crypto, later);
    var cleared := issued.user.(passwordResetToken := None, passwordResetExpires := None);
    var saved := Save(SetPassword(cleared, newBody), true, env.crypto, later);
    assert saved.Ok?;
    ReplaceTwice(env.users, issued.user, saved.value);
  }

  /** After `forgotPassword` stored `owner`'s digest in place of every record with its id, the
      token finds `owner` as long as it has not expired and no other id holds the digest. */
  lemma IssuedTokenFindsOwner(users: Users, owner: User, token: string, p: Primitives, nowMs: nat)
    requires owner.active && ResetTokenMatches(owner, token, p, nowMs)
    requires exists i :: 0 <= i < |users| && users[i].id == owner.id
    requires forall v :: v in users && v.id != owner.id ==> v.passwordResetToken != Some(p.sha256Hex(token))
    ensures FindByResetToken(Env(Replace(users, owner), p, nowMs), token) == Some(owner)
  {
    var r := Replace(users, owner);
    var i :| 0 <= i < |users| && users[i].id == owner.id;
    assert r[i] == owner;
    var found := FindByResetToken(Env(r, p, nowMs), token);
    var k :| 0 <= k < |r| && r[k] == found.value;
    if users[k].id != owner.id {
      assert false;
    }
  }

  /** Replacing a record twice leaves only the second replacement. */
  lemma ReplaceTwice(users: Users, a: User, b: User)
    requires a.id == b.id
    ensures Replace(Replace(users, a), b) == Replace(users, b)
  {
  }

  /** A reset token works once: after a successful reset the same token is refused, at any
      later time, provided no other user id holds the same digest. */
  lemma ResetTokenSingleUse(env: Env, token: string, newBody: map<string, string>, later: nat,
                            otherBody: map<string, string>)
    requires DigestHeldOnce(env.users, env.crypto.sha256Hex(token))
    requires ResetPassword(env, token, newBody).reply.Token?
    ensures var e := ResetPassword(env, token, newBody);
            ResetPassword(Env(e.users, env.crypto, later), token, otherBody)
            == Effect(e.users, Failure(InvalidResetToken))
  {
    var e := ResetPassword(env, token, newBody);
    var holder := FindByResetToken(env, token).value;
    var h :| 0 <= h < |env.users| && env.users[h] == holder;
    var env2 := Env(e.users, env.crypto, later);
    var r := FindByResetToken(env2, token);
    if r.Some? {
      assert false;
    }
  }

  /** The token `updatePassword` answers with is a working session: presented as the cookie
      any time before it expires, it passes the gate as the updated user. */
  lemma UpdatePasswordTokenAuthenticates(env: Env, me: User, body: map<string, string>, ctx: Ctx,
                                         later: nat)
    requires JwtSound(env.crypto) && UniqueIds(env.users)
    requires UpdatePassword(env, Some(me), body).reply.Token?
    requires FindById(env.users, me.id).Some? ==>
               Lookup(body, "password") != FindById(env.users, me.id).value.password
    requires env.nowMs <= later
    requires later / 1000 < Seconds(env.nowMs) + env.crypto.expiresInSec
    requires ctx.req.authorization.None?
    requires ctx.req.jwtCookie == Some(UpdatePassword(env, Some(me), body).reply.jwt)
    ensures var e := UpdatePassword(env, Some(me), body);
            Protect(ctx, Env(e.users, env.crypto, later)) == Next(WithUser(ctx, e.reply.user))
  {
    var e := UpdatePassword(env, Some(me), body);
    var saved := e.reply.user;
    var stored := FindById(env.users, me.id).value;
    var i :| 0 <= i < |env.users| && env.users[i] == stored;
    ReplaceKeepsIds(env.users, saved);
    SignedTokenVerifies(env.crypto, saved.id, env.nowMs, later);
    assert ExtractToken(ctx.req) == Some(e.reply.jwt);
    TokenIssuedAfterChangeIsFresh(env.nowMs, env.nowMs, saved);
    ProtectAdmits(ctx, Env(e.users, env.crypto, later), saved);
  }

  /** A session token issued more than a second before a password update is refused after
      it, even though it still verifies. */
  lemma OldTokenRejectedAfterUpdate(env: Env, me: User, body: map<string, string>, ctx: Ctx,
                                    issuedMs: nat, later: nat)
    requires JwtSound(env.crypto) && UniqueIds(env.users)
    requires UpdatePassword(env, Some(me), body).reply.Token?
    requires FindById(env.users, me.id).Some? ==>
               Lookup(body, "password") != FindById(env.users, me.id).value.password
    requires issuedMs < env.nowMs - PasswordChangeBackdateMs
    requires later / 1000 < Seconds(issuedMs) + env.crypto.expiresInSec
    requires ctx.req.authorization.None?
    requires ctx.req.jwtCookie == Some(SignToken(env.crypto, me.id, issuedMs))
    ensures var e := UpdatePassword(env, Some(me), body);
            Protect(ctx, Env(e.users, env.crypto, later)) == Abort(PasswordChanged)
  {
    var e := UpdatePassword(env, Some(me), body);
    var saved := e.reply.user;
    var stored := FindById(env.users, me.id).value;
    var i :| 0 <= i < |env.users| && env.users[i] == stored;
    ReplaceKeepsIds(env.users, saved);
    SignedTokenVerifies(env.crypto, me.id, issuedMs, later);
    assert ExtractToken(ctx.req) == Some(SignToken(env.crypto, me.id, issuedMs));
    TokenIssuedBeforeChangeIsStale(env.nowMs, issuedMs, saved);
    ProtectRejectsStale(ctx, Env(e.users, env.crypto, later), saved);
  }

  /** After `updatePassword`, login with the new password logs the user in, and the password
      it replaced no longer does. */
  lemma UpdatePasswordThenLogin(env: Env, me: User, body: map<string, string>,
                                loginBody: map<string, string>, later: nat)
    requires BcryptSound(env.crypto) && BcryptBinding(env.crypto)
    requires UniqueIds(env.users) && UniqueEmails(env.users)
    requires UpdatePassword(env, Some(me), body).reply.Token?
    requires FindById(env.users, me.id).Some? ==>
               Lookup(body, "password") != FindById(env.users, me.id).value.password
    requires Truthy(Lookup(loginBody, "email")) && Truthy(Lookup(body, "password"))
    requires FindById(env.users, me.id).Some? ==>
               FindById(env.users, me.id).value.email == CastEmail(Lookup(loginBody, "email"))
    ensures var e := UpdatePassword(env, Some(me), body);
            var env2 := Env(e.users, env.crypto, later);
            && Login(env2, loginBody["password" := body["password"]]).reply
               == SendToken(env2, e.reply.user, 200)
            && (body["passwordCurrent"] != body["password"] ==>
                  Login(env2, loginBody["password" := body["passwordCurrent"]]).reply.Failure?)
  {
    var e := UpdatePassword(env, Some(me), body);
    var env2 := Env(e.users, env.crypto, later);
    var stored := FindById(env.users, me.id).value;
    var saved := e.reply.user;
    ReplaceKeepsIds(env.users, saved);
    ReplaceKeepsEmails(env.users, stored, saved);
    var admit := loginBody["password" := body["password"]];
    LoginAdmitsStoredUser(env2, admit, saved);
    var retired := loginBody["password" := body["passwordCurrent"]];
    if body["passwordCurrent"] != body["password"] && Truthy(Lookup(retired, "password")) {
      FindByEmailUnique(e.users, saved, Lookup(retired, "email"));
      assert !env.crypto.bcryptCompare(body["passwordCurrent"], env.crypto.bcryptHash(body["password"]));
    }
  }

  /** Signup followed by login with the same credentials logs the new user in. */
  lemma SignupThenLogin(env: Env, body: map<string, string>, newId: string, later: nat)
    requires BcryptSound(env.crypto) && UniqueEmails(env.users)
    requires Signup(env, body, newId, true).reply.Token?
    ensures var e := Signup(env, body, newId, true);
            Login(Env(e.users, env.crypto, later), body).reply
            == SendToken(Env(e.users, env.crypto, later), e.reply.user, 200)
  {
    var e := Signup(env, body, newId, true);
    var u := e.reply.user;
    assert UniqueEmails(e.users) by {
      forall i, j | 0 <= i < |e.users| && 0 <= j < |e.users| && e.users[i].email == e.users[j].email
        ensures i == j
      {
        if i < |env.users| && j < |env.users| {
        } else if i < |env.users| {
          assert false;
        } else if j < |env.users| {
          assert false;
        }
      }
    }
    LoginAdmitsStoredUser(Env(e.users, env.crypto, later), body, u);
  }
}

=== FILE: common.dfy ===
/** Small JavaScript-flavoured helpers shared by the whole model: undefined-or-value,
    string truthiness, `startsWith`, `split`/`join`, decimal rendering of timestamps,
    ASCII lower-casing and `trim`. */
module Common {

  /** A value that may be `undefined` in the JavaScript source. */
  datatype Option<+T> = None | Some(value: T)

  /** JavaScript truthiness of a possibly-undefined string: defined and non-empty. */
  predicate Truthy(s: Option<string>) {
    s.Some? && s.value != ""
  }

  /** Reading a property of a plain object: `undefined` when the key is absent. */
  function Lookup<V>(m: map<string, V>, k: string): (r: Option<V>)
    ensures r.Some? <==> k in m
    ensures r.Some? ==> r.value == m[k]
  {
    if k in m then Some(m[k]) else None
  }

  /** Assigning a property; assigning `undefined` leaves the key without a value. */
  function Assign<V>(m: map<string, V>, k: string, v: Option<V>): (r: map<string, V>)
    ensures Lookup(r, k) == v
    ensures forall j :: j != k ==> Lookup(r, j) == Lookup(m, j)
  {
    match v
    case Some(x) => m[k := x]
    case None => m - {k}
  }

  predicate StartsWith(s: string, prefix: string) {
    |prefix| <= |s| && s[..|prefix|] == prefix
  }

  /** `s.split(sep)` for a one-character separator. */
  function Split(s: string, sep: char): (parts: seq<string>)
    ensures |parts| >= 1
    ensures forall i :: 0 <= i < |parts| ==> sep !in parts[i]
    decreases |s|
  {
    if |s| == 0 then [""]
    else
      var rest := Split(s[1..], sep);
      if s[0] == sep then [""] + rest
      else [[s[0]] + rest[0]] + rest[1..]
  }

  /** `parts.join(sep)`. */
  function Join(parts: seq<string>, sep: char): string
    decreases |parts|
  {
    if |parts| == 0 then ""
    else if |parts| == 1 then parts[0]
    else parts[0] + [sep] + Join(parts[1..], sep)
  }

  /** Joining the pieces of a split gives back the original string. */
  lemma {:induction false} JoinSplit(s: string, sep: char)
    ensures Join(Split(s, sep), sep) == s
    decreases |s|
  {
    if |s| > 0 {
      var rest := Split(s[1..], sep);
      JoinSplit(s[1..], sep);
      if s[0] == sep {
        assert Split(s, sep) == [""] + rest;
        assert ([""] + rest)[1..] == rest;
      } else {
        var parts := Split(s, sep);
        assert parts == [[s[0]] + rest[0]] + rest[1..];
        if |rest| == 1 {
          assert parts == [[s[0]] + rest[0]];
        } else {
          assert parts[1..] == rest[1..];
          assert Join(rest, sep) == rest[0] + [sep] + Join(rest[1..], sep);
        }
      }
    }
  }

  /** Splitting a join of separator-free pieces gives back the pieces. */
  lemma {:induction false} SplitJoin(parts: seq<string>, sep: char)
    requires |parts| >= 1
    requires forall i :: 0 <= i < |parts| ==> sep !in parts[i]
    ensures Split(Join(parts, sep), sep) == parts
    decreases |parts|
  {
    if |parts| == 1 {
      SplitFree(parts[0], sep);
    } else {
      SplitJoin(parts[1..], sep);
      SplitAppend(parts[0], Join(parts[1..], sep), sep);
      SplitFree(parts[0], sep);
      assert [parts[0]] + parts[1..] == parts;
    }
  }

  /** A string without the separator splits into itself. */
  lemma {:induction false} SplitFree(s: string, sep: char)
    requires sep !in s
    ensures Split(s, sep) == [s]
    decreases |s|
  {
    if |s| > 0 {
      assert sep !in s[1..] by {
        forall i | 0 <= i < |s[1..]| ensures s[1..][i] != sep { assert s[1..][i] == s[i + 1]; }
      }
      SplitFree(s[1..], sep);
      assert [s[0]] + s[1..] == s;
    }
  }

  /** Splitting a string by its first character. */
  lemma SplitCons(c: char, t: string, sep: char)
    ensures Split([c] + t, sep) ==
            if c == sep then [""] + Split(t, sep) else [[c] + Split(t, sep)[0]] + Split(t, sep)[1..]
  {
    assert ([c] + t)[1..] == t;
  }

  /** The inductive step of `SplitAppend`: one more character in front of `a`. */
  lemma SplitAppendCons(c: char, t: string, b: string, sep: char)
    requires Split(t + [sep] + b, sep) == Split(t, sep) + Split(b, sep)
    ensures Split([c] + t + [sep] + b, sep) == Split([c] + t, sep) + Split(b, sep)
  {
    var ra := Split(t, sep);
    var rb := Split(b, sep);
    calc {
      Split([c] + t + [sep] + b, sep);
    == { assert [c] + t + [sep] + b == [c] + (t + [sep] + b); }
      Split([c] + (t + [sep] + b), sep);
    == { SplitCons(c, t + [sep] + b, sep); }
      if c == sep then [""] + (ra + rb) else [[c] + (ra + rb)[0]] + (ra + rb)[1..];
    == { ConsAppend(c, sep, ra, rb); }
      (if c == sep then [""] + ra else [[c] + ra[0]] + ra[1..]) + rb;
    == { SplitCons(c, t, sep); }
      Split([c] + t, sep) + rb;
    }
  }

  lemma ConsAppend(c: char, sep: char, ra: seq<string>, rb: seq<string>)
    requires |ra| >= 1
    ensures (if c == sep then [""] + (ra + rb) else [[c] + (ra + rb)[0]] + (ra + rb)[1..])
         == (if c == sep then [""] + ra else [[c] + ra[0]] + ra[1..]) + rb
  {
    if c != sep {
      assert (ra + rb)[1..] == ra[1..] + rb;
    }
  }

  /** Splitting `a + sep + b` splits `a` and `b` independently. */
  lemma {:induction false} SplitAppend(a: string, b: string, sep: char)
    ensures Split(a + [sep] + b, sep) == Split(a, sep) + Split(b, sep)
    decreases |a|
  {
    if |a| == 0 {
      assert a + [sep] + b == [sep] + b;
      SplitCons(sep, b, sep);
    } else {
      SplitAppend(a[1..], b, sep);
      SplitAppendCons(a[0], a[1..], b, sep);
      assert [a[0]] + a[1..] == a;
    }
  }

  /** Array indexing: `undefined` past the end. */
  function Nth<T>(xs: seq<T>, i: nat): (r: Option<T>)
    ensures r.Some? <==> i < |xs|
    ensures r.Some? ==> r.value == xs[i]
  {
    if i < |xs| then Some(xs[i]) else None
  }

  // ---------------------------------------------------------------- decimals

  predicate IsDigit(c: char) {
    '0' <= c <= '9'
  }

  predicate AllDigits(s: string) {
    forall i :: 0 <= i < |s| ==> IsDigit(s[i])
  }

  function DigitChar(d: nat): (c: char)
    requires d < 10
    ensures IsDigit(c)
  {
    ('0' as int + d) as char
  }

  /** Template-literal interpolation `${n}` of a non-negative integer (a millisecond timestamp,
      an index). */
  function Decimal(n: nat): (s: string)
    ensures |s| >= 1
    ensures AllDigits(s)
    decreases n
  {
    if n < 10 then [DigitChar(n)] else Decimal(n / 10) + [DigitChar(n % 10)]
  }

  function ParseDecimal(s: string): nat
    requires AllDigits(s)
    decreases |s|
  {
    if |s| == 0 then 0
    else ParseDecimal(s[..|s| - 1]) * 10 + (s[|s| - 1] as int - '0' as int)
  }

  lemma {:induction false} DecimalRoundTrip(n: nat)
    ensures ParseDecimal(Decimal(n)) == n
    decreases n
  {
    if n >= 10 {
      var s := Decimal(n);
      assert s[..|s| - 1] == Decimal(n / 10);
      DecimalRoundTrip(n / 10);
    }
  }

  /** Different numbers render differently. */
  lemma DecimalInjective(a: nat, b: nat)
    requires Decimal(a) == Decimal(b)
    ensures a == b
  {
    DecimalRoundTrip(a);
    DecimalRoundTrip(b);
  }

  // ---------------------------------------------------------------- case and spaces

  function LowerChar(c: char): char {
    if 'A' <= c <= 'Z' then (c as int + 32) as char else c
  }

  /** `toLowerCase()` restricted to ASCII letters. */
  function ToLower(s: string): (r: string)
    ensures |r| == |s|
    ensures forall i :: 0 <= i < |s| ==> r[i] == LowerChar(s[i])
    ensures forall i :: 0 <= i < |r| ==> !('A' <= r[i] <= 'Z')
  {
    seq(|s|, i requires 0 <= i < |s| => LowerChar(s[i]))
  }

  lemma ToLowerIdempotent(s: string)
    ensures ToLower(ToLower(s)) == ToLower(s)
  {
  }

  /** The white space `String.prototype.trim` removes: ECMAScript's WhiteSpace and
      LineTerminator characters (the Unicode space separators, the ASCII controls, the
      line and paragraph separators and the byte-order mark). */
  predicate IsSpace(c: char) {
    c in SpaceChars
  }

  const SpaceChars: set<char> :=
    {' ', '\t', '\n', '\r', '\U{000B}', '\U{000C}', '\U{00A0}', '\U{1680}',
     '\U{2000}', '\U{2001}', '\U{2002}', '\U{2003}', '\U{2004}', '\U{2005}', '\U{2006}',
     '\U{2007}', '\U{2008}', '\U{2009}', '\U{200A}', '\U{2028}', '\U{2029}', '\U{202F}',
     '\U{205F}', '\U{3000}', '\U{FEFF}'}

  /** How many white-space characters `s` starts with. */
  function LeadingSpace(s: string): (n: nat)
    ensures n <= |s|
    ensures forall k :: 0 <= k < n ==> IsSpace(s[k])
    ensures n < |s| ==> !IsSpace(s[n])
    decreases |s|
  {
    if |s| > 0 && IsSpace(s[0]) then
      var n := LeadingSpace(s[1..]);
      assert forall k :: 1 <= k <= n ==> s[k] == s[1..][k - 1];
      1 + n
    else 0
  }

  /** How many white-space characters `s` ends with. */
  function TrailingSpace(s: string): (n: nat)
    ensures n <= |s|
    ensures forall k :: |s| - n <= k < |s| ==> IsSpace(s[k])
    ensures n < |s| ==> !IsSpace(s[|s| - n - 1])
    decreases |s|
  {
    if |s| > 0 && IsSpace(s[|s| - 1]) then 1 + TrailingSpace(s[..|s| - 1]) else 0
  }

  /** `s.trim()`: the longest infix of `s` that neither starts nor ends with white space,
      everything cut away being white space. */
  function Trim(s: string): (r: string)
    ensures r == "" || (!IsSpace(r[0]) && !IsSpace(r[|r| - 1]))
    ensures var i := LeadingSpace(s);
            && i + |r| <= |s| && r == s[i..i + |r|]
            && (forall k :: 0 <= k < i ==> IsSpace(s[k]))
            && (forall k :: i + |r| <= k < |s| ==> IsSpace(s[k]))
  {
    var i := LeadingSpace(s);
    var j := TrailingSpace(s[i..]);
    assert forall k :: |s| - j <= k < |s| ==> s[k] == s[i..][k - i];
    s[i..|s| - j]
  }

  /** Trimming twice is trimming once. */
  lemma TrimIdempotent(s: string)
    ensures Trim(Trim(s)) == Trim(s)
  {
    var r := Trim(s);
    if r != "" {
      assert LeadingSpace(r) == 0;
      assert TrailingSpace(r) == 0;
      assert r[0..|r|] == r;
    }
  }
}

=== FILE: crypto.dfy ===
/** The cryptographic collaborators of the authentication core, kept abstract.

    bcrypt, the JSON Web Token signer and verifier and SHA-256 (FIPS 180-4) appear only as
    function values in a `Primitives` record; what the core relies on about them is stated
    as predicates (`JwtSound`, `BcryptSound`) that the lemmas needing them assume. The hex
    encoding of random bytes is concrete. */
module Crypto {
  import opened Common

  newtype byte = x: int | 0 <= x < 256

  // ---------------------------------------------------------------- hex encoding

  function HexDigit(d: int): (c: char)
    requires 0 <= d < 16
  {
    if d < 10 then ('0' as int + d) as char else ('a' as int + d - 10) as char
  }

  function HexValue(c: char): (r: Option<int>)
    ensures r.Some? ==> 0 <= r.value < 16 && HexDigit(r.value) == c
  {
    if '0' <= c <= '9' then Some(c as int - '0' as int)
    else if 'a' <= c <= 'f' then Some(c as int - 'a' as int + 10)
    else None
  }

  predicate IsLowerHex(s: string) {
    forall i :: 0 <= i < |s| ==> HexValue(s[i]).Some?
  }

  /** `buffer.toString('hex')`: two lower-case hex digits per byte, high nibble first. */
  function ToHex(bs: seq<byte>): (h: string)
    ensures |h| == 2 * |bs|
    ensures IsLowerHex(h)
  {
    if |bs| == 0 then ""
    else [HexDigit(bs[0] as int / 16), HexDigit(bs[0] as int % 16)] + ToHex(bs[1..])
  }

  /** The inverse of `ToHex`; `None` on odd length or a character that is not a hex digit. */
  function FromHex(h: string): Option<seq<byte>>
    decreases |h|
  {
    if |h| == 0 then Some([])
    else if |h| == 1 then None
    else match (HexValue(h[0]), HexValue(h[1]), FromHex(h[2..]))
      case (Some(hi), Some(lo), Some(rest)) => Some([(hi * 16 + lo) as byte] + rest)
      case _ => None
  }

  /** Hex encoding loses nothing: the bytes can be read back from it. */
  lemma {:induction false} HexRoundTrip(bs: seq<byte>)
    ensures FromHex(ToHex(bs)) == Some(bs)
  {
    if |bs| > 0 {
      var h := ToHex(bs);
      var b := bs[0] as int;
      assert h[2..] == ToHex(bs[1..]);
      HexRoundTrip(bs[1..]);
      assert HexValue(HexDigit(b / 16)) == Some(b / 16);
      assert HexValue(HexDigit(b % 16)) == Some(b % 16);
      assert [bs[0]] + bs[1..] == bs;
    }
  }

  /** Hence two byte strings with the same hex encoding are equal. */
  lemma HexInjective(a: seq<byte>, b: seq<byte>)
    requires ToHex(a) == ToHex(b)
    ensures a == b
  {
    HexRoundTrip(a);
    HexRoundTrip(b);
  }

  // ---------------------------------------------------------------- tokens and hashes

  /** The registered claims a session token carries: `sub` (section 4.1.2 of RFC 7519), `iat`
      (section 4.1.6) and `exp` (section 4.1.4), the last two in seconds. */
  datatype Claims = Claims(sub: string, iat: int, exp: int)

  /** How the verifier can fail. */
  datatype JwtFailure = Malformed | InvalidSignature | Expired

  datatype Verified = Valid(claims: Claims) | Invalid(failure: JwtFailure)

  /** The foreign primitives the core calls, with the process-wide configuration they use
      (signing secret folded into `sign`/`verify`, token lifetime in seconds). */
  datatype Primitives = Primitives(
    sign: Claims -> string,
    verify: (string, nat) -> Verified,
    expiresInSec: nat,
    bcryptHash: string -> string,
    bcryptCompare: (string, string) -> bool,
    sha256Hex: string -> string)

  /** What the core relies on from the token library: a signed token verifies to its own
      claims while the clock (in milliseconds) has not reached `exp`, and the compact
      serialization is a non-empty word of base64url parts joined by dots (section 7.1 of
      RFC 7515). */
  ghost predicate JwtSound(p: Primitives) {
    && (forall c: Claims, nowMs: nat {:trigger p.verify(p.sign(c), nowMs)} ::
          nowMs / 1000 < c.exp ==> p.verify(p.sign(c), nowMs) == Valid(c))
    && (forall c: Claims {:trigger p.sign(c)} :: ' ' !in p.sign(c) && '.' in p.sign(c))
  }

  /** The verifier refuses, as malformed, a string with no dot: it cannot be a compact
      serialization (section 7.1 of RFC 7515). */
  ghost predicate JwtRejectsMalformed(p: Primitives) {
    forall t: string, nowMs: nat {:trigger p.verify(t, nowMs)} ::
      '.' !in t ==> p.verify(t, nowMs) == Invalid(Malformed)
  }

  /** The verifier refuses a signed token with `Expired` once the clock has reached `exp`. */
  ghost predicate JwtEnforcesExpiry(p: Primitives) {
    forall c: Claims, nowMs: nat {:trigger p.verify(p.sign(c), nowMs)} ::
      nowMs / 1000 >= c.exp ==> p.verify(p.sign(c), nowMs) == Invalid(Expired)
  }

  /** What the core relies on from bcrypt: a password matches its own hash. */
  ghost predicate BcryptSound(p: Primitives) {
    forall pw: string {:trigger p.bcryptHash(pw)} :: p.bcryptCompare(pw, p.bcryptHash(pw))
  }

  /** Collision resistance, as the core relies on it: a hash matches no password but the one
      it was made from. */
  ghost predicate BcryptBinding(p: Primitives) {
    forall pw: string, hashed: string {:trigger p.bcryptCompare(pw, p.bcryptHash(hashed))} ::
      p.bcryptCompare(pw, p.bcryptHash(hashed)) ==> pw == hashed
  }

  /** `Math.floor(Date.now() / 1000)`: the `iat` the signer stamps. */
  function Seconds(nowMs: nat): (s: nat)
    ensures s * 1000 <= nowMs < s * 1000 + 1000
  {
    nowMs / 1000
  }

  /** The claims `jwt.sign({ sub: id }, secret, { expiresIn })` produces at time `nowMs`. */
  function IssueClaims(p: Primitives, id: string, nowMs: nat): (c: Claims)
    ensures c.sub == id
    ensures c.iat * 1000 <= nowMs < c.iat * 1000 + 1000
    ensures c.exp == c.iat + p.expiresInSec
  {
    var iat := Seconds(nowMs);
    Claims(id, iat, iat + p.expiresInSec)
  }

  /** `signToken(id)` (src/controllers/auth.controller.ts:10-14). */
  function SignToken(p: Primitives, id: string, nowMs: nat): string {
    p.sign(IssueClaims(p, id, nowMs))
  }

  /** A token signed for `id` verifies to subject `id` until its lifetime has elapsed. */
  lemma SignedTokenVerifies(p: Primitives, id: string, issuedMs: nat, nowMs: nat)
    requires JwtSound(p)
    requires nowMs / 1000 < Seconds(issuedMs) + p.expiresInSec
    ensures p.verify(SignToken(p, id, issuedMs), nowMs) == Valid(IssueClaims(p, id, issuedMs))
    ensures p.verify(SignToken(p, id, issuedMs), nowMs).claims.sub == id
  {
    var c := IssueClaims(p, id, issuedMs);
    assert p.verify(p.sign(c), nowMs) == Valid(c);
  }

  /** ... and no verifier that enforces expiry accepts it afterwards. */
  lemma SignedTokenExpires(p: Primitives, id: string, issuedMs: nat, nowMs: nat)
    requires JwtEnforcesExpiry(p)
    requires nowMs / 1000 >= Seconds(issuedMs) + p.expiresInSec
    ensures p.verify(SignToken(p, id, issuedMs), nowMs) == Invalid(Expired)
  {
    var c := IssueClaims(p, id, issuedMs);
    assert p.verify(p.sign(c), nowMs) == Invalid(Expired);
  }
}

=== FILE: errors.dfy ===
/** Errors as they travel to the global error handler (src/controllers/error.controller.ts),
    and the `Result` every fallible operation of the model returns. */
module Errors {
  import opened Common

  /** An error object handed to `next(err)`: its message and the two optional fields the
      handler defaults. `AppError` sets the status code; errors thrown by libraries (the JWT
      verifier, bcrypt, the ORM's validation and duplicate-key errors, a `TypeError`) carry
      neither. */
  datatype Err = Err(message: string, statusCode: Option<int>, status: Option<string>)

  /** `new AppError(message, statusCode)`. The status text the AppError class derives is not
      part of this model, so it is left undefined here; the handler's defaulting is stated
      for every value of it. */
  function AppError(message: string, statusCode: int): Err {
    Err(message, Some(statusCode), None)
  }

  /** An error raised by a library rather than by the application. */
  function LibraryError(message: string): Err {
    Err(message, None, None)
  }

  /** The ORM's error for a document that fails its schema validators. */
  const ValidationFailed: Err := LibraryError("ValidationError")

  /** The ORM's error for a query value that does not cast to the path's type (an id that
      is not an ObjectId); it carries no status code. */
  const CastFailed: Err := LibraryError("CastError")

  /** The database's error for a write that would break a unique index. */
  const DuplicateKey: Err := LibraryError("MongoServerError: E11000 duplicate key error")

  datatype Result<+T> = Ok(value: T) | Error(err: Err)

  /** What the handler sends: the development JSON body, or nothing at all. */
  datatype Reply = DevJson(statusCode: int, status: string, message: string) | NothingSent

  /** `err.statusCode = err.statusCode || 500; err.status = err.status || 'error'`
      (JavaScript `||`: zero and the empty string count as missing). */
  function Normalize(e: Err): (n: Err)
    ensures n.message == e.message
    ensures n.statusCode.Some? && n.statusCode.value != 0
    ensures n.status.Some? && n.status.value != ""
    ensures e.statusCode.Some? && e.statusCode.value != 0 ==> n.statusCode == e.statusCode
    ensures !(e.statusCode.Some? && e.statusCode.value != 0) ==> n.statusCode == Some(500)
    ensures Truthy(e.status) ==> n.status == e.status
    ensures !Truthy(e.status) ==> n.status == Some("error")
  {
    var code := if e.statusCode.Some? && e.statusCode.value != 0 then e.statusCode else Some(500);
    var status := if Truthy(e.status) then e.status else Some("error");
    Err(e.message, code, status)
  }

  /** The status code a response to this error carries once defaulted. */
  function StatusOf(e: Err): int {
    Normalize(e).statusCode.value
  }

  /** Defaulting is a no-op on an error that has already been defaulted. */
  lemma NormalizeIdempotent(e: Err)
    ensures Normalize(Normalize(e)) == Normalize(e)
  {
  }

  /** Every AppError keeps its own non-zero code; every library error becomes a 500. */
  lemma StatusOfConstructors(message: string, code: int)
    ensures code != 0 ==> StatusOf(AppError(message, code)) == code
    ensures StatusOf(LibraryError(message)) == 500
  {
  }

  /** The global error handler: in development it answers with the defaulted code and
      status and the message; in production, and in any other environment, it sends nothing. */
  function HandleError(e: Err, nodeEnv: string): (reply: Reply)
    ensures nodeEnv == "development" ==> reply.DevJson?
    ensures reply.DevJson? ==> reply.statusCode == StatusOf(e) && reply.message == e.message
    ensures reply.DevJson? && e.statusCode.Some? && e.statusCode.value != 0
            ==> reply.statusCode == e.statusCode.value
    ensures reply.DevJson? && !Truthy(e.status) ==> reply.status == "error"
    ensures nodeEnv != "development" ==> reply == NothingSent
  {
    var n := Normalize(e);
    if nodeEnv == "development" then DevJson(n.statusCode.value, n.status.value, n.message)
    else if nodeEnv == "production" then NothingSent
    else NothingSent
  }
}

=== FILE: factory.dfy ===
/** The generic CRUD handlers (src/controllers/handlerFactory.controller.ts) over an abstract
    collection. A `Model` gathers what the handlers need from the ORM model they are built
    for: how to read a document's id and tour, the model's find filter, how an update and a
    creation build documents, and the validators. */
module Factory {
  import opened Common
  import opened Errors
  import opened ObjectIds

  datatype Model<!T, !U> = Model(
    idOf: T -> string,
    tourOf: T -> Option<string>,
    /** The model's `pre(/^find/)` filter (every `findBy*` goes through it). */
    visible: T -> bool,
    /** `findByIdAndUpdate(id, body)`: the document with the body's paths set. */
    update: (T, U) -> T,
    /** `create(body)`: the new document, with the id the database assigns. */
    create: (string, U) -> T,
    /** The validators a creation runs over the whole document. */
    valid: T -> bool,
    /** The update validators, run over the paths the body sets. */
    validUpdate: U -> bool)

  const NotFound: Err := AppError("No document found with that ID", 404)

  /** A successful answer: its status, the `results` count where the handler sends one (only
      `getAll` does), and the documents in the body. */
  datatype Response<T> = Response(status: int, results: Option<nat>, docs: seq<T>)

  /** The collection after the handler, and its answer. */
  datatype Answer<T> = Answer(store: seq<T>, result: Result<Response<T>>)

  /** The position of the first document `findById(id)` returns: the first the find filter
      shows whose id is the ObjectId `id` casts to. */
  function FindIndex<T, U>(m: Model<T, U>, store: seq<T>, id: string): (r: Option<nat>)
    ensures r.Some? ==> r.value < |store| && m.visible(store[r.value]) && SameId(m.idOf(store[r.value]), id)
    ensures r.Some? ==> forall j :: 0 <= j < r.value ==> !(m.visible(store[j]) && SameId(m.idOf(store[j]), id))
    ensures r.None? ==> forall j :: 0 <= j < |store| ==> !(m.visible(store[j]) && SameId(m.idOf(store[j]), id))
    decreases |store|
  {
    if |store| == 0 then None
    else if m.visible(store[0]) && SameId(m.idOf(store[0]), id) then Some(0)
    else match FindIndex(m, store[1..], id)
      case None => None
      case Some(k) => Some(k + 1)
  }

  /** `deleteOne`: an id that is not an ObjectId fails to cast (500) and nothing is removed;
      404 and nothing removed when no visible document has the id; otherwise 204 and exactly
      that document removed. */
  function DeleteOne<T, U>(m: Model<T, U>, store: seq<T>, id: string): (a: Answer<T>)
    ensures !IsObjectId(id) ==> a == Answer(store, Error(CastFailed))
    ensures IsObjectId(id) && FindIndex(m, store, id).None? ==> a == Answer(store, Error(NotFound))
    ensures IsObjectId(id) && FindIndex(m, store, id).Some? ==>
              var i := FindIndex(m, store, id).value;
              && a.result == Ok(Response(204, None, []))
              && a.store == store[..i] + store[i + 1..]
  {
    if !IsObjectId(id) then Answer(store, Error(CastFailed))
    else match FindIndex(m, store, id)
      case None => Answer(store, Error(NotFound))
      case Some(i) => Answer(store[..i] + store[i + 1..], Ok(Response(204, None, [])))
  }

  /** A successful delete removes one document and keeps every other in place. */
  lemma DeleteOneKeepsOthers<T, U>(m: Model<T, U>, store: seq<T>, id: string)
    requires DeleteOne(m, store, id).result.Ok?
    ensures var a := DeleteOne(m, store, id);
            var i := FindIndex(m, store, id).value;
            && |a.store| == |store| - 1
            && forall j :: 0 <= j < |a.store| ==> a.store[j] == (if j < i then store[j] else store[j + 1])
  {
    var i := FindIndex(m, store, id).value;
    var rest := DeleteOne(m, store, id).store;
    assert rest == store[..i] + store[i + 1..];
  }

  /** `updateOne`: the id is cast first (one that is not an ObjectId is a 500); then the
      update validators (a failure writes nothing); then 404 when no visible document has the
      id; otherwise 200 with the updated document, which replaces the found one and nothing
      else. */
  function UpdateOne<T, U>(m: Model<T, U>, store: seq<T>, id: string, body: U): (a: Answer<T>)
    ensures !IsObjectId(id) ==> a == Answer(store, Error(CastFailed))
    ensures !m.validUpdate(body) ==> a.result.Error? && a.store == store
    ensures IsObjectId(id) && m.validUpdate(body) && FindIndex(m, store, id).None? ==>
              a == Answer(store, Error(NotFound))
    ensures IsObjectId(id) && m.validUpdate(body) && FindIndex(m, store, id).Some? ==>
              var i := FindIndex(m, store, id).value;
              && a.result == Ok(Response(200, None, [m.update(store[i], body)]))
              && a.store == store[i := m.update(store[i], body)]
  {
    if !IsObjectId(id) then Answer(store, Error(CastFailed))
    else if !m.validUpdate(body) then Answer(store, Error(ValidationFailed))
    else match FindIndex(m, store, id)
      case None => Answer(store, Error(NotFound))
      case Some(i) =>
        var doc := m.update(store[i], body);
        Answer(store[i := doc], Ok(Response(200, None, [doc])))
  }

  /** `getOne`: an id that is not an ObjectId fails to cast (500); 404 when no visible
      document has the id, otherwise 200 with it; the collection is not changed. */
  function GetOne<T, U>(m: Model<T, U>, store: seq<T>, id: string): (a: Answer<T>)
    ensures a.store == store
    ensures !IsObjectId(id) <==> a.result == Error(CastFailed)
    ensures IsObjectId(id) && FindIndex(m, store, id).None? <==> a.result == Error(NotFound)
    ensures a.result.Ok? ==>
              && a.result.value.status == 200 && |a.result.value.docs| == 1
              && a.result.value.docs[0] in store
              && SameId(m.idOf(a.result.value.docs[0]), id) && m.visible(a.result.value.docs[0])
  {
    if !IsObjectId(id) then Answer(store, Error(CastFailed))
    else match FindIndex(m, store, id)
      case None => Answer(store, Error(NotFound))
      case Some(i) => Answer(store, Ok(Response(200, None, [store[i]])))
  }

  /** `createOne`: the document is validated and, if valid, appended and answered with 201. */
  function CreateOne<T, U>(m: Model<T, U>, store: seq<T>, newId: string, body: U): (a: Answer<T>)
    ensures m.valid(m.create(newId, body)) <==> a.result.Ok?
    ensures a.result.Ok? ==>
              a.result.value == Response(201, None, [m.create(newId, body)]) && a.store == store + [m.create(newId, body)]
    ensures a.result.Error? ==> a.store == store
  {
    var doc := m.create(newId, body);
    if m.valid(doc) then Answer(store + [doc], Ok(Response(201, None, [doc])))
    else Answer(store, Error(ValidationFailed))
  }

  /** The filter `getAll` queries with: the `tourId` route parameter when it is truthy. */
  predicate InScope<T, U>(m: Model<T, U>, params: map<string, string>, doc: T) {
    Truthy(Lookup(params, "tourId")) ==> m.tourOf(doc) == Lookup(params, "tourId")
  }

  /** The documents of `getAll`, taken from the store in its order; the contract states which
      documents are listed, not their order (the query-string features, sorting among them,
      are not modelled, and without a sort the database promises no order). */
  function Matching<T(!new), U>(m: Model<T, U>, store: seq<T>, params: map<string, string>): (r: seq<T>)
    ensures |r| <= |store|
    ensures forall d :: d in r ==> d in store && m.visible(d) && InScope(m, params, d)
    ensures forall d :: d in store && m.visible(d) && InScope(m, params, d) ==> d in r
  {
    if |store| == 0 then []
    else
      var rest := Matching(m, store[1..], params);
      assert forall d :: d in store ==> d == store[0] || d in store[1..];
      if m.visible(store[0]) && InScope(m, params, store[0]) then [store[0]] + rest else rest
  }

  /** `getAll`: 200, the matching documents, and `results` equal to how many there are. */
  function GetAll<T(!new), U>(m: Model<T, U>, store: seq<T>, params: map<string, string>): (a: Answer<T>)
    ensures a.store == store && a.result.Ok? && a.result.value.status == 200
    ensures a.result.value.results == Some(|a.result.value.docs|)
    ensures forall d :: d in a.result.value.docs <==> d in store && m.visible(d) && InScope(m, params, d)
  {
    var docs := Matching(m, store, params);
    Answer(store, Ok(Response(200, Some(|docs|), docs)))
  }

  /** With a `tourId` parameter every listed document belongs to that tour. */
  lemma GetAllNestedOnlyThatTour<T(!new), U>(m: Model<T, U>, store: seq<T>, params: map<string, string>, tourId: string)
    requires Lookup(params, "tourId") == Some(tourId) && tourId != ""
    ensures forall d :: d in GetAll(m, store, params).result.value.docs ==> m.tourOf(d) == Some(tourId)
  {
  }

  /** A document the find filter hides behaves as if absent: it cannot be read, updated or
      deleted through these handlers, which answer 404 (or the cast error, for an id that is
      not an ObjectId). */
  lemma HiddenIsNotFound<T, U>(m: Model<T, U>, store: seq<T>, id: string, body: U)
    requires forall d :: d in store && SameId(m.idOf(d), id) ==> !m.visible(d)
    ensures var e := if IsObjectId(id) then NotFound else CastFailed;
            && GetOne(m, store, id).result == Error(e)
            && DeleteOne(m, store, id) == Answer(store, Error(e))
            && (m.validUpdate(body) ==> UpdateOne(m, store, id, body) == Answer(store, Error(e)))
  {
  }

  /** Two ids that cast to the same ObjectId find the same document. */
  lemma {:induction false} SameCastSameIndex<T, U>(m: Model<T, U>, store: seq<T>, a: string, b: string)
    requires Cast(a) == Cast(b)
    ensures FindIndex(m, store, a) == FindIndex(m, store, b)
    decreases |store|
  {
    if |store| > 0 {
      SameCastSameIndex(m, store[1..], a, b);
    }
  }

  /** The handlers answer every spelling of an ObjectId alike: an id in upper-case hex
      reads, updates and deletes the document stored under its lower-case form. */
  lemma SpellingsAnswerAlike<T, U>(m: Model<T, U>, store: seq<T>, id: string, body: U)
    requires |id| == 24 && IsObjectId(id)
    ensures GetOne(m, store, id) == GetOne(m, store, ToLower(id))
    ensures UpdateOne(m, store, id, body) == UpdateOne(m, store, ToLower(id), body)
    ensures DeleteOne(m, store, id) == DeleteOne(m, store, ToLower(id))
  {
    CaseIgnored(id);
    SameCastSameIndex(m, store, id, ToLower(id));
  }
}

=== FILE: http.dfy ===
/** The per-request state the middleware reads and writes: the parts of Express's `req`
    and `res.locals` the modelled handlers touch, and the environment they run in. */
module Http {
  import opened Common
  import opened Errors
  import opened Crypto
  import opened UserModel
  import opened Upload

  /** A request. Bodies, params and query strings are modelled as string-valued objects;
      `user` is `req.user`, set by the session gate; `parts` are the files of a multipart
      body and `file` is `req.file`, set by the single-file upload step. */
  datatype Req = Req(
    authorization: Option<string>,
    jwtCookie: Option<string>,
    params: map<string, string>,
    query: map<string, string>,
    body: map<string, string>,
    parts: seq<Part>,
    file: Option<Part>,
    user: Option<User>)

  /** A request together with `res.locals.user` and `res.locals.alert`. */
  datatype Ctx = Ctx(req: Req, localsUser: Option<User>, localsAlert: Option<string>)

  /** What a middleware does: call `next()` with the (possibly updated) context, or call
      `next(err)`. */
  datatype Step = Next(ctx: Ctx) | Abort(err: Err)

  /** The world a request is handled in: the users collection, the crypto primitives with
      their configuration, and the clock. */
  datatype Env = Env(users: Users, crypto: Primitives, nowMs: nat)

  /** The context after identity has been attached to both `req.user` and `res.locals.user`. */
  function WithUser(ctx: Ctx, u: User): Ctx {
    ctx.(req := ctx.req.(user := Some(u)), localsUser := Some(u))
  }
}

=== FILE: object_ids.dfy ===
/** The ORM's cast of a string to an ObjectId, the 12-byte id every document carries and
    every `ref` path holds (src/models/review.model.ts:17-18). Queries and the unique index
    compare the cast bytes, so two spellings of one id, in upper- and lower-case hex, name
    the same document. An ObjectId prints as 24 lower-case hex digits; that is the form the
    model stores ids and references in. */
module ObjectIds {
  import opened Common
  import Crypto

  type Bytes = seq<Crypto.byte>

  /** A hexadecimal digit in either case. */
  predicate IsHexDigit(c: char) {
    Crypto.HexValue(LowerChar(c)).Some?
  }

  /** A string the cast accepts: 24 hexadecimal digits, or any 12 characters. */
  predicate IsObjectId(s: string) {
    |s| == 12 || (|s| == 24 && forall i :: 0 <= i < |s| ==> IsHexDigit(s[i]))
  }

  /** A 12-character string is taken as the id's bytes, one per character, each character
      code reduced to its low byte. */
  function Latin1(s: string): (r: Bytes)
    ensures |r| == |s|
    ensures forall i :: 0 <= i < |s| ==> r[i] as int == s[i] as int % 256
  {
    seq(|s|, i requires 0 <= i < |s| => (s[i] as int % 256) as Crypto.byte)
  }

  /** Hex digits of either case decode to half as many bytes. */
  lemma {:induction false} FromHexDefined(h: string)
    requires |h| % 2 == 0
    requires forall i :: 0 <= i < |h| ==> Crypto.HexValue(h[i]).Some?
    ensures Crypto.FromHex(h).Some? && 2 * |Crypto.FromHex(h).value| == |h|
    decreases |h|
  {
    if |h| > 0 {
      assert forall i :: 0 <= i < |h[2..]| ==> h[2..][i] == h[i + 2];
      FromHexDefined(h[2..]);
    }
  }

  /** `new ObjectId(s)`: the id's 12 bytes, or `None` when the cast fails. Hex digits are
      read without regard to case. */
  function Cast(s: string): (r: Option<Bytes>)
    ensures r.Some? <==> IsObjectId(s)
    ensures r.Some? ==> |r.value| == 12
    ensures |s| == 24 && r.Some? ==> r == Crypto.FromHex(ToLower(s))
  {
    if |s| == 12 then Some(Latin1(s))
    else if IsObjectId(s) then
      FromHexDefined(ToLower(s));
      Crypto.FromHex(ToLower(s))
    else None
  }

  /** The id as it prints (`toString()`): 24 lower-case hex digits. */
  function Hex(s: string): (r: string)
    requires IsObjectId(s)
    ensures |r| == 24 && Crypto.IsLowerHex(r)
    ensures IsObjectId(r) && Cast(r) == Cast(s)
  {
    var bs := Cast(s).value;
    var r := Crypto.ToHex(bs);
    LowerHexIsObjectId(r);
    LowerHexUnchanged(r);
    Crypto.HexRoundTrip(bs);
    r
  }

  /** Whether a stored id is the one a query names: the query's value casts, and to the same
      bytes. */
  predicate SameId(stored: string, given: string) {
    Cast(given).Some? && Cast(stored) == Cast(given)
  }

  /** A reference path's value as stored: the printed form of its cast, when it casts. */
  function Ref(v: Option<string>): (r: Option<string>)
    ensures v.None? <==> r.None?
    ensures v.Some? && IsObjectId(v.value) ==> r == Some(Hex(v.value))
    ensures v.Some? && !IsObjectId(v.value) ==> r == v
  {
    if v.Some? && IsObjectId(v.value) then Some(Hex(v.value)) else v
  }

  lemma LowerHexIsObjectId(h: string)
    requires |h| == 24 && Crypto.IsLowerHex(h)
    ensures IsObjectId(h)
  {
    forall i | 0 <= i < |h| ensures IsHexDigit(h[i]) {
      assert LowerChar(h[i]) == h[i];
    }
  }

  lemma LowerHexUnchanged(h: string)
    requires Crypto.IsLowerHex(h)
    ensures ToLower(h) == h
  {
    assert forall i :: 0 <= i < |h| ==> ToLower(h)[i] == h[i];
  }

  /** Decoding lower-case hex and printing the bytes again gives the same text. */
  lemma {:induction false} HexPrintsBack(h: string)
    requires Crypto.IsLowerHex(h) && Crypto.FromHex(h).Some?
    ensures Crypto.ToHex(Crypto.FromHex(h).value) == h
    decreases |h|
  {
    if |h| > 0 {
      var hi := Crypto.HexValue(h[0]).value;
      var lo := Crypto.HexValue(h[1]).value;
      var rest := Crypto.FromHex(h[2..]).value;
      assert Crypto.FromHex(h).value == [(hi * 16 + lo) as Crypto.byte] + rest;
      HexPrintsBack(h[2..]);
      assert (hi * 16 + lo) / 16 == hi && (hi * 16 + lo) % 16 == lo;
      assert ([(hi * 16 + lo) as Crypto.byte] + rest)[1..] == rest;
    }
  }

  /** The cast ignores the case of hex digits: an id and its upper- or lower-case spelling
      name the same document, and a stored id matches either spelling. */
  lemma CaseIgnored(s: string)
    requires |s| == 24 && IsObjectId(s)
    ensures IsObjectId(ToLower(s)) && Cast(ToLower(s)) == Cast(s)
    ensures forall stored :: SameId(stored, s) <==> SameId(stored, ToLower(s))
  {
    ToLowerIdempotent(s);
    assert forall i :: 0 <= i < 24 ==> LowerChar(ToLower(s)[i]) == LowerChar(s[i]);
  }

  /** Printing is a canonical form: the printed id casts back to the same bytes, printing
      it again changes nothing, and two ids are the same exactly when they print alike. */
  lemma {:induction false} HexCanonical(a: string, b: string)
    requires IsObjectId(a) && IsObjectId(b)
    ensures Hex(Hex(a)) == Hex(a)
    ensures Cast(a) == Cast(b) <==> Hex(a) == Hex(b)
    ensures SameId(a, b) <==> Hex(a) == Hex(b)
  {
    if Hex(a) == Hex(b) {
      assert Cast(a) == Cast(Hex(a)) == Cast(Hex(b)) == Cast(b);
    }
    var h := Hex(a);
    LowerHexUnchanged(h);
    HexPrintsBack(h);
  }

  /** A printed id is its own printed form, so a stored reference compared with `==` is
      compared as an ObjectId. */
  lemma {:induction false} StoredFormFixed(h: string)
    requires |h| == 24 && Crypto.IsLowerHex(h)
    ensures IsObjectId(h) && Hex(h) == h
  {
    LowerHexIsObjectId(h);
    LowerHexUnchanged(h);
    FromHexDefined(h);
    HexPrintsBack(h);
  }
}

=== FILE: reviews.dfy ===
/** Reviews (src/models/review.model.ts, src/controllers/review.controller.ts): the schema
    rules, the one-review-per-tour-and-user index, the rating aggregate a tour carries, and
    the hooks that keep it current when reviews are created, updated or deleted. */
module Reviews {
  import opened Common
  import opened Errors
  import opened ObjectIds
  import Tours
  import Factory
  import Http
  import Auth

  /** A stored review. Every path is optional in the document; the validators decide which
      must be present. `tour` and `user` are the ids the review refers to, held in their
      printed form once they cast (see `ObjectIds.Ref`). */
  datatype Review = Review(id: string, review: Option<string>, rating: Option<real>, tour: Option<string>, user: Option<string>)

  /** The paths a client sends when creating or updating a review (the `rating` is the value
      after the ORM has cast it to a number). */
  datatype ReviewInput = ReviewInput(review: Option<string>, rating: Option<real>, tour: Option<string>, user: Option<string>)

  /** `rating: { min: 1, max: 5 }`: an absent rating passes. */
  predicate RatingOk(rating: Option<real>) {
    rating.Some? ==> Tours.MinRating <= rating.value <= Tours.MaxRating
  }

  /** The schema validators: the text, the tour and the user are required (an empty string
      fails `required`), a rating, when present, lies in [1, 5], and the tour and the user
      cast to ObjectIds (a failed cast is reported as a validation error on save). */
  predicate Valid(r: Review) {
    && Truthy(r.review) && RatingOk(r.rating)
    && r.tour.Some? && IsObjectId(r.tour.value)
    && r.user.Some? && IsObjectId(r.user.value)
  }

  /** The casts an update goes through before its validators: a tour or user it sets must be
      an ObjectId. */
  predicate PatchCasts(p: ReviewInput) {
    (p.tour.Some? ==> IsObjectId(p.tour.value)) && (p.user.Some? ==> IsObjectId(p.user.value))
  }

  /** An update the ORM accepts: it casts, and the update validators, which check only the
      paths the update sets, pass. */
  predicate ValidPatch(p: ReviewInput) {
    PatchCasts(p) && (p.review.Some? ==> p.review.value != "") && RatingOk(p.rating)
  }

  /** The document `create(body)` builds: the references are stored as the ObjectIds they
      cast to. */
  function NewReview(newId: string, input: ReviewInput): (r: Review)
    ensures r.id == newId && r.review == input.review && r.rating == input.rating
    ensures r.tour == Ref(input.tour) && r.user == Ref(input.user)
  {
    Review(newId, input.review, input.rating, Ref(input.tour), Ref(input.user))
  }

  /** Applying an update: each path the update sets replaces the stored one, a reference as
      the ObjectId it casts to. */
  function Patch(r: Review, p: ReviewInput): (u: Review)
    ensures u.id == r.id
    ensures u.review == (if p.review.Some? then p.review else r.review)
    ensures u.rating == (if p.rating.Some? then p.rating else r.rating)
    ensures u.tour == (if p.tour.Some? then Ref(p.tour) else r.tour)
    ensures u.user == (if p.user.Some? then Ref(p.user) else r.user)
  {
    Review(r.id,
           if p.review.Some? then p.review else r.review,
           if p.rating.Some? then p.rating else r.rating,
           if p.tour.Some? then Ref(p.tour) else r.tour,
           if p.user.Some? then Ref(p.user) else r.user)
  }

  /** An update that passes the update validators keeps a valid review valid. */
  lemma PatchKeepsValid(r: Review, p: ReviewInput)
    requires Valid(r) && ValidPatch(p)
    ensures Valid(Patch(r, p))
  {
  }

  // ---------------------------------------------------------------- the unique index

  /** `index({ tour: 1, user: 1 }, { unique: true })`: no two reviews share the pair. */
  predicate UniquePairs(rs: seq<Review>) {
    forall i, j :: 0 <= i < j < |rs| ==> !(rs[i].tour == rs[j].tour && rs[i].user == rs[j].user)
  }

  /** Whether some review other than the one at `skip` already holds the pair. */
  predicate PairTaken(rs: seq<Review>, tour: Option<string>, user: Option<string>, skip: int) {
    exists i :: 0 <= i < |rs| && i != skip && rs[i].tour == tour && rs[i].user == user
  }

  // ---------------------------------------------------------------- the aggregate

  /** How many reviews refer to the tour (`$sum: 1` over `$match: { tour }`). */
  function CountFor(rs: seq<Review>, tourId: string): nat {
    if |rs| == 0 then 0
    else (if rs[0].tour == Some(tourId) then 1 else 0) + CountFor(rs[1..], tourId)
  }

  /** How many of them carry a rating; `$avg` ignores the others. */
  function RatedFor(rs: seq<Review>, tourId: string): nat {
    if |rs| == 0 then 0
    else (if rs[0].tour == Some(tourId) && rs[0].rating.Some? then 1 else 0) + RatedFor(rs[1..], tourId)
  }

  /** The sum of their ratings. */
  function RatingSum(rs: seq<Review>, tourId: string): real {
    if |rs| == 0 then 0.0
    else (if rs[0].tour == Some(tourId) && rs[0].rating.Some? then rs[0].rating.value else 0.0) + RatingSum(rs[1..], tourId)
  }

  /** The one group the aggregation pipeline yields: `nRating` and `avgRating`, which is
      `null` when no review of the tour has a rating. */
  datatype Stats = Stats(nRating: nat, avgRating: Option<real>)

  /** The pipeline's output: no group at all when no review refers to the tour. */
  function Group(rs: seq<Review>, tourId: string): (s: Option<Stats>)
    ensures s.None? <==> CountFor(rs, tourId) == 0
    ensures s.Some? ==> s.value.nRating == CountFor(rs, tourId)
    ensures s.Some? ==> (s.value.avgRating.Some? <==> RatedFor(rs, tourId) > 0)
    ensures s.Some? && s.value.avgRating.Some? ==>
              s.value.avgRating.value * RatedFor(rs, tourId) as real == RatingSum(rs, tourId)
  {
    var n := CountFor(rs, tourId);
    var k := RatedFor(rs, tourId);
    if n == 0 then None
    else Some(Stats(n, if k == 0 then None else Some(RatingSum(rs, tourId) / k as real)))
  }

  /** The ratings of a tour's reviews, when they all pass the validator, sum to between
      `k` and `5k` for `k` rated reviews. */
  lemma {:induction false} RatingSumBounds(rs: seq<Review>, tourId: string)
    requires forall i :: 0 <= i < |rs| ==> RatingOk(rs[i].rating)
    ensures Tours.MinRating * RatedFor(rs, tourId) as real <= RatingSum(rs, tourId)
    ensures RatingSum(rs, tourId) <= Tours.MaxRating * RatedFor(rs, tourId) as real
    decreases |rs|
  {
    if |rs| > 0 {
      assert forall i :: 0 <= i < |rs[1..]| ==> rs[1..][i] == rs[i + 1];
      RatingSumBounds(rs[1..], tourId);
    }
  }

  /** The mean the aggregate computes stays within the rating bounds. */
  lemma AverageInRange(rs: seq<Review>, tourId: string)
    requires forall i :: 0 <= i < |rs| ==> RatingOk(rs[i].rating)
    requires Group(rs, tourId).Some? && Group(rs, tourId).value.avgRating.Some?
    ensures Tours.MinRating <= Group(rs, tourId).value.avgRating.value <= Tours.MaxRating
  {
    RatingSumBounds(rs, tourId);
    MeanBounds(RatingSum(rs, tourId), RatedFor(rs, tourId) as real, Tours.MinRating, Tours.MaxRating);
  }

  /** A sum between `lo * k` and `hi * k` has its mean between `lo` and `hi`. */
  lemma MeanBounds(sum: real, k: real, lo: real, hi: real)
    requires k > 0.0 && lo * k <= sum <= hi * k
    ensures lo <= sum / k <= hi
  {
    assert (sum / k) * k == sum;
  }

  /** The average a tour should show given the reviews: 4.5 without reviews, `null` when
      none of them is rated, their mean otherwise. */
  function ExpectedAverage(rs: seq<Review>, tourId: string): Option<real> {
    if CountFor(rs, tourId) == 0 then Some(Tours.DefaultRating)
    else if RatedFor(rs, tourId) == 0 then None
    else Some(RatingSum(rs, tourId) / RatedFor(rs, tourId) as real)
  }

  /** Selects the tour with the given id. */
  function IdIs(id: string): Tour -> bool {
    (t: Tour) => t.id == id
  }

  type Tour = Tours.Tour

  /** `TourModel.findByIdAndUpdate(tourId, { ratingsQuantity, ratingsAverage })`: the update
      goes through the tours' find filter, so it reaches the first visible tour with the id,
      and a secret tour is left as it was. */
  function SetRatings(tours: seq<Tour>, tourId: string, quantity: real, average: Option<real>): (r: seq<Tour>)
    ensures |r| == |tours|
    ensures forall i :: 0 <= i < |tours| ==>
              r[i] == tours[i] || r[i] == tours[i].(ratingsQuantity := quantity, ratingsAverage := average)
    ensures forall i :: 0 <= i < |tours| && tours[i].id != tourId ==> r[i] == tours[i]
    ensures Tours.FindTour(tours, IdIs(tourId)).None? ==> r == tours
    ensures Tours.FindTour(tours, IdIs(tourId)).Some? ==>
              Tours.FindTour(r, IdIs(tourId)) ==
              Some(Tours.FindTour(tours, IdIs(tourId)).value.(ratingsQuantity := quantity, ratingsAverage := average))
    decreases |tours|
  {
    if |tours| == 0 then []
    else if Tours.Visible(tours[0]) && IdIs(tourId)(tours[0]) then
      [tours[0].(ratingsQuantity := quantity, ratingsAverage := average)] + tours[1..]
    else
      var rest := SetRatings(tours[1..], tourId, quantity, average);
      assert ([tours[0]] + rest)[1..] == rest;
      [tours[0]] + rest
  }

  /** The tour's stored aggregate agrees with its reviews (vacuous when the tour is secret or
      missing, since no update can reach it). */
  ghost predicate Current(rs: seq<Review>, tours: seq<Tour>, tourId: string) {
    Tours.FindTour(tours, IdIs(tourId)).Some? ==>
      && Tours.FindTour(tours, IdIs(tourId)).value.ratingsQuantity == CountFor(rs, tourId) as real
      && Tours.FindTour(tours, IdIs(tourId)).value.ratingsAverage == ExpectedAverage(rs, tourId)
  }

  /** `calcAverageRatings(tourId)`: the tour's quantity and average are recomputed from its
      reviews; with no reviews they are reset to 0 and 4.5. */
  function CalcAverageRatings(rs: seq<Review>, tours: seq<Tour>, tourId: string): (r: seq<Tour>)
    ensures Current(rs, r, tourId)
    ensures |r| == |tours|
    ensures forall i :: 0 <= i < |tours| && tours[i].id != tourId ==> r[i] == tours[i]
    ensures Tours.FindTour(tours, IdIs(tourId)).None? ==> r == tours
  {
    match Group(rs, tourId)
    case None => SetRatings(tours, tourId, 0.0, Some(Tours.DefaultRating))
    case Some(s) => SetRatings(tours, tourId, s.nRating as real, s.avgRating)
  }

  /** With no reviews left the tour is back at its defaults. */
  lemma NoReviewsResetsTour(rs: seq<Review>, tours: seq<Tour>, tourId: string)
    requires CountFor(rs, tourId) == 0
    requires Tours.FindTour(tours, IdIs(tourId)).Some?
    ensures Tours.FindTour(CalcAverageRatings(rs, tours, tourId), IdIs(tourId)).value.ratingsQuantity == 0.0
    ensures Tours.FindTour(CalcAverageRatings(rs, tours, tourId), IdIs(tourId)).value.ratingsAverage == Some(Tours.DefaultRating)
  {
  }

  /** When every review is valid the recomputed average, if defined, is one the tour schema
      accepts. */
  lemma RecomputedAverageInRange(rs: seq<Review>, tours: seq<Tour>, tourId: string)
    requires forall i :: 0 <= i < |rs| ==> Valid(rs[i])
    requires Tours.FindTour(tours, IdIs(tourId)).Some?
    ensures var t := Tours.FindTour(CalcAverageRatings(rs, tours, tourId), IdIs(tourId)).value;
            t.ratingsAverage.Some? ==> Tours.MinRating <= t.ratingsAverage.value <= Tours.MaxRating
  {
    if CountFor(rs, tourId) > 0 && RatedFor(rs, tourId) > 0 {
      AverageInRange(rs, tourId);
    }
  }

  // ---------------------------------------------------------------- the handlers

  /** The reviews and the tours, which the hooks update. */
  datatype Db = Db(reviews: seq<Review>, tours: seq<Tour>)

  /** The state after a handler and its answer. */
  datatype Outcome = Outcome(db: Db, result: Result<Factory.Response<Review>>)

  /** The first review whose id is the ObjectId `id` casts to (reviews have no find
      filter). */
  function FindReview(rs: seq<Review>, id: string): (r: Option<nat>)
    ensures r.Some? ==> r.value < |rs| && SameId(rs[r.value].id, id)
    ensures r.Some? ==> forall i :: 0 <= i < r.value ==> !SameId(rs[i].id, id)
    ensures r.None? ==> forall i :: 0 <= i < |rs| ==> !SameId(rs[i].id, id)
    decreases |rs|
  {
    if |rs| == 0 then None
    else if SameId(rs[0].id, id) then Some(0)
    else match FindReview(rs[1..], id)
      case None => None
      case Some(k) => Some(k + 1)
  }

  /** `createReview` (`createOne`): the validators, then the unique index, then the insert;
      the `post('save')` hook then recomputes the review's tour. */
  function CreateReview(db: Db, newId: string, input: ReviewInput): (o: Outcome)
    ensures var doc := NewReview(newId, input);
            o.result.Ok? <==> Valid(doc) && !PairTaken(db.reviews, doc.tour, doc.user, -1)
    ensures !Valid(NewReview(newId, input)) ==>
              o == Outcome(db, Error(ValidationFailed))
    ensures o.result.Error? ==> o.db == db
    ensures o.result.Ok? ==>
              var doc := NewReview(newId, input);
              && o.result.value == Factory.Response(201, None, [doc])
              && o.db.reviews == db.reviews + [doc]
              && Current(o.db.reviews, o.db.tours, doc.tour.value)
    ensures UniquePairs(db.reviews) ==> UniquePairs(o.db.reviews)
  {
    var doc := NewReview(newId, input);
    if !Valid(doc) then Outcome(db, Error(ValidationFailed))
    else if PairTaken(db.reviews, doc.tour, doc.user, -1) then Outcome(db, Error(DuplicateKey))
    else
      var rs := db.reviews + [doc];
      Outcome(Db(rs, CalcAverageRatings(rs, db.tours, doc.tour.value)), Ok(Factory.Response(201, None, [doc])))
  }

  /** Spelling the tour in upper-case hex changes nothing: the review is stored under the
      same ObjectId, so it meets the same unique index and recomputes the same tour. */
  lemma CreateSpellingsAlike(db: Db, newId: string, input: ReviewInput, t: string)
    requires |t| == 24 && IsObjectId(t) && input.tour == Some(t)
    ensures CreateReview(db, newId, input) == CreateReview(db, newId, input.(tour := Some(ToLower(t))))
  {
    CaseIgnored(t);
    assert Ref(input.tour) == Ref(Some(ToLower(t)));
  }

  /** The error the `post(/^findOneAnd/)` hook raises when the `pre` hook found no review:
      it reads `constructor` of `null`. */
  const NoReviewFound: Err := LibraryError("TypeError: Cannot read properties of null (reading 'constructor')")

  /** `updateReview` (`updateOne`, a `findOneAndUpdate` with update validators): the `pre`
      hook remembers the review as it was; an id or an update that does not cast is a
      `CastError`; then the validators, the lookup and the unique index decide the answer;
      after a write the hook recomputes the tour the review had BEFORE the update. A missing
      review is answered with 404. */
  function UpdateReview(db: Db, id: string, p: ReviewInput): (o: Outcome)
    ensures !IsObjectId(id) || !PatchCasts(p) ==> o == Outcome(db, Error(CastFailed))
    ensures IsObjectId(id) && PatchCasts(p) && !ValidPatch(p) ==> o == Outcome(db, Error(ValidationFailed))
    ensures IsObjectId(id) && ValidPatch(p) && FindReview(db.reviews, id).None? ==>
              o == Outcome(db, Error(Factory.NotFound))
    ensures o.result.Error? ==> o.db == db
    ensures o.result.Ok? ==>
              var i := FindReview(db.reviews, id).value;
              var prev := db.reviews[i];
              && IsObjectId(id) && ValidPatch(p)
              && !PairTaken(db.reviews, Patch(prev, p).tour, Patch(prev, p).user, i)
              && o.result.value == Factory.Response(200, None, [Patch(prev, p)])
              && o.db.reviews == db.reviews[i := Patch(prev, p)]
              && (prev.tour.Some? ==> Current(o.db.reviews, o.db.tours, prev.tour.value))
              && |o.db.tours| == |db.tours|
              && (forall j :: 0 <= j < |db.tours| && Some(db.tours[j].id) != prev.tour ==> o.db.tours[j] == db.tours[j])
    ensures UniquePairs(db.reviews) ==> UniquePairs(o.db.reviews)
  {
    if !IsObjectId(id) || !PatchCasts(p) then Outcome(db, Error(CastFailed))
    else if !ValidPatch(p) then Outcome(db, Error(ValidationFailed))
    else match FindReview(db.reviews, id)
      case None => Outcome(db, Error(Factory.NotFound))
      case Some(i) =>
        var doc := Patch(db.reviews[i], p);
        if PairTaken(db.reviews, doc.tour, doc.user, i) then Outcome(db, Error(DuplicateKey))
        else
          var rs := db.reviews[i := doc];
          var tours := if db.reviews[i].tour.Some? then CalcAverageRatings(rs, db.tours, db.reviews[i].tour.value) else db.tours;
          Outcome(Db(rs, tours), Ok(Factory.Response(200, None, [doc])))
  }

  /** `updateReview` as the hooks are written: for a missing review the update finds nothing
      and the `post` hook then fails on the `null` it was left, so the answer is a 500 rather
      than the factory's 404. */
  function UpdateReviewAsWritten(db: Db, id: string, p: ReviewInput): (o: Outcome)
    ensures IsObjectId(id) && ValidPatch(p) && FindReview(db.reviews, id).None? ==>
              o == Outcome(db, Error(NoReviewFound))
    ensures !(IsObjectId(id) && ValidPatch(p) && FindReview(db.reviews, id).None?) ==> o == UpdateReview(db, id, p)
  {
    if IsObjectId(id) && ValidPatch(p) && FindReview(db.reviews, id).None? then Outcome(db, Error(NoReviewFound))
    else UpdateReview(db, id, p)
  }

  /** `deleteReview` (`deleteOne`, a `findOneAndDelete`): an id that is not an ObjectId is a
      `CastError`; otherwise the review is removed and the hook recomputes its tour over the
      reviews that remain; a missing review is answered with 404. */
  function DeleteReview(db: Db, id: string): (o: Outcome)
    ensures !IsObjectId(id) ==> o == Outcome(db, Error(CastFailed))
    ensures IsObjectId(id) && FindReview(db.reviews, id).None? ==> o == Outcome(db, Error(Factory.NotFound))
    ensures IsObjectId(id) && FindReview(db.reviews, id).Some? ==>
              var i := FindReview(db.reviews, id).value;
              && o.result == Ok(Factory.Response(204, None, []))
              && o.db.reviews == db.reviews[..i] + db.reviews[i + 1..]
              && (db.reviews[i].tour.Some? ==> Current(o.db.reviews, o.db.tours, db.reviews[i].tour.value))
    ensures UniquePairs(db.reviews) ==> UniquePairs(o.db.reviews)
  {
    if !IsObjectId(id) then Outcome(db, Error(CastFailed))
    else match FindReview(db.reviews, id)
      case None => Outcome(db, Error(Factory.NotFound))
      case Some(i) =>
        var rs := db.reviews[..i] + db.reviews[i + 1..];
        RemoveKeepsUnique(db.reviews, i);
        var tours := if db.reviews[i].tour.Some? then CalcAverageRatings(rs, db.tours, db.reviews[i].tour.value) else db.tours;
        Outcome(Db(rs, tours), Ok(Factory.Response(204, None, [])))
  }

  /** Removing a review cannot create a duplicate pair. */
  lemma RemoveKeepsUnique(rs: seq<Review>, i: int)
    requires 0 <= i < |rs|
    ensures UniquePairs(rs) ==> UniquePairs(rs[..i] + rs[i + 1..])
  {
    var rest := rs[..i] + rs[i + 1..];
    if UniquePairs(rs) {
      forall a, b | 0 <= a < b < |rest| ensures !(rest[a].tour == rest[b].tour && rest[a].user == rest[b].user) {
        var a' := if a < i then a else a + 1;
        var b' := if b < i then b else b + 1;
        assert rest[a] == rs[a'] && rest[b] == rs[b'];
      }
    }
  }

  /** `deleteReview` as the hooks are written: a missing review gives a 500, not a 404. */
  function DeleteReviewAsWritten(db: Db, id: string): (o: Outcome)
    ensures IsObjectId(id) && FindReview(db.reviews, id).None? ==> o == Outcome(db, Error(NoReviewFound))
    ensures !(IsObjectId(id) && FindReview(db.reviews, id).None?) ==> o == DeleteReview(db, id)
  {
    if IsObjectId(id) && FindReview(db.reviews, id).None? then Outcome(db, Error(NoReviewFound))
    else DeleteReview(db, id)
  }

  /** For a well-formed id no review has, the hooks as written turn the factory's 404 into a
      500 (a malformed id is a 500 either way, from the cast). */
  lemma MissingReviewIsServerError(db: Db, id: string, p: ReviewInput)
    requires IsObjectId(id) && FindReview(db.reviews, id).None? && ValidPatch(p)
    ensures StatusOf(DeleteReviewAsWritten(db, id).result.err) == 500
    ensures StatusOf(UpdateReviewAsWritten(db, id, p).result.err) == 500
    ensures StatusOf(DeleteReview(db, id).result.err) == 404
    ensures StatusOf(UpdateReview(db, id, p).result.err) == 404
  {
  }

  /** An id that does not cast to an ObjectId is a 500 that changes nothing, whichever way
      the hooks are written; a review naming such a tour or user is refused the same way. */
  lemma MalformedIdIsServerError(db: Db, id: string, newId: string, input: ReviewInput, p: ReviewInput)
    requires !IsObjectId(id)
    requires input.tour.Some? && !IsObjectId(input.tour.value)
    ensures DeleteReviewAsWritten(db, id) == DeleteReview(db, id) == Outcome(db, Error(CastFailed))
    ensures UpdateReviewAsWritten(db, id, p) == UpdateReview(db, id, p) == Outcome(db, Error(CastFailed))
    ensures CreateReview(db, newId, input) == Outcome(db, Error(ValidationFailed))
    ensures StatusOf(CastFailed) == StatusOf(ValidationFailed) == 500
  {
  }

  /** Two ids that cast to the same ObjectId find the same review. */
  lemma {:induction false} SameCastSameReview(rs: seq<Review>, a: string, b: string)
    requires Cast(a) == Cast(b)
    ensures FindReview(rs, a) == FindReview(rs, b)
    decreases |rs|
  {
    if |rs| > 0 {
      SameCastSameReview(rs[1..], a, b);
    }
  }

  /** An upper-case spelling of a review's id updates and deletes that review, exactly as
      its lower-case form does, whichever way the hooks are written. */
  lemma ReviewSpellingsAlike(db: Db, id: string, p: ReviewInput)
    requires |id| == 24 && IsObjectId(id)
    ensures UpdateReview(db, id, p) == UpdateReview(db, ToLower(id), p)
    ensures DeleteReview(db, id) == DeleteReview(db, ToLower(id))
    ensures UpdateReviewAsWritten(db, id, p) == UpdateReviewAsWritten(db, ToLower(id), p)
    ensures DeleteReviewAsWritten(db, id) == DeleteReviewAsWritten(db, ToLower(id))
  {
    CaseIgnored(id);
    SameCastSameReview(db.reviews, id, ToLower(id));
  }

  /** Moving a review to another tour recomputes only the tour it left: the tour it joined
      keeps its old aggregate. */
  lemma MovedReviewLeavesNewTourStale(db: Db, id: string, p: ReviewInput, j: int)
    requires UpdateReview(db, id, p).result.Ok?
    requires 0 <= j < |db.tours|
    requires p.tour == Some(db.tours[j].id)
    requires db.reviews[FindReview(db.reviews, id).value].tour != p.tour
    ensures UpdateReview(db, id, p).db.tours[j] == db.tours[j]
  {
  }

  // ---------------------------------------------------------------- setTourUserIds

  /** `setTourUserIds`: a missing or empty `tour` in the body becomes the route's `tourId`
      (which may itself be undefined), and a missing or empty `user` becomes the current
      user's id; reading the id of an absent `req.user` throws. */
  function SetTourUserIds(ctx: Http.Ctx): (r: Http.Step)
    ensures ctx.req.user.None? && !Truthy(Lookup(ctx.req.body, "user")) <==> r.Abort?
    ensures r.Abort? ==> r.err == Auth.NoCurrentUser
    ensures r.Next? ==> r.ctx == ctx.(req := ctx.req.(body := r.ctx.req.body))
    ensures r.Next? ==>
              var body := r.ctx.req.body;
              && Lookup(body, "tour") == (if Truthy(Lookup(ctx.req.body, "tour")) then Lookup(ctx.req.body, "tour") else Lookup(ctx.req.params, "tourId"))
              && Lookup(body, "user") == (if Truthy(Lookup(ctx.req.body, "user")) then Lookup(ctx.req.body, "user") else Some(ctx.req.user.value.id))
              && (forall k :: k != "tour" && k != "user" ==> Lookup(body, k) == Lookup(ctx.req.body, k))
  {
    var body := ctx.req.body;
    var body := if Truthy(Lookup(body, "tour")) then body else Assign(body, "tour", Lookup(ctx.req.params, "tourId"));
    if Truthy(Lookup(body, "user")) then Http.Next(ctx.(req := ctx.req.(body := body)))
    else match ctx.req.user
      case None => Http.Abort(Auth.NoCurrentUser)
      case Some(u) => Http.Next(ctx.(req := ctx.req.(body := Assign(body, "user", Some(u.id)))))
  }

  /** A tour and a user the client supplied are kept as they are. */
  lemma SetTourUserIdsKeepsSupplied(ctx: Http.Ctx)
    requires Truthy(Lookup(ctx.req.body, "tour")) && Truthy(Lookup(ctx.req.body, "user"))
    ensures SetTourUserIds(ctx) == Http.Next(ctx)
  {
    assert SetTourUserIds(ctx).ctx.req.body == ctx.req.body;
  }

  /** On a nested route with a signed-in user the review the body describes has a tour and a
      user, so it fails validation only for its text, its rating or an id that does not
      cast. */
  lemma NestedCreateHasTourAndUser(ctx: Http.Ctx, tourId: string)
    requires Lookup(ctx.req.params, "tourId") == Some(tourId) && ctx.req.user.Some?
    ensures SetTourUserIds(ctx).Next?
    ensures "tour" in SetTourUserIds(ctx).ctx.req.body && "user" in SetTourUserIds(ctx).ctx.req.body
  {
  }
}

=== FILE: routes.dfy ===
/** The route tables (src/routes/user.route.ts, review.route.ts, booking.route.ts,
    view.route.ts) and the part of Express's router they rely on: layers are tried in order;
    a path-less `router.use(mw)` runs for every request that reaches it, matched or not; a
    route matches on its verb and its path pattern (literal segments case-insensitively, a
    `:param` segment any non-empty segment) and then runs its middleware chain and handler;
    a request no layer answers falls through to the next router. */
module Routes {
  import opened Common
  import opened Errors
  import opened UserModel
  import opened Http
  import Auth
  import UserController
  import Reviews

  datatype Verb = Get | Post | Patch | Delete

  /** A path pattern segment: `/literal` or `/:name`. Matching ignores case, so a literal is
      kept here in lower case. */
  datatype Seg = Lit(text: string) | Param(name: string)

  /** The middleware the routers put in front of handlers. */
  datatype Mw =
    | Protect
    | IsLoggedIn
    | RestrictTo(roles: set<Role>)
    | SetTourUserIds
    | GetMe
    | UploadUserPhoto
    | ResizeUserPhoto

  /** The handlers at the end of the routes. */
  datatype Handler =
    | Signup | Login | Logout | ForgotPassword | ResetPassword
    | UpdateMyPassword | GetUser | UpdateMe | DeleteMe
    | GetAllUsers | CreateUser | UpdateUser | DeleteUser
    | GetAllReviews | CreateReview | GetReview | UpdateReview | DeleteReview
    | GetAllBookings | CreateBooking | GetBooking | UpdateBooking | DeleteBooking
    | Overview | TourPage | LoginForm | Account | MyTours | SubmitUserData

  datatype Route = Route(verb: Verb, path: seq<Seg>, chain: seq<Mw>, handler: Handler)

  /** A router layer: `router.use(mw)` or a route. */
  datatype Layer = Use(mw: Mw) | Mount(route: Route)

  /** Where a request ends: at a handler, with the context it sees; at a middleware's
      `next(err)`; or nowhere in this router. */
  datatype Outcome = Reached(handler: Handler, ctx: Ctx) | Rejected(err: Err) | Unmatched(ctx: Ctx)


  /** Running one middleware. */
  function Apply(env: Env, mw: Mw, ctx: Ctx): (r: Step)
    ensures mw.RestrictTo? ==> r == Auth.RestrictTo(mw.roles, ctx)
    ensures mw.IsLoggedIn? ==> r.Next? && r.ctx.req == ctx.req
    ensures mw.Protect? && r.Next? ==> r.ctx.req.user.Some?
    ensures !mw.RestrictTo? && r.Abort? ==> r.err.statusCode != Some(403)
  {
    match mw
    case Protect => Auth.Protect(ctx, env)
    case IsLoggedIn => Next(Auth.IsLoggedIn(ctx, env))
    case RestrictTo(roles) => Auth.RestrictTo(roles, ctx)
    case SetTourUserIds => Reviews.SetTourUserIds(ctx)
    case GetMe => UserController.GetMe(ctx)
    case UploadUserPhoto => UserController.UploadUserPhoto(ctx)
    case ResizeUserPhoto => UserController.ResizeUserPhoto(ctx, env.nowMs)
  }

  /** What the routing facts below rely on about the middleware: the role check is
      `restrictTo`; nothing else answers 403; the optional gate never fails and leaves the
      request alone; the session gate, when it passes, has set `req.user`. */
  ghost predicate Sound(exec: (Mw, Ctx) -> Step) {
    && (forall roles, c :: exec(RestrictTo(roles), c) == Auth.RestrictTo(roles, c))
    && (forall mw: Mw, c: Ctx :: !mw.RestrictTo? && exec(mw, c).Abort? ==> exec(mw, c).err.statusCode != Some(403))
    && (forall c :: exec(IsLoggedIn, c).Next? && exec(IsLoggedIn, c).ctx.req == c.req)
    && (forall c :: exec(Protect, c).Next? ==> exec(Protect, c).ctx.req.user.Some?)
  }

  /** The middleware of this application in a given environment. */
  function Middleware(env: Env): (exec: (Mw, Ctx) -> Step)
    ensures Sound(exec)
    ensures forall c :: exec(Protect, c) == Auth.Protect(c, env)
    ensures forall c :: exec(SetTourUserIds, c) == Reviews.SetTourUserIds(c)
    ensures forall c :: exec(GetMe, c) == UserController.GetMe(c)
  {
    (mw: Mw, c: Ctx) => Apply(env, mw, c)
  }

  // ---------------------------------------------------------------- matching

  predicate SegMatches(s: Seg, part: string) {
    match s
    case Lit(text) => ToLower(part) == text
    case Param(_) => part != ""
  }

  predicate Matches(r: Route, verb: Verb, path: seq<string>) {
    r.verb == verb && |r.path| == |path| && forall i :: 0 <= i < |path| ==> SegMatches(r.path[i], path[i])
  }

  /** The route's parameters added to `params`, a later segment of the same name winning. */
  function Bind(pattern: seq<Seg>, path: seq<string>, params: map<string, string>): (r: map<string, string>)
    requires |pattern| == |path|
    ensures forall k :: k in params ==> k in r
    ensures forall k :: k in r && k !in params ==> exists i :: 0 <= i < |pattern| && pattern[i] == Param(k)
    ensures forall i :: 0 <= i < |pattern| && pattern[i].Param? ==> pattern[i].name in r
    ensures forall k :: k in params && (forall i :: 0 <= i < |pattern| ==> pattern[i] != Param(k)) ==> r[k] == params[k]
    decreases |pattern|
  {
    if |pattern| == 0 then params
    else
      var next := if pattern[0].Param? then params[pattern[0].name := path[0]] else params;
      var r := Bind(pattern[1..], path[1..], next);
      assert forall i :: 0 <= i < |pattern[1..]| ==> pattern[1..][i] == pattern[i + 1];
      r
  }

  /** The context a matched route runs with. No router merges its parent's parameters, so
      `req.params` holds exactly the matched route's own parameters, whatever the request
      carried before. */
  function Bound(r: Route, path: seq<string>, ctx: Ctx): (c: Ctx)
    requires |r.path| == |path|
    ensures c.req.user == ctx.req.user && c.localsUser == ctx.localsUser
    ensures c == ctx.(req := ctx.req.(params := c.req.params))
    ensures forall k :: k in c.req.params <==> exists i :: 0 <= i < |r.path| && r.path[i] == Param(k)
  {
    ctx.(req := ctx.req.(params := Bind(r.path, path, map[])))
  }

  /** A context with its parameters replaced. */
  function WithParams(ctx: Ctx, params: map<string, string>): Ctx {
    ctx.(req := ctx.req.(params := params))
  }

  predicate NoRoleCheck(chain: seq<Mw>) {
    forall j :: 0 <= j < |chain| ==> !chain[j].RestrictTo?
  }

  /** Whether no layer applies a role check. */
  predicate NoRoleChecks(layers: seq<Layer>) {
    forall i :: 0 <= i < |layers| ==>
      match layers[i]
      case Use(mw) => !mw.RestrictTo?
      case Mount(r) => NoRoleCheck(r.chain)
  }

  /** A route's chain, then its handler. */
  function RunChain(exec: (Mw, Ctx) -> Step, chain: seq<Mw>, handler: Handler, ctx: Ctx): (o: Outcome)
    ensures !o.Unmatched?
    ensures o.Reached? ==> o.handler == handler
    ensures |chain| == 0 ==> o == Reached(handler, ctx)
    ensures Sound(exec) && NoRoleCheck(chain) && o.Rejected? ==> o.err.statusCode != Some(403)
    decreases |chain|
  {
    if |chain| == 0 then Reached(handler, ctx)
    else match exec(chain[0], ctx)
      case Abort(e) => Rejected(e)
      case Next(c) =>
        assert forall j :: 0 <= j < |chain[1..]| ==> chain[1..][j] == chain[j + 1];
        RunChain(exec, chain[1..], handler, c)
  }

  function Run(exec: (Mw, Ctx) -> Step, r: Route, path: seq<string>, ctx: Ctx): (o: Outcome)
    requires |r.path| == |path|
    ensures !o.Unmatched?
    ensures o.Reached? ==> o.handler == r.handler
    ensures Sound(exec) && NoRoleCheck(r.chain) && o.Rejected? ==> o.err.statusCode != Some(403)
  {
    RunChain(exec, r.chain, r.handler, Bound(r, path, ctx))
  }

  /** A router handling a request. */
  function Dispatch(exec: (Mw, Ctx) -> Step, layers: seq<Layer>, verb: Verb, path: seq<string>, ctx: Ctx): (o: Outcome)
    ensures o.Reached? ==> exists i :: 0 <= i < |layers| && layers[i].Mount? && layers[i].route.handler == o.handler
    ensures Sound(exec) && NoRoleChecks(layers) && o.Rejected? ==> o.err.statusCode != Some(403)
    decreases |layers|
  {
    if |layers| == 0 then Unmatched(ctx)
    else
      assert forall i :: 0 <= i < |layers[1..]| ==> layers[1..][i] == layers[i + 1];
      match layers[0]
      case Use(mw) =>
        (match exec(mw, ctx)
         case Abort(e) => Rejected(e)
         case Next(c) => Dispatch(exec, layers[1..], verb, path, c))
      case Mount(r) =>
        if Matches(r, verb, path) then Run(exec, r, path, ctx) else Dispatch(exec, layers[1..], verb, path, ctx)
  }

  /** The first route among the layers that matches the request. */
  function FirstMatch(layers: seq<Layer>, verb: Verb, path: seq<string>): (r: Option<Route>)
    ensures r.Some? ==> Mount(r.value) in layers && Matches(r.value, verb, path)
    ensures r.None? ==> forall i :: 0 <= i < |layers| && layers[i].Mount? ==> !Matches(layers[i].route, verb, path)
    decreases |layers|
  {
    if |layers| == 0 then None
    else if layers[0].Mount? && Matches(layers[0].route, verb, path) then Some(layers[0].route)
    else
      var r := FirstMatch(layers[1..], verb, path);
      assert r.None? ==> forall i :: 1 <= i < |layers| ==> layers[i] == layers[1..][i - 1];
      r
  }

  /** Matching a one-segment path. */
  lemma MatchesOne(r: Route, verb: Verb, part: string)
    ensures Matches(r, verb, [part]) <==> r.verb == verb && |r.path| == 1 && SegMatches(r.path[0], part)
  {
    if r.verb == verb && |r.path| == 1 && !SegMatches(r.path[0], part) {
      assert !SegMatches(r.path[0], [part][0]);
    }
  }

  /** The route at position `k` is the first match when it matches and no route before it
      does. */
  lemma {:induction false} FirstMatchAt(layers: seq<Layer>, k: nat, verb: Verb, path: seq<string>)
    requires k < |layers| && layers[k].Mount? && Matches(layers[k].route, verb, path)
    requires forall j :: 0 <= j < k && layers[j].Mount? ==> !Matches(layers[j].route, verb, path)
    ensures FirstMatch(layers, verb, path) == Some(layers[k].route)
    decreases k
  {
    if k > 0 {
      FirstMatchAt(layers[1..], k - 1, verb, path);
    }
  }

  predicate RoutesOnly(layers: seq<Layer>) {
    forall i :: 0 <= i < |layers| ==> layers[i].Mount?
  }

  /** A run of routes answers with the first one that matches, and passes the request on
      untouched when none does. */
  lemma {:induction false} MountedPrefix(exec: (Mw, Ctx) -> Step, pre: seq<Layer>, rest: seq<Layer>, verb: Verb, path: seq<string>, ctx: Ctx)
    requires RoutesOnly(pre)
    ensures FirstMatch(pre, verb, path).Some? ==>
              Dispatch(exec, pre + rest, verb, path, ctx) == Run(exec, FirstMatch(pre, verb, path).value, path, ctx)
    ensures FirstMatch(pre, verb, path).None? ==>
              Dispatch(exec, pre + rest, verb, path, ctx) == Dispatch(exec, rest, verb, path, ctx)
    decreases |pre|
  {
    if |pre| == 0 {
      assert pre + rest == rest;
    } else {
      var all := pre + rest;
      assert all[0] == pre[0] && all[1..] == pre[1..] + rest;
      if !Matches(pre[0].route, verb, path) {
        assert forall i :: 0 <= i < |pre[1..]| ==> pre[1..][i] == pre[i + 1];
        MountedPrefix(exec, pre[1..], rest, verb, path, ctx);
      }
    }
  }

  /** A router-wide middleware in front of the rest. */
  lemma UseFirst(exec: (Mw, Ctx) -> Step, mw: Mw, rest: seq<Layer>, verb: Verb, path: seq<string>, ctx: Ctx)
    ensures exec(mw, ctx).Abort? ==>
              Dispatch(exec, [Use(mw)] + rest, verb, path, ctx) == Rejected(exec(mw, ctx).err)
    ensures exec(mw, ctx).Next? ==>
              Dispatch(exec, [Use(mw)] + rest, verb, path, ctx) == Dispatch(exec, rest, verb, path, exec(mw, ctx).ctx)
  {
    assert ([Use(mw)] + rest)[1..] == rest;
  }

  /** A run of routes on its own answers with the first match or not at all. */
  lemma RoutesAlone(exec: (Mw, Ctx) -> Step, layers: seq<Layer>, verb: Verb, path: seq<string>, ctx: Ctx)
    requires RoutesOnly(layers)
    ensures FirstMatch(layers, verb, path).None? ==> Dispatch(exec, layers, verb, path, ctx) == Unmatched(ctx)
    ensures FirstMatch(layers, verb, path).Some? ==>
              Dispatch(exec, layers, verb, path, ctx) == Run(exec, FirstMatch(layers, verb, path).value, path, ctx)
  {
    MountedPrefix(exec, layers, [], verb, path, ctx);
    assert layers + [] == layers;
  }

  /** A run of routes without middleware of their own hands the handler the request as
      it came, parameters apart. */
  lemma PlainRoutesKeepUser(exec: (Mw, Ctx) -> Step, layers: seq<Layer>, verb: Verb, path: seq<string>, ctx: Ctx)
    requires forall i :: 0 <= i < |layers| ==> layers[i].Mount? && layers[i].route.chain == []
    ensures var o := Dispatch(exec, layers, verb, path, ctx);
            o.Reached? ==> o.ctx.req.user == ctx.req.user
  {
    RoutesAlone(exec, layers, verb, path, ctx);
    if FirstMatch(layers, verb, path).Some? {
      var r := FirstMatch(layers, verb, path).value;
      assert r.chain == [];
      assert Run(exec, r, path, ctx) == Reached(r.handler, Bound(r, path, ctx));
    }
  }

  // ---------------------------------------------------------------- the user router

  const UserPublic: seq<Layer> := [
    Mount(Route(Post, [Lit("signup")], [], Signup)),
    Mount(Route(Post, [Lit("login")], [], Login)),
    Mount(Route(Get, [Lit("logout")], [], Logout)),
    Mount(Route(Post, [Lit("forgotpassword")], [], ForgotPassword)),
    Mount(Route(Patch, [Lit("resetpassword"), Param("token")], [], ResetPassword))]

  const UserSelf: seq<Layer> := [
    Mount(Route(Patch, [Lit("updatemypassword")], [], UpdateMyPassword)),
    Mount(Route(Get, [Lit("me")], [GetMe], GetUser)),
    Mount(Route(Patch, [Lit("updateme")], [UploadUserPhoto, ResizeUserPhoto], UpdateMe)),
    Mount(Route(Delete, [Lit("deleteme")], [], DeleteMe))]

  const UserAdmin: seq<Layer> := [
    Mount(Route(Get, [], [], GetAllUsers)),
    Mount(Route(Post, [], [], CreateUser)),
    Mount(Route(Get, [Param("id")], [], GetUser)),
    Mount(Route(Patch, [Param("id")], [], UpdateUser)),
    Mount(Route(Delete, [Param("id")], [], DeleteUser))]

  const AdminRoles: set<Role> := {Admin}

  /** The layers after the public routes. */
  const UserGated: seq<Layer> := [Use(Protect)] + (UserSelf + ([Use(RestrictTo(AdminRoles))] + UserAdmin))

  const UserRouter: seq<Layer> := UserPublic + UserGated

  /** The five public routes run as they are, whatever the request carries. */
  lemma UserPublicRoutesOpen(exec: (Mw, Ctx) -> Step, verb: Verb, path: seq<string>, ctx: Ctx)
    requires FirstMatch(UserPublic, verb, path).Some?
    ensures var r := FirstMatch(UserPublic, verb, path).value;
            Dispatch(exec, UserRouter, verb, path, ctx) == Reached(r.handler, Bound(r, path, ctx))
  {
    MountedPrefix(exec, UserPublic, UserGated, verb, path, ctx);
  }

  /** Signing up needs no session: any request, with or without a token, reaches the handler. */
  lemma SignupNeedsNoSession(exec: (Mw, Ctx) -> Step, ctx: Ctx)
    ensures Dispatch(exec, UserRouter, Post, ["signup"], ctx) == Reached(Signup, WithParams(ctx, map[]))
  {
    MatchesOne(UserPublic[0].route, Post, "signup");
    FirstMatchAt(UserPublic, 0, Post, ["signup"]);
    UserPublicRoutesOpen(exec, Post, ["signup"], ctx);
  }

  /** Logging in needs no session: any request reaches the handler. */
  lemma LoginNeedsNoSession(exec: (Mw, Ctx) -> Step, ctx: Ctx)
    ensures Dispatch(exec, UserRouter, Post, ["login"], ctx) == Reached(Login, WithParams(ctx, map[]))
  {
    MatchesOne(UserPublic[0].route, Post, "login");
    MatchesOne(UserPublic[1].route, Post, "login");
    FirstMatchAt(UserPublic, 1, Post, ["login"]);
    UserPublicRoutesOpen(exec, Post, ["login"], ctx);
  }

  /** Logging out needs no session: any request reaches the handler. */
  lemma LogoutNeedsNoSession(exec: (Mw, Ctx) -> Step, ctx: Ctx)
    ensures Dispatch(exec, UserRouter, Get, ["logout"], ctx) == Reached(Logout, WithParams(ctx, map[]))
  {
    MatchesOne(UserPublic[0].route, Get, "logout");
    MatchesOne(UserPublic[1].route, Get, "logout");
    MatchesOne(UserPublic[2].route, Get, "logout");
    FirstMatchAt(UserPublic, 2, Get, ["logout"]);
    UserPublicRoutesOpen(exec, Get, ["logout"], ctx);
  }

  lemma LowerResetNames()
    ensures ToLower("forgotPassword") == "forgotpassword"
    ensures ToLower("resetPassword") == "resetpassword"
    ensures ToLower("me") == "me"
  {
  }

  /** Asking for a reset token needs no session (any request reaches the handler), and the mixed-case path the application
      uses reaches the route. */
  lemma ForgotPasswordNeedsNoSession(exec: (Mw, Ctx) -> Step, ctx: Ctx)
    ensures Dispatch(exec, UserRouter, Post, ["forgotPassword"], ctx) == Reached(ForgotPassword, WithParams(ctx, map[]))
  {
    LowerResetNames();
    MatchesOne(UserPublic[0].route, Post, "forgotPassword");
    MatchesOne(UserPublic[1].route, Post, "forgotPassword");
    MatchesOne(UserPublic[2].route, Post, "forgotPassword");
    MatchesOne(UserPublic[3].route, Post, "forgotPassword");
    FirstMatchAt(UserPublic, 3, Post, ["forgotPassword"]);
    UserPublicRoutesOpen(exec, Post, ["forgotPassword"], ctx);
  }

  /** Resetting the password with a token needs no session (any request reaches the
      handler); the token is bound as the `token` parameter. */
  lemma ResetPasswordNeedsNoSession(exec: (Mw, Ctx) -> Step, ctx: Ctx, token: string)
    requires token != ""
    ensures Dispatch(exec, UserRouter, Patch, ["resetPassword", token], ctx) ==
            Reached(ResetPassword, WithParams(ctx, map["token" := token]))
  {
    LowerResetNames();
    FirstMatchAt(UserPublic, 4, Patch, ["resetPassword", token]);
    UserPublicRoutesOpen(exec, Patch, ["resetPassword", token], ctx);
    assert Bind([Lit("resetpassword"), Param("token")], ["resetPassword", token], map[])
        == map["token" := token];
  }

  /** The user router past its public routes needs a session: without one it answers
      with the gate's error, never 403. */
  lemma UserRouterNeedsSession(exec: (Mw, Ctx) -> Step, verb: Verb, path: seq<string>, ctx: Ctx)
    requires Sound(exec)
    requires FirstMatch(UserPublic, verb, path).None?
    requires exec(Protect, ctx).Abort?
    ensures Dispatch(exec, UserRouter, verb, path, ctx) == Rejected(exec(Protect, ctx).err)
    ensures exec(Protect, ctx).err.statusCode != Some(403)
  {
    MountedPrefix(exec, UserPublic, UserGated, verb, path, ctx);
    UseFirst(exec, Protect, UserSelf + ([Use(RestrictTo(AdminRoles))] + UserAdmin), verb, path, ctx);
  }

  /** Past the session gate: the self-service routes first, then the role check, then the
      admin routes. */
  lemma UserRouterLayers(exec: (Mw, Ctx) -> Step, verb: Verb, path: seq<string>, ctx: Ctx)
    requires FirstMatch(UserPublic, verb, path).None?
    requires exec(Protect, ctx).Next? && exec(Protect, ctx).ctx.req.user.Some?
    ensures var c := exec(Protect, ctx).ctx;
            && (FirstMatch(UserSelf, verb, path).Some? ==>
                  Dispatch(exec, UserRouter, verb, path, ctx) == Run(exec, FirstMatch(UserSelf, verb, path).value, path, c))
            && (FirstMatch(UserSelf, verb, path).None? && exec(RestrictTo(AdminRoles), c).Abort? ==>
                  Dispatch(exec, UserRouter, verb, path, ctx) == Rejected(exec(RestrictTo(AdminRoles), c).err))
            && (FirstMatch(UserSelf, verb, path).None? && exec(RestrictTo(AdminRoles), c).Next? ==>
                  Dispatch(exec, UserRouter, verb, path, ctx) == Dispatch(exec, UserAdmin, verb, path, exec(RestrictTo(AdminRoles), c).ctx))
  {
    MountedPrefix(exec, UserPublic, UserGated, verb, path, ctx);
    UseFirst(exec, Protect, UserSelf + ([Use(RestrictTo(AdminRoles))] + UserAdmin), verb, path, ctx);
    var c := exec(Protect, ctx).ctx;
    MountedPrefix(exec, UserSelf, [Use(RestrictTo(AdminRoles))] + UserAdmin, verb, path, c);
    UseFirst(exec, RestrictTo(AdminRoles), UserAdmin, verb, path, c);
  }

  /** With a session, the self-service routes run for every role; everything past them
      answers 403 to anyone but an admin, whether or not a route matches. */
  lemma UserRouterGate(exec: (Mw, Ctx) -> Step, verb: Verb, path: seq<string>, ctx: Ctx)
    requires Sound(exec)
    requires FirstMatch(UserPublic, verb, path).None?
    requires exec(Protect, ctx).Next?
    ensures var c := exec(Protect, ctx).ctx;
            && (FirstMatch(UserSelf, verb, path).Some? ==>
                  Dispatch(exec, UserRouter, verb, path, ctx) == Run(exec, FirstMatch(UserSelf, verb, path).value, path, c))
            && (FirstMatch(UserSelf, verb, path).None? && c.req.user.value.role != Admin ==>
                  Dispatch(exec, UserRouter, verb, path, ctx) == Rejected(Auth.Forbidden))
            && (FirstMatch(UserSelf, verb, path).None? && c.req.user.value.role == Admin ==>
                  Dispatch(exec, UserRouter, verb, path, ctx) == Dispatch(exec, UserAdmin, verb, path, c))
  {
    UserRouterLayers(exec, verb, path, ctx);
  }

  /** The handlers only an admin may reach. */
  const AdminHandlers: set<Handler> := {GetAllUsers, CreateUser, UpdateUser, DeleteUser}

  /** No public route ends at an admin handler. */
  lemma PublicTable()
    ensures forall i :: 0 <= i < |UserPublic| ==> UserPublic[i].Mount? && UserPublic[i].route.handler !in AdminHandlers
  {
  }

  /** No self-service route ends at an admin handler. */
  lemma SelfTable()
    ensures forall i :: 0 <= i < |UserSelf| ==> UserSelf[i].Mount? && UserSelf[i].route.handler !in AdminHandlers
  {
  }

  /** The admin routes run no middleware of their own. */
  lemma AdminTable()
    ensures forall i :: 0 <= i < |UserAdmin| ==> UserAdmin[i].Mount? && UserAdmin[i].route.chain == []
  {
  }

  /** Only an admin reaches user management: listing, creating, updating and deleting users
      are reached only with an admin in `req.user`. */
  lemma OnlyAdminManagesUsers(exec: (Mw, Ctx) -> Step, verb: Verb, path: seq<string>, ctx: Ctx)
    requires Sound(exec)
    requires Dispatch(exec, UserRouter, verb, path, ctx).Reached?
    requires Dispatch(exec, UserRouter, verb, path, ctx).handler in AdminHandlers
    ensures Dispatch(exec, UserRouter, verb, path, ctx).ctx.req.user.Some?
    ensures Dispatch(exec, UserRouter, verb, path, ctx).ctx.req.user.value.role == Admin
  {
    PublicTable();
    SelfTable();
    AdminTable();
    if FirstMatch(UserPublic, verb, path).Some? {
      UserPublicRoutesOpen(exec, verb, path, ctx);
      assert false;
    }
    if exec(Protect, ctx).Abort? {
      UserRouterNeedsSession(exec, verb, path, ctx);
      assert false;
    }
    UserRouterGate(exec, verb, path, ctx);
    var c := exec(Protect, ctx).ctx;
    if FirstMatch(UserSelf, verb, path).Some? {
      assert false;
    }
    PlainRoutesKeepUser(exec, UserAdmin, verb, path, c);
  }

  /** `POST /` creates no user: an admin reaches `createUser`, which answers 500 whatever
      the body, and every other signed-in role is refused with 403 first. */
  lemma CreateUserOnlyForAdmins(exec: (Mw, Ctx) -> Step, ctx: Ctx)
    requires Sound(exec)
    requires exec(Protect, ctx).Next?
    ensures var c := exec(Protect, ctx).ctx;
            var o := Dispatch(exec, UserRouter, Post, [], ctx);
            && (c.req.user.value.role == Admin ==>
                  && o == Reached(CreateUser, WithParams(c, map[]))
                  && UserController.CreateUser(o.ctx.req).status == 500)
            && (c.req.user.value.role != Admin ==> o == Rejected(Auth.Forbidden))
  {
    var c := exec(Protect, ctx).ctx;
    assert FirstMatch(UserPublic, Post, []).None?;
    assert FirstMatch(UserSelf, Post, []).None?;
    UserRouterGate(exec, Post, [], ctx);
    FirstMatchAt(UserAdmin, 1, Post, []);
    RoutesAlone(exec, UserAdmin, Post, [], c);
  }

  /** `GET /me` shows every signed-in user their own record: it reaches `getUser` with the
      caller's id as the only parameter, whatever the role. */
  lemma MeReachesOwnRecord(env: Env, ctx: Ctx)
    requires Auth.Protect(ctx, env).Next?
    ensures var me := Auth.Protect(ctx, env).ctx.req.user.value;
            var o := Dispatch(Middleware(env), UserRouter, Get, ["me"], ctx);
            && o.Reached? && o.handler == GetUser
            && o.ctx.req.user == Some(me)
            && o.ctx.req.params == map["id" := me.id]
  {
    var exec := Middleware(env);
    LowerResetNames();
    forall i | 0 <= i < |UserPublic| ensures !Matches(UserPublic[i].route, Get, ["me"]) {
      MatchesOne(UserPublic[i].route, Get, "me");
    }
    MatchesOne(UserSelf[0].route, Get, "me");
    MatchesOne(UserSelf[1].route, Get, "me");
    FirstMatchAt(UserSelf, 1, Get, ["me"]);
    UserRouterGate(exec, Get, ["me"], ctx);
    var c := Auth.Protect(ctx, env).ctx;
    var b := Bound(UserSelf[1].route, ["me"], c);
    assert b == WithParams(c, map[]);
    assert [GetMe][1..] == [];
  }

  /** An authenticated request to a self-service route is never refused for its role. */
  lemma SelfRoutesAnyRole(exec: (Mw, Ctx) -> Step, verb: Verb, path: seq<string>, ctx: Ctx)
    requires Sound(exec)
    requires FirstMatch(UserPublic, verb, path).None? && FirstMatch(UserSelf, verb, path).Some?
    requires exec(Protect, ctx).Next?
    ensures var o := Dispatch(exec, UserRouter, verb, path, ctx);
            o.Rejected? ==> o.err.statusCode != Some(403)
  {
    UserRouterGate(exec, verb, path, ctx);
    assert Mount(FirstMatch(UserSelf, verb, path).value) in UserSelf;
  }

  // ---------------------------------------------------------------- the review router

  const UserRoles: set<Role> := {RegularUser}
  const UserOrAdmin: set<Role> := {RegularUser, Admin}

  const ReviewRoutes: seq<Layer> := [
    Mount(Route(Get, [], [], GetAllReviews)),
    Mount(Route(Post, [], [RestrictTo(UserRoles), SetTourUserIds], CreateReview)),
    Mount(Route(Get, [Param("id")], [], GetReview)),
    Mount(Route(Patch, [Param("id")], [RestrictTo(UserOrAdmin)], UpdateReview)),
    Mount(Route(Delete, [Param("id")], [RestrictTo(UserOrAdmin)], DeleteReview))]

  const ReviewRouter: seq<Layer> := [Use(Protect)] + ReviewRoutes

  /** Every review request needs a session; without one it gets the gate's error, never
      403. */
  lemma ReviewsNeedSession(exec: (Mw, Ctx) -> Step, verb: Verb, path: seq<string>, ctx: Ctx)
    requires Sound(exec)
    ensures exec(Protect, ctx).Abort? ==>
              && Dispatch(exec, ReviewRouter, verb, path, ctx) == Rejected(exec(Protect, ctx).err)
              && exec(Protect, ctx).err.statusCode != Some(403)
    ensures exec(Protect, ctx).Next? ==>
              Dispatch(exec, ReviewRouter, verb, path, ctx) == Dispatch(exec, ReviewRoutes, verb, path, exec(Protect, ctx).ctx)
  {
    UseFirst(exec, Protect, ReviewRoutes, verb, path, ctx);
  }

  /** Listing reviews is open to every signed-in role. */
  lemma ReviewListAnyRole(exec: (Mw, Ctx) -> Step, c: Ctx)
    ensures Dispatch(exec, ReviewRoutes, Get, [], c) == Reached(GetAllReviews, WithParams(c, map[]))
  {
    RoutesAlone(exec, ReviewRoutes, Get, [], c);
  }

  /** Reading one review is open to every signed-in role. */
  lemma ReviewReadAnyRole(exec: (Mw, Ctx) -> Step, id: string, c: Ctx)
    requires id != ""
    ensures Dispatch(exec, ReviewRoutes, Get, [id], c) == Reached(GetReview, WithParams(c, map["id" := id]))
  {
    assert FirstMatch(ReviewRoutes, Get, [id]) == Some(ReviewRoutes[2].route);
    RoutesAlone(exec, ReviewRoutes, Get, [id], c);
    assert Bind([Param("id")], [id], map[]) == map["id" := id];
  }

  /** Creating a review is open only to role `user`; the body defaults run only once that
      check has passed, with no route parameters bound. */
  lemma ReviewCreateOnlyUsers(exec: (Mw, Ctx) -> Step, c: Ctx)
    requires Sound(exec) && c.req.user.Some?
    ensures c.req.user.value.role != RegularUser ==> Dispatch(exec, ReviewRoutes, Post, [], c) == Rejected(Auth.Forbidden)
    ensures c.req.user.value.role == RegularUser ==>
              Dispatch(exec, ReviewRoutes, Post, [], c) ==
              match exec(SetTourUserIds, WithParams(c, map[]))
              case Abort(e) => Rejected(e)
              case Next(c') => Reached(CreateReview, c')
  {
    var r := ReviewRoutes[1].route;
    var b := WithParams(c, map[]);
    assert FirstMatch(ReviewRoutes, Post, []) == Some(r);
    RoutesAlone(exec, ReviewRoutes, Post, [], c);
    assert Bound(r, [], c) == b;
    var rest := [SetTourUserIds];
    assert r.chain[1..] == rest && rest[1..] == [];
    assert Run(exec, r, [], c) == match exec(RestrictTo(UserRoles), b)
                                  case Abort(e) => Rejected(e)
                                  case Next(c') => RunChain(exec, rest, CreateReview, c');
    if c.req.user.value.role == RegularUser {
      assert exec(RestrictTo(UserRoles), b) == Next(b);
    }
  }

  /** The review router is mounted only at the top level, so no `tourId` parameter is ever
      bound when a review is created through it: a signed-in user's new review names only
      the tour the body names (none, when the body names none), and its author defaults to
      the caller. */
  lemma ReviewCreateNeverDefaultsTour(env: Env, ctx: Ctx)
    requires Auth.Protect(ctx, env).Next?
    requires Auth.Protect(ctx, env).ctx.req.user.value.role == RegularUser
    ensures var o := Dispatch(Middleware(env), ReviewRouter, Post, [], ctx);
            var me := Auth.Protect(ctx, env).ctx.req.user.value;
            && o.Reached? && o.handler == CreateReview && o.ctx.req.params == map[]
            && Lookup(o.ctx.req.body, "tour")
               == (if Truthy(Lookup(ctx.req.body, "tour")) then Lookup(ctx.req.body, "tour") else None)
            && Lookup(o.ctx.req.body, "user")
               == (if Truthy(Lookup(ctx.req.body, "user")) then Lookup(ctx.req.body, "user") else Some(me.id))
  {
    var exec := Middleware(env);
    ReviewsNeedSession(exec, Post, [], ctx);
    var c := Auth.Protect(ctx, env).ctx;
    ReviewCreateOnlyUsers(exec, c);
  }

  /** Updating and deleting a review are open exactly to roles `user` and `admin`. */
  lemma ReviewWritesUserOrAdmin(exec: (Mw, Ctx) -> Step, verb: Verb, id: string, c: Ctx)
    requires Sound(exec) && c.req.user.Some?
    requires (verb == Patch || verb == Delete) && id != ""
    ensures var o := Dispatch(exec, ReviewRoutes, verb, [id], c);
            && (o.Reached? <==> c.req.user.value.role in UserOrAdmin)
            && (!o.Reached? ==> o == Rejected(Auth.Forbidden))
  {
    var r := if verb == Patch then ReviewRoutes[3].route else ReviewRoutes[4].route;
    assert FirstMatch(ReviewRoutes, verb, [id]) == Some(r);
    RoutesAlone(exec, ReviewRoutes, verb, [id], c);
    var b := Bound(r, [id], c);
    assert b.req.user == c.req.user;
    assert r.chain[1..] == [];
  }

  // ---------------------------------------------------------------- the booking router

  const BookingRoles: set<Role> := {Admin, LeadGuide}

  const BookingRoutes: seq<Layer> := [
    Mount(Route(Get, [], [], GetAllBookings)),
    Mount(Route(Post, [], [], CreateBooking)),
    Mount(Route(Get, [Param("id")], [], GetBooking)),
    Mount(Route(Patch, [Param("id")], [], UpdateBooking)),
    Mount(Route(Delete, [Param("id")], [], DeleteBooking))]

  const BookingRouter: seq<Layer> := [Use(Protect)] + ([Use(RestrictTo(BookingRoles))] + BookingRoutes)

  /** The booking router's access policy: without a session, the gate's error (never 403);
      with one, 403 on every path unless the role is `admin` or `lead-guide`, and for those
      the route table decides. */
  lemma BookingRouterPolicy(exec: (Mw, Ctx) -> Step, verb: Verb, path: seq<string>, ctx: Ctx)
    requires Sound(exec)
    ensures exec(Protect, ctx).Abort? ==>
              && Dispatch(exec, BookingRouter, verb, path, ctx) == Rejected(exec(Protect, ctx).err)
              && exec(Protect, ctx).err.statusCode != Some(403)
    ensures exec(Protect, ctx).Next? ==>
              var c := exec(Protect, ctx).ctx;
              && (c.req.user.value.role !in BookingRoles ==> Dispatch(exec, BookingRouter, verb, path, ctx) == Rejected(Auth.Forbidden))
              && (c.req.user.value.role in BookingRoles ==>
                    Dispatch(exec, BookingRouter, verb, path, ctx) == Dispatch(exec, BookingRoutes, verb, path, c))
  {
    UseFirst(exec, Protect, [Use(RestrictTo(BookingRoles))] + BookingRoutes, verb, path, ctx);
    if exec(Protect, ctx).Next? {
      UseFirst(exec, RestrictTo(BookingRoles), BookingRoutes, verb, path, exec(Protect, ctx).ctx);
    }
  }

  /** The booking routes run no middleware of their own. */
  lemma BookingTable()
    ensures forall i :: 0 <= i < |BookingRoutes| ==> BookingRoutes[i].Mount? && BookingRoutes[i].route.chain == []
  {
  }

  /** Every booking handler is reached only by an admin or a lead guide. */
  lemma BookingsOnlyForStaff(exec: (Mw, Ctx) -> Step, verb: Verb, path: seq<string>, ctx: Ctx)
    requires Sound(exec)
    requires Dispatch(exec, BookingRouter, verb, path, ctx).Reached?
    ensures Dispatch(exec, BookingRouter, verb, path, ctx).ctx.req.user.Some?
    ensures Dispatch(exec, BookingRouter, verb, path, ctx).ctx.req.user.value.role in BookingRoles
  {
    BookingRouterPolicy(exec, verb, path, ctx);
    var c := exec(Protect, ctx).ctx;
    BookingTable();
    PlainRoutesKeepUser(exec, BookingRoutes, verb, path, c);
  }

  // ---------------------------------------------------------------- the view router

  const ViewRouter: seq<Layer> := [
    Mount(Route(Get, [], [IsLoggedIn], Overview)),
    Mount(Route(Get, [Lit("tour"), Param("slug")], [IsLoggedIn], TourPage)),
    Mount(Route(Get, [Lit("login")], [IsLoggedIn], LoginForm)),
    Mount(Route(Get, [Lit("me")], [Protect], Account)),
    Mount(Route(Get, [Lit("my-tours")], [Protect], MyTours)),
    Mount(Route(Post, [Lit("submit-user-data")], [Protect], SubmitUserData))]

  /** No page is ever refused with 403: the view routes apply no role check. */
  lemma ViewsNeverForbid(exec: (Mw, Ctx) -> Step, verb: Verb, path: seq<string>, ctx: Ctx)
    requires Sound(exec)
    ensures var o := Dispatch(exec, ViewRouter, verb, path, ctx);
            o.Rejected? ==> o.err.statusCode != Some(403)
  {
    assert NoRoleChecks(ViewRouter);
  }

  /** The overview, tour and login pages never fail for want of a session and never set
      `req.user`. */
  lemma OptionalGateViews(exec: (Mw, Ctx) -> Step, verb: Verb, path: seq<string>, ctx: Ctx)
    requires Sound(exec)
    requires FirstMatch(ViewRouter, verb, path).Some?
    requires FirstMatch(ViewRouter, verb, path).value.chain == [IsLoggedIn]
    ensures var o := Dispatch(exec, ViewRouter, verb, path, ctx);
            o.Reached? && o.handler == FirstMatch(ViewRouter, verb, path).value.handler && o.ctx.req.user == ctx.req.user
  {
    RoutesAlone(exec, ViewRouter, verb, path, ctx);
    var r := FirstMatch(ViewRouter, verb, path).value;
    var b := Bound(r, path, ctx);
    assert [IsLoggedIn][1..] == [];
    assert exec(IsLoggedIn, b).Next?;
  }

  /** The account, my-tours and account-form pages are reached only through `protect`:
      without a session they get the gate's error. */
  lemma ProtectedViews(exec: (Mw, Ctx) -> Step, verb: Verb, path: seq<string>, ctx: Ctx)
    requires FirstMatch(ViewRouter, verb, path).Some?
    requires FirstMatch(ViewRouter, verb, path).value.chain == [Protect]
    ensures var b := Bound(FirstMatch(ViewRouter, verb, path).value, path, ctx);
            exec(Protect, b).Abort? ==> Dispatch(exec, ViewRouter, verb, path, ctx) == Rejected(exec(Protect, b).err)
  {
    RoutesAlone(exec, ViewRouter, verb, path, ctx);
    var r := FirstMatch(ViewRouter, verb, path).value;
    var b := Bound(r, path, ctx);
    assert Run(exec, r, path, ctx) == RunChain(exec, r.chain, r.handler, b);
    assert r.chain[0] == Protect;
  }

  /** Those pages' handlers always see `req.user`. */
  lemma ProtectedViewsSeeUser(exec: (Mw, Ctx) -> Step, verb: Verb, path: seq<string>, ctx: Ctx)
    requires Sound(exec)
    requires FirstMatch(ViewRouter, verb, path).Some?
    requires FirstMatch(ViewRouter, verb, path).value.chain == [Protect]
    ensures var o := Dispatch(exec, ViewRouter, verb, path, ctx);
            o.Reached? ==> o.ctx.req.user.Some?
  {
    RoutesAlone(exec, ViewRouter, verb, path, ctx);
    assert [Protect][1..] == [];
  }

  /** Of the six view routes, the three that show private data run `protect` and the
      other three the optional gate. */
  lemma ViewGates()
    ensures forall i :: 0 <= i < |ViewRouter| ==>
              (ViewRouter[i].route.handler in {Account, MyTours, SubmitUserData} <==> ViewRouter[i].route.chain == [Protect])
    ensures forall i :: 0 <= i < |ViewRouter| ==>
              (ViewRouter[i].route.handler in {Overview, TourPage, LoginForm} <==> ViewRouter[i].route.chain == [IsLoggedIn])
  {
  }
}

=== FILE: tours.dfy ===
/** Tours: the schema's validation and defaults, the hooks on save and on find
    (src/models/tour.model.ts), and the pure steps of the tour controller
    (src/controllers/tour.controller.ts): query aliasing, `lat,lng` parsing, the upload
    limits and the stored names of tour images. */
module Tours {
  import opened Common
  import opened Errors
  import opened Upload

  datatype Difficulty = Easy | Medium | Difficult

  /** The enum value each difficulty is stored as. */
  function DifficultyName(d: Difficulty): string {
    match d
    case Easy => "easy"
    case Medium => "medium"
    case Difficult => "difficult"
  }

  /** Casting a difficulty: one of the three enum names, or nothing. */
  function CastDifficulty(s: string): (r: Option<Difficulty>)
    ensures r.Some? <==> s in {"easy", "medium", "difficult"}
    ensures r.Some? ==> DifficultyName(r.value) == s
  {
    if s == "easy" then Some(Easy)
    else if s == "medium" then Some(Medium)
    else if s == "difficult" then Some(Difficult)
    else None
  }

  /** A stored tour. Numbers are reals; `ratingsAverage` may be `null` once the review
      aggregate has run over reviews without ratings. */
  datatype Tour = Tour(
    id: string,
    name: string,
    slug: string,
    duration: real,
    maxGroupSize: real,
    difficulty: Difficulty,
    ratingsAverage: Option<real>,
    ratingsQuantity: real,
    price: real,
    summary: string,
    imageCover: string,
    secretTour: bool,
    startLocationType: string)

  /** The fields a client supplies when a tour is created; absent fields are `None`. */
  datatype TourInput = TourInput(
    name: Option<string>,
    duration: Option<real>,
    maxGroupSize: Option<real>,
    difficulty: Option<string>,
    ratingsAverage: Option<real>,
    ratingsQuantity: Option<real>,
    price: Option<real>,
    summary: Option<string>,
    imageCover: Option<string>,
    secretTour: Option<bool>,
    startLocationType: Option<string>)

  const NameMinLength: nat := 10
  const NameMaxLength: nat := 40
  const DefaultRating: real := 4.5
  const MinRating: real := 1.0
  const MaxRating: real := 5.0
  const PointType: string := "Point"

  /** The value a string path holds after the `trim` setter (absent stays absent). */
  function Trimmed(s: Option<string>): (r: Option<string>)
    ensures r.Some? <==> s.Some?
    ensures r.Some? ==> r.value == Trim(s.value)
  {
    match s
    case None => None
    case Some(x) => Some(Trim(x))
  }

  /** The validated paths of a tour. */
  datatype Path = Name | Duration | MaxGroupSize | DifficultyPath | RatingsAverage | Price
                | Summary | ImageCover | StartLocationType

  /** Whether a path passes validation once defaults and setters have been applied: a
      required string must be non-empty, the trimmed name must have 10 to 40 characters,
      the difficulty must be one of the enum, the average rating (4.5 by default) must lie
      in [1, 5], and the start location's type (by default 'Point') must be 'Point'. */
  predicate PathOk(t: TourInput, p: Path) {
    match p
    case Name => Truthy(Trimmed(t.name)) && NameMinLength <= |Trim(t.name.value)| <= NameMaxLength
    case Duration => t.duration.Some?
    case MaxGroupSize => t.maxGroupSize.Some?
    case DifficultyPath => t.difficulty.Some? && CastDifficulty(t.difficulty.value).Some?
    case RatingsAverage => t.ratingsAverage.None? || MinRating <= t.ratingsAverage.value <= MaxRating
    case Price => t.price.Some?
    case Summary => Truthy(Trimmed(t.summary))
    case ImageCover => Truthy(t.imageCover)
    case StartLocationType => t.startLocationType.None? || t.startLocationType == Some(PointType)
  }

  const AllPaths: set<Path> :=
    {Name, Duration, MaxGroupSize, DifficultyPath, RatingsAverage, Price, Summary, ImageCover, StartLocationType}

  /** The paths a validation error reports. */
  function Violations(t: TourInput): (v: set<Path>)
    ensures forall p :: p in v <==> !PathOk(t, p)
  {
    set p | p in AllPaths && !PathOk(t, p)
  }

  /** Every path passes. */
  predicate Valid(t: TourInput) {
    && PathOk(t, Name) && PathOk(t, Duration) && PathOk(t, MaxGroupSize) && PathOk(t, DifficultyPath)
    && PathOk(t, RatingsAverage) && PathOk(t, Price) && PathOk(t, Summary) && PathOk(t, ImageCover)
    && PathOk(t, StartLocationType)
  }

  /** A document validates exactly when no path is reported. */
  lemma ValidIffNoViolations(t: TourInput)
    ensures Valid(t) <==> Violations(t) == {}
  {
    if !Valid(t) {
      var p :| p in AllPaths && !PathOk(t, p);
      assert p in Violations(t);
    }
  }

  /** What every stored tour satisfies. */
  predicate WellFormed(t: Tour) {
    && NameMinLength <= |t.name| <= NameMaxLength && Trim(t.name) == t.name
    && t.summary != "" && Trim(t.summary) == t.summary && t.imageCover != ""
    && t.ratingsAverage.Some? && MinRating <= t.ratingsAverage.value <= MaxRating
    && t.startLocationType == PointType
  }

  /** The document `create` builds from valid input: the setters trim name and summary, and
      the schema's defaults fill the average rating (4.5), the quantity (0), `secretTour`
      (false) and the start location's type ('Point'). */
  function Defaults(id: string, t: TourInput): (d: Tour)
    requires Valid(t)
    ensures d.id == id && d.name == Trim(t.name.value) && d.summary == Trim(t.summary.value)
    ensures d.ratingsAverage == Some(if t.ratingsAverage.Some? then t.ratingsAverage.value else DefaultRating)
    ensures d.ratingsQuantity == (if t.ratingsQuantity.Some? then t.ratingsQuantity.value else 0.0)
    ensures d.secretTour == (t.secretTour == Some(true))
    ensures DifficultyName(d.difficulty) == t.difficulty.value
    ensures d.imageCover == t.imageCover.value && d.startLocationType == PointType
  {
    Tour(id, Trim(t.name.value), "", t.duration.value, t.maxGroupSize.value,
         CastDifficulty(t.difficulty.value).value,
         Some(if t.ratingsAverage.Some? then t.ratingsAverage.value else DefaultRating),
         if t.ratingsQuantity.Some? then t.ratingsQuantity.value else 0.0,
         t.price.value, Trim(t.summary.value), t.imageCover.value,
         if t.secretTour.Some? then t.secretTour.value else false,
         PointType)
  }

  /** Creating a tour document and saving it: defaults and setters, then validation, then the
      save hook that sets the slug from the name (the slug library is a parameter). */
  function NewTour(id: string, t: TourInput, slugify: string -> string): (r: Result<Tour>)
    ensures r.Ok? <==> Valid(t)
    ensures r.Ok? ==> r.value == SaveHook(Defaults(id, t), slugify)
  {
    if !Valid(t) then Error(LibraryError("ValidationError")) else Ok(SaveHook(Defaults(id, t), slugify))
  }

  /** Every tour that passes validation is well formed once stored. */
  lemma NewTourWellFormed(id: string, t: TourInput, slugify: string -> string)
    requires Valid(t)
    ensures WellFormed(NewTour(id, t, slugify).value)
  {
    var d := NewTour(id, t, slugify).value;
    assert PathOk(t, Name) && PathOk(t, Summary) && PathOk(t, RatingsAverage) && PathOk(t, ImageCover);
    assert d.name == Trim(t.name.value) && d.summary == Trim(t.summary.value);
    assert NameMinLength <= |d.name| <= NameMaxLength;
    assert d.summary != "";
    assert d.imageCover != "";
    assert d.ratingsAverage.Some? && MinRating <= d.ratingsAverage.value <= MaxRating;
    assert d.startLocationType == PointType;
    TrimIdempotent(t.name.value);
    assert Trim(d.name) == d.name;
    TrimIdempotent(t.summary.value);
    assert Trim(d.summary) == d.summary;
  }

  /** The `pre('save')` hook: the slug is recomputed from the name alone. */
  function SaveHook(t: Tour, slugify: string -> string): (r: Tour)
    ensures r.slug == slugify(t.name) && r.(slug := t.slug) == t
  {
    t.(slug := slugify(t.name))
  }

  /** Hence two tours that agree on their name get the same slug on save, whatever else
      differs, and saving twice is saving once. */
  lemma SlugDependsOnNameOnly(a: Tour, b: Tour, slugify: string -> string)
    requires a.name == b.name
    ensures SaveHook(a, slugify).slug == SaveHook(b, slugify).slug
    ensures SaveHook(SaveHook(a, slugify), slugify) == SaveHook(a, slugify)
  {
  }

  /** A stored tour read back as input validates again, to itself. */
  function AsInput(t: Tour): TourInput {
    TourInput(Some(t.name), Some(t.duration), Some(t.maxGroupSize), Some(DifficultyName(t.difficulty)),
              t.ratingsAverage, Some(t.ratingsQuantity), Some(t.price), Some(t.summary),
              Some(t.imageCover), Some(t.secretTour), Some(t.startLocationType))
  }

  lemma RevalidateStored(t: Tour, slugify: string -> string)
    requires WellFormed(t) && t.slug == slugify(t.name)
    ensures NewTour(t.id, AsInput(t), slugify) == Ok(t)
  {
    assert Valid(AsInput(t));
    assert CastDifficulty(DifficultyName(t.difficulty)) == Some(t.difficulty);
  }

  // ---------------------------------------------------------------- queries

  /** The `pre(/^find/)` hook: secret tours are invisible to every find. */
  predicate Visible(t: Tour) {
    !t.secretTour
  }

  /** The first visible tour the filter accepts. */
  function FindTour(tours: seq<Tour>, filter: Tour -> bool): (r: Option<Tour>)
    ensures r.Some? ==> r.value in tours && Visible(r.value) && filter(r.value)
    ensures r.None? ==> forall i :: 0 <= i < |tours| ==> !(Visible(tours[i]) && filter(tours[i]))
    decreases |tours|
  {
    if |tours| == 0 then None
    else if Visible(tours[0]) && filter(tours[0]) then Some(tours[0])
    else
      var r := FindTour(tours[1..], filter);
      assert r.None? ==> forall i :: 1 <= i < |tours| ==> tours[i] == tours[1..][i - 1];
      r
  }

  /** `find()`: all visible tours, in order. */
  function FindAll(tours: seq<Tour>): (r: seq<Tour>)
    ensures forall t :: t in r <==> t in tours && Visible(t)
    ensures |r| <= |tours|
  {
    if |tours| == 0 then []
    else
      assert forall t :: t in tours <==> t == tours[0] || t in tours[1..];
      (if Visible(tours[0]) then [tours[0]] else []) + FindAll(tours[1..])
  }

  // ---------------------------------------------------------------- controller steps

  const TopToursLimit: string := "5"
  const TopToursSort: string := "-ratingsAverage,price"
  const TopToursFields: string := "name,price,ratingsAverage,summary,difficulty"

  /** `aliasTopTours`: the query asks for the five best-rated, cheapest tours with a fixed
      projection; every other query key is left as it was. */
  function AliasTopTours(query: map<string, string>): (r: map<string, string>)
    ensures Lookup(r, "limit") == Some(TopToursLimit)
    ensures Lookup(r, "sort") == Some(TopToursSort)
    ensures Lookup(r, "fields") == Some(TopToursFields)
    ensures forall k :: k !in {"limit", "sort", "fields"} ==> Lookup(r, k) == Lookup(query, k)
  {
    query["limit" := TopToursLimit]["sort" := TopToursSort]["fields" := TopToursFields]
  }

  /** Aliasing twice is aliasing once. */
  lemma AliasTopToursIdempotent(query: map<string, string>)
    ensures AliasTopTours(AliasTopTours(query)) == AliasTopTours(query)
  {
  }

  const LatLngFormat: Err := AppError("Please provide latitude and longtitude in the format lat,lng", 400)

  /** The check `getToursWithin` and `getDistances` make on the `latlng` parameter: split on
      ',', the first two parts must both be non-empty (further parts are ignored). */
  function ParseLatLng(latlng: string): (r: Result<(string, string)>)
    ensures var parts := Split(latlng, ',');
            r.Ok? <==> |parts| >= 2 && parts[0] != "" && parts[1] != ""
    ensures r.Error? ==> r.err == LatLngFormat
    ensures r.Ok? ==> r.value == (Split(latlng, ',')[0], Split(latlng, ',')[1])
  {
    var parts := Split(latlng, ',');
    var lat := Nth(parts, 0);
    var lng := Nth(parts, 1);
    if !Truthy(lat) || !Truthy(lng) then Error(LatLngFormat) else Ok((lat.value, lng.value))
  }

  /** Writing a coordinate pair and parsing it gives the pair back. */
  lemma LatLngRoundTrip(lat: string, lng: string)
    requires lat != "" && lng != "" && ',' !in lat && ',' !in lng
    ensures ParseLatLng(lat + "," + lng) == Ok((lat, lng))
  {
    assert lat + "," + lng == lat + [','] + lng;
    SplitAppend(lat, lng, ',');
    SplitFree(lat, ',');
    SplitFree(lng, ',');
  }

  /** `uploadTourImages`: at most one cover and at most three images, all of them images. */
  const TourUploadLimits: map<string, nat> := map["imageCover" := 1, "images" := 3]

  function UploadTourImages(parts: seq<Part>): (r: Result<map<string, seq<Part>>>)
    ensures r.Ok? <==> WithinLimits(TourUploadLimits, parts)
    ensures r.Ok? ==> forall f :: f in r.value ==> f in {"imageCover", "images"}
    ensures r.Ok? && "imageCover" in r.value ==> |r.value["imageCover"]| == 1
    ensures r.Ok? && "images" in r.value ==> 1 <= |r.value["images"]| <= 3
  {
    Fields(TourUploadLimits, parts)
  }

  /** The text a template literal gives an optional value (`undefined` when absent). */
  function Interpolate(s: Option<string>): string {
    if s.Some? then s.value else "undefined"
  }

  function CoverName(id: Option<string>, nowMs: nat): string {
    "tour-" + Interpolate(id) + "-" + Decimal(nowMs) + "-cover.jpeg"
  }

  function ImageName(id: Option<string>, nowMs: nat, index: nat): string {
    "tour-" + Interpolate(id) + "-" + Decimal(nowMs) + "-" + Decimal(index + 1) + ".jpeg"
  }

  /** The names `resizeTourImages` writes into the body. */
  datatype TourImageNames = TourImageNames(imageCover: string, images: seq<string>)

  /** A completion order of `n` concurrent writes: each index exactly once. */
  predicate IsOrder(order: seq<nat>, n: nat) {
    && |order| == n
    && (forall k :: 0 <= k < n ==> order[k] < n)
    && (forall j, k :: 0 <= j < k < n ==> order[j] != order[k])
  }

  /** The image names in the order the writes complete: image `i` is pushed when its write
      finishes, so the array follows `order`, not the upload order. Each image's name uses the
      clock reading taken for it (`imageMs[i]`). */
  function PushedNames(id: Option<string>, imageMs: seq<nat>, order: seq<nat>): (r: seq<string>)
    requires IsOrder(order, |imageMs|)
    ensures |r| == |imageMs|
    ensures forall k :: 0 <= k < |r| ==> r[k] == ImageName(id, imageMs[order[k]], order[k])
  {
    seq(|order|, k requires 0 <= k < |order| => ImageName(id, imageMs[order[k]], order[k]))
  }

  /** Every image gets exactly its own name, whatever order the writes complete in. */
  lemma {:induction false} PushedNamesCoverAll(id: Option<string>, imageMs: seq<nat>, order: seq<nat>, i: nat)
    requires IsOrder(order, |imageMs|) && i < |imageMs|
    ensures ImageName(id, imageMs[i], i) in PushedNames(id, imageMs, order)
  {
    var n := |imageMs|;
    var seen := set k | 0 <= k < n :: order[k];
    assert seen <= Range(n);
    InjectiveImageSize(order, n);
    if i !in seen {
      SubsetSmaller(seen, Range(n), i);
      assert false;
    }
    var k :| 0 <= k < n && order[k] == i;
    assert PushedNames(id, imageMs, order)[k] == ImageName(id, imageMs[i], i);
  }

  /** `{0, ..., n-1}`. */
  function Range(n: nat): (r: set<nat>)
    ensures forall j: nat :: j in r <==> j < n
    ensures |r| == n
  {
    if n == 0 then {} else Range(n - 1) + {n - 1}
  }

  /** An order's image has as many elements as it has indices. */
  lemma {:induction false} InjectiveImageSize(order: seq<nat>, n: nat)
    requires |order| == n
    requires forall j, k :: 0 <= j < k < n ==> order[j] != order[k]
    ensures |set k | 0 <= k < n :: order[k]| == n
  {
    if n > 0 {
      var prefix := order[..n - 1];
      InjectiveImageSize(prefix, n - 1);
      assert (set k | 0 <= k < n :: order[k]) == (set k | 0 <= k < n - 1 :: prefix[k]) + {order[n - 1]};
      assert order[n - 1] !in (set k | 0 <= k < n - 1 :: prefix[k]);
    }
  }

  /** A subset missing an element of its superset is strictly smaller. */
  lemma SubsetSmaller(a: set<nat>, b: set<nat>, x: nat)
    requires a <= b && x in b && x !in a
    ensures |a| < |b|
  {
    SubsetNoLarger(a, b - {x});
  }

  lemma {:induction false} SubsetNoLarger(a: set<nat>, b: set<nat>)
    requires a <= b
    ensures |a| <= |b|
    decreases |b|
  {
    if a != {} {
      var y :| y in a;
      SubsetNoLarger(a - {y}, b - {y});
    }
  }

  /** When the writes complete in upload order, image `i` is at position `i`. */
  lemma SequentialOrderKeepsPositions(id: Option<string>, imageMs: seq<nat>)
    ensures var order := seq(|imageMs|, k requires 0 <= k < |imageMs| => k as nat);
            IsOrder(order, |imageMs|)
            && forall i :: 0 <= i < |imageMs| ==>
                 PushedNames(id, imageMs, order)[i] == ImageName(id, imageMs[i], i)
  {
  }

  /** `resizeTourImages` as written: it reads `req.files.imageCover` even when the request
      was not multipart, in which case `req.files` is undefined and reading it throws. */
  function ResizeTourImagesAsWritten(files: Option<map<string, seq<Part>>>, id: Option<string>,
                                     coverMs: nat, imageMs: seq<nat>, order: seq<nat>)
    : (r: Result<Option<TourImageNames>>)
    ensures files.None? ==> r.Error?
    ensures files.Some? ==> r == ResizeTourImages(files, id, coverMs, imageMs, order)
  {
    match files
    case None => Error(LibraryError("TypeError: Cannot read properties of undefined (reading 'imageCover')"))
    case Some(_) => ResizeTourImages(files, id, coverMs, imageMs, order)
  }

  /** `resizeTourImages`, with a request that carries no files treated as the guard intends: a
      no-op unless both a cover and images arrived; then the cover and each image get their
      stored names (`imageMs` and `order` are the clock readings and completion order of the
      concurrent writes, ignored unless they fit the number of images). */
  function ResizeTourImages(files: Option<map<string, seq<Part>>>, id: Option<string>,
                            coverMs: nat, imageMs: seq<nat>, order: seq<nat>)
    : (r: Result<Option<TourImageNames>>)
    ensures r.Ok?
    ensures (files.None? || "imageCover" !in files.value || "images" !in files.value) ==> r == Ok(None)
    ensures r.value.Some? ==>
              && files.Some? && "imageCover" in files.value && "images" in files.value
              && r.value.value.imageCover == CoverName(id, coverMs)
              && (IsOrder(order, |imageMs|) && |imageMs| == |files.value["images"]| ==>
                    r.value.value.images == PushedNames(id, imageMs, order))
  {
    match files
    case None => Ok(None)
    case Some(fs) =>
      if "imageCover" !in fs || "images" !in fs then Ok(None)
      else if IsOrder(order, |imageMs|) && |imageMs| == |fs["images"]| then
        Ok(Some(TourImageNames(CoverName(id, coverMs), PushedNames(id, imageMs, order))))
      else Ok(Some(TourImageNames(CoverName(id, coverMs), [])))
  }

  /** The request that shows the difference: a JSON update without files fails as written and
      passes through unchanged as intended. */
  lemma ResizeWithoutMultipartFails(id: Option<string>, coverMs: nat)
    ensures ResizeTourImagesAsWritten(None, id, coverMs, [], []).Error?
    ensures ResizeTourImages(None, id, coverMs, [], []) == Ok(None)
  {
  }
}

=== FILE: upload.dfy ===
/** The multipart upload middleware both controllers configure (src/controllers/user.controller.ts:15-31,
    src/controllers/tour.controller.ts:15-37): in-memory storage, a filter that admits only
    images, and a per-field count limit. Each incoming file is checked in arrival order, the
    field's remaining count before the filter, and the first failure aborts the request. */
module Upload {
  import opened Common
  import opened Errors

  /** An incoming file: its form field, its declared MIME type, and the name a later step
      stores it under (memory storage leaves it undefined). */
  datatype Part = Part(fieldname: string, mimetype: string, filename: Option<string>)

  const NotAnImage: Err := AppError("Not an image! Please upload only images.", 400)

  /** The library's own error (`LIMIT_UNEXPECTED_FILE`) for a file under a field that is not
      configured or already full. Its message does not name the field, which the library
      keeps in a separate property the answer never shows; it carries no status code. */
  const UnexpectedFile: Err := LibraryError("Unexpected field")

  /** `multerFilter`: accepted iff the MIME type starts with "image". */
  predicate IsImage(p: Part) {
    StartsWith(p.mimetype, "image")
  }

  /** How many of the parts arrived under `field`. */
  function Count(parts: seq<Part>, field: string): nat {
    if |parts| == 0 then 0
    else (if parts[0].fieldname == field then 1 else 0) + Count(parts[1..], field)
  }

  /** The parts that arrived under `field`, in arrival order. */
  function Files(parts: seq<Part>, field: string): (r: seq<Part>)
    ensures |r| == Count(parts, field)
    ensures forall i :: 0 <= i < |r| ==> r[i] in parts && r[i].fieldname == field
  {
    if |parts| == 0 then []
    else (if parts[0].fieldname == field then [parts[0]] else []) + Files(parts[1..], field)
  }

  /** What the upload step accepts: every file is an image sent under a configured field,
      and no field holds more files than its limit. */
  ghost predicate WithinLimits(limits: map<string, nat>, parts: seq<Part>) {
    && (forall i :: 0 <= i < |parts| ==> parts[i].fieldname in limits && IsImage(parts[i]))
    && (forall f :: f in limits ==> Count(parts, f) <= limits[f])
  }

  /** Processing the files in arrival order against the remaining per-field counts. */
  function Accept(left: map<string, nat>, parts: seq<Part>): (r: Result<seq<Part>>)
    ensures r.Ok? ==> r.value == parts
    ensures r.Error? ==> r.err in {NotAnImage, UnexpectedFile}
  {
    if |parts| == 0 then Ok([])
    else
      var p := parts[0];
      match Lookup(left, p.fieldname)
      case None => Error(UnexpectedFile)
      case Some(n) =>
        if n == 0 then Error(UnexpectedFile)
        else if !IsImage(p) then Error(NotAnImage)
        else match Accept(left[p.fieldname := n - 1], parts[1..])
          case Error(e) => Error(e)
          case Ok(rest) => Ok([p] + rest)
  }

  /** The order-sensitive check accepts exactly the uploads within the limits. */
  lemma {:induction false} AcceptWithinLimits(left: map<string, nat>, parts: seq<Part>)
    ensures Accept(left, parts).Ok? <==> WithinLimits(left, parts)
    decreases |parts|
  {
    if |parts| > 0 {
      var p := parts[0];
      var tail := parts[1..];
      assert forall f :: Count(parts, f) == (if p.fieldname == f then 1 else 0) + Count(tail, f);
      if p.fieldname in left && left[p.fieldname] > 0 && IsImage(p) {
        var left' := left[p.fieldname := left[p.fieldname] - 1];
        AcceptWithinLimits(left', tail);
        if WithinLimits(left', tail) {
          forall i | 0 <= i < |parts| ensures parts[i].fieldname in left && IsImage(parts[i]) {
            if i > 0 { assert parts[i] == tail[i - 1]; }
          }
        }
        if WithinLimits(left, parts) {
          forall i | 0 <= i < |tail| ensures tail[i].fieldname in left' && IsImage(tail[i]) {
            assert tail[i] == parts[i + 1];
          }
        }
      } else {
        assert !WithinLimits(left, parts) by {
          if p.fieldname in left && left[p.fieldname] == 0 {
            assert Count(parts, p.fieldname) >= 1;
          }
        }
      }
    }
  }

  /** `upload.single(field)`: nothing happens for a request without files; otherwise at most
      one file, under that field, is admitted and becomes `req.file`. */
  function Single(field: string, parts: seq<Part>): (r: Result<Option<Part>>)
    ensures |parts| == 0 ==> r == Ok(None)
    ensures r.Ok? <==> WithinLimits(map[field := 1], parts)
    ensures r.Ok? && |parts| > 0 ==> r.value == Some(parts[0]) && |parts| == 1
    ensures r.Error? ==> r.err == NotAnImage || r.err.statusCode.None?
  {
    AcceptWithinLimits(map[field := 1], parts);
    if |parts| == 0 then Ok(None)
    else match Accept(map[field := 1], parts)
      case Error(e) => Error(e)
      case Ok(_) =>
        assert Count(parts, field) == |parts| by { CountAll(parts, field); }
        Ok(Some(parts[0]))
  }

  /** When every part is under `field`, all of them are counted. */
  lemma {:induction false} CountAll(parts: seq<Part>, field: string)
    requires forall i :: 0 <= i < |parts| ==> parts[i].fieldname == field
    ensures Count(parts, field) == |parts|
    decreases |parts|
  {
    if |parts| > 0 {
      assert forall i :: 0 <= i < |parts[1..]| ==> parts[1..][i] == parts[i + 1];
      CountAll(parts[1..], field);
    }
  }

  /** `upload.fields(limits)`: the admitted files grouped by field. */
  function Fields(limits: map<string, nat>, parts: seq<Part>): (r: Result<map<string, seq<Part>>>)
    ensures r.Ok? <==> WithinLimits(limits, parts)
    ensures r.Ok? ==> forall f :: f in r.value <==> f in limits && Count(parts, f) > 0
    ensures r.Ok? ==> forall f :: f in r.value ==> r.value[f] == Files(parts, f) && |r.value[f]| <= limits[f]
  {
    AcceptWithinLimits(limits, parts);
    match Accept(limits, parts)
    case Error(e) => Error(e)
    case Ok(_) => Ok(map f | f in limits && Count(parts, f) > 0 :: Files(parts, f))
  }
}

=== FILE: user_controller.dfy ===
/** The user controller (src/controllers/user.controller.ts): the self-service handlers behind
    the session gate, the body whitelist they use, and the profile-photo upload steps. */
module UserController {
  import opened Common
  import opened Errors
  import opened UserModel
  import opened Upload
  import opened Http
  import Auth

  // ---------------------------------------------------------------- filterObj

  /** `filterObj(obj, ...allowedFields)`: the entries of `obj` whose key is allowed. */
  function FilterObj(obj: map<string, string>, allowed: set<string>): (r: map<string, string>)
    ensures forall k :: k in r <==> k in obj && k in allowed
    ensures forall k :: k in r ==> r[k] == obj[k]
  {
    map k | k in obj && k in allowed :: obj[k]
  }

  /** Filtering twice is filtering once by both whitelists; in particular filtering is
      idempotent. */
  lemma FilterObjCompose(obj: map<string, string>, a: set<string>, b: set<string>)
    ensures FilterObj(FilterObj(obj, a), b) == FilterObj(obj, a * b)
    ensures FilterObj(FilterObj(obj, a), a) == FilterObj(obj, a)
  {
  }

  // ---------------------------------------------------------------- profile updates

  const PasswordRouteOnly: Err :=
    AppError("This route is not for password updates. Please use /updateMyPassword", 400)

  /** The outcome of a handler that writes the users collection and answers with a user (or
      `null`, when the query found no active user). */
  datatype Outcome = Outcome(users: Users, result: Result<Option<User>>)

  /** `findByIdAndUpdate(id, update, { new: true, runValidators: true })` restricted to the
      profile paths: the active user with the id gets the given name, email (lower-cased by
      the setter) and photo. The `required` validators, which run before the query, refuse an
      empty name or email; the unique index refuses an email another user already has. No
      active user: `null`. */
  function UpdateProfile(users: Users, id: string, update: map<string, string>): (o: Outcome)
    ensures o.result.Error? ==> o.users == users
    ensures o.result.Ok? && o.result.value.None? ==> o.users == users && FindById(users, id).None?
    ensures o.result.Ok? && o.result.value.Some? ==>
              && var prev := FindById(users, id);
                 var u := o.result.value.value;
                 && prev.Some?
                 && u.(name := prev.value.name, email := prev.value.email, photo := prev.value.photo) == prev.value
                 && u.name == (if "name" in update then Some(update["name"]) else prev.value.name)
                 && u.email == (if "email" in update then Some(ToLower(update["email"])) else prev.value.email)
                 && u.photo == (if "photo" in update then Some(update["photo"]) else prev.value.photo)
                 && o.users == Replace(users, u)
    ensures o.result.Ok? ==> Lookup(update, "name") != Some("") && Lookup(update, "email") != Some("")
    ensures o.result.Ok? && o.result.value.Some? && "email" in update ==>
              forall v :: v in users && v.id != id ==> v.email != Some(ToLower(update["email"]))
  {
    if Lookup(update, "name") == Some("") || Lookup(update, "email") == Some("") then
      Outcome(users, Error(ValidationFailed))
    else match FindById(users, id)
      case None => Outcome(users, Ok(None))
      case Some(u) =>
        var email := CastEmail(Lookup(update, "email"));
        if email.Some? && exists v :: v in users && v.id != id && v.email == email then
          Outcome(users, Error(DuplicateKey))
        else
          var updated := u.(name := if "name" in update then Some(update["name"]) else u.name,
                            email := if email.Some? then email else u.email,
                            photo := if "photo" in update then Some(update["photo"]) else u.photo);
          Outcome(Replace(users, updated), Ok(Some(updated)))
  }

  /** `updateMe`: a body carrying a password or its confirmation is refused with 400 before
      anything is written; otherwise only name, email and, when a file was uploaded, its
      stored name as the photo are written. */
  function UpdateMe(users: Users, req: Req): (o: Outcome)
    ensures Truthy(Lookup(req.body, "password")) || Truthy(Lookup(req.body, "passwordConfirm")) ==>
              o == Outcome(users, Error(PasswordRouteOnly))
    ensures !(Truthy(Lookup(req.body, "password")) || Truthy(Lookup(req.body, "passwordConfirm"))) ==>
              && (req.user.None? ==> o == Outcome(users, Error(Auth.NoCurrentUser)))
              && (req.user.Some? ==> o == UpdateProfile(users, req.user.value.id, ProfileUpdate(req)))
  {
    if Truthy(Lookup(req.body, "password")) || Truthy(Lookup(req.body, "passwordConfirm")) then
      Outcome(users, Error(PasswordRouteOnly))
    else match req.user
      case None => Outcome(users, Error(Auth.NoCurrentUser))
      case Some(me) => UpdateProfile(users, me.id, ProfileUpdate(req))
  }

  /** The update `updateMe` sends: name and email from the body, and the uploaded file's
      stored name as `photo` (an undefined name is dropped from the update). */
  function ProfileUpdate(req: Req): (update: map<string, string>)
    ensures update.Keys <= {"name", "email", "photo"}
    ensures forall k :: k in {"name", "email"} ==> Lookup(update, k) == Lookup(req.body, k)
    ensures Lookup(update, "photo") == (if req.file.Some? then req.file.value.filename else None)
  {
    var filtered := FilterObj(req.body, {"name", "email"});
    if req.file.Some? then Assign(filtered, "photo", req.file.value.filename) else filtered
  }

  /** `updateMe` never touches the credential fields, the role or the activity flag, whatever
      the body holds. */
  lemma UpdateMeKeepsCredentials(users: Users, req: Req)
    requires UpdateMe(users, req).result.Ok? && UpdateMe(users, req).result.value.Some?
    ensures var u := UpdateMe(users, req).result.value.value;
            var prev := FindById(users, u.id).value;
            FindById(users, u.id).Some?
            && u.password == prev.password && u.passwordChangedAt == prev.passwordChangedAt
            && u.role == prev.role && u.active == prev.active
            && u.passwordResetToken == prev.passwordResetToken
  {
  }

  /** The answer to `deleteMe`: the collection afterwards and the status (or the error). */
  datatype Removal = Removal(users: Users, result: Result<int>)

  /** `deleteMe`'s status: 204, no content. */
  const DeleteMeStatus: int := 204

  /** `deleteMe`: the current user's record is removed outright (the second argument of the
      delete call is an options object, so nothing is flagged inactive); 204 whether or not a
      record was found. */
  function DeleteMe(users: Users, req: Req): (o: Removal)
    ensures req.user.None? ==> o == Removal(users, Error(Auth.NoCurrentUser))
    ensures req.user.Some? ==>
              && o.result == Ok(204)
              && (forall u :: u in o.users ==> u in users)
              && (forall u :: u in users && !ActiveWithId(u, req.user.value.id) ==> u in o.users)
              && |o.users| == |users| - (if FindById(users, req.user.value.id).Some? then 1 else 0)
  {
    match req.user
    case None => Removal(users, Error(Auth.NoCurrentUser))
    case Some(me) => Removal(DeleteById(users, me.id), Ok(DeleteMeStatus))
  }

  /** After `deleteMe` no lookup finds the user any more, neither by id nor by email, while
      every other user is still found by id. */
  lemma DeletedUserIsGone(users: Users, req: Req, email: Option<string>)
    requires req.user.Some? && UniqueIds(users)
    requires forall u :: u in users && u.email == CastEmail(email) ==> u.id == req.user.value.id
    ensures var o := DeleteMe(users, req);
            && FindById(o.users, req.user.value.id).None?
            && FindByEmail(o.users, email).None?
            && forall u :: u in users && u.active && u.id != req.user.value.id ==>
                 u in o.users && FindById(o.users, u.id).Some?
  {
    DeleteByIdRemovesId(users, req.user.value.id);
  }

  /** `getMe`: `params.id` becomes the current user's id; nothing else changes. */
  function GetMe(ctx: Ctx): (r: Step)
    ensures ctx.req.user.None? ==> r == Abort(Auth.NoCurrentUser)
    ensures ctx.req.user.Some? ==>
              && r.Next?
              && r.ctx.req.params == ctx.req.params["id" := ctx.req.user.value.id]
              && r.ctx.(req := r.ctx.req.(params := ctx.req.params)) == ctx
  {
    match ctx.req.user
    case None => Abort(Auth.NoCurrentUser)
    case Some(me) => Next(ctx.(req := ctx.req.(params := ctx.req.params["id" := me.id])))
  }

  /** `createUser`: answers 500 itself, whatever the request, directing the client to signup;
      the error handler is not involved. */
  const CreateUserMessage: string := "This route is not defined! Please use /signup instead"

  /** The JSON answer `createUser` writes. */
  datatype Refusal = Refusal(status: int, statusText: string, message: string)

  function CreateUser(req: Req): (r: Refusal)
    ensures r.status == 500 && r.statusText == "error"
    ensures r.message == CreateUserMessage
  {
    Refusal(500, "error", CreateUserMessage)
  }

  // ---------------------------------------------------------------- profile photos

  /** `uploadUserPhoto`: a single image under the `photo` field becomes `req.file`. */
  function UploadUserPhoto(ctx: Ctx): (r: Step)
    ensures |ctx.req.parts| == 0 ==> r == Next(ctx)
    ensures r.Next? <==> WithinLimits(map["photo" := 1], ctx.req.parts)
    ensures r.Next? && |ctx.req.parts| > 0 ==>
              r.ctx == ctx.(req := ctx.req.(file := Some(ctx.req.parts[0])))
              && ctx.req.parts[0].fieldname == "photo" && IsImage(ctx.req.parts[0])
    ensures r.Abort? ==> r.err == NotAnImage || r.err.statusCode.None?
  {
    if |ctx.req.parts| == 0 then Next(ctx)
    else match Single("photo", ctx.req.parts)
      case Error(e) => Abort(e)
      case Ok(f) => Next(ctx.(req := ctx.req.(file := f)))
  }

  /** The stored name of a user's photo: `user-<id>-<timestamp>.jpeg`. */
  function UserPhotoName(id: string, nowMs: nat): string {
    "user-" + id + "-" + Decimal(nowMs) + ".jpeg"
  }

  /** Reads a photo name back into the user id and the timestamp. */
  function ParseUserPhotoName(name: string): Option<(string, nat)> {
    var parts := Split(name, '-');
    if |parts| != 3 || parts[0] != "user" || |parts[2]| < 5 then None
    else
      var stamp := parts[2][..|parts[2]| - 5];
      if parts[2][|parts[2]| - 5..] != ".jpeg" || !AllDigits(stamp) then None
      else Some((parts[1], ParseDecimal(stamp)))
  }

  /** For ids without a '-' (database ids are hex), the name encodes its user and time. */
  lemma UserPhotoNameRoundTrip(id: string, nowMs: nat)
    requires '-' !in id
    ensures ParseUserPhotoName(UserPhotoName(id, nowMs)) == Some((id, nowMs))
  {
    var d := Decimal(nowMs);
    var tail := d + ".jpeg";
    assert '-' !in tail by {
      assert forall i :: 0 <= i < |d| ==> IsDigit(d[i]);
      assert forall i :: |d| <= i < |tail| ==> tail[i] == ".jpeg"[i - |d|];
    }
    assert UserPhotoName(id, nowMs) == "user" + ['-'] + (id + ['-'] + tail);
    SplitAppend("user", id + ['-'] + tail, '-');
    SplitAppend(id, tail, '-');
    SplitFree("user", '-');
    SplitFree(id, '-');
    SplitFree(tail, '-');
    assert tail[..|tail| - 5] == d;
    assert tail[|tail| - 5..] == ".jpeg";
    DecimalRoundTrip(nowMs);
  }

  /** Hence two uploads get the same name only for the same user at the same millisecond. */
  lemma UserPhotoNameInjective(a: string, ta: nat, b: string, tb: nat)
    requires '-' !in a && '-' !in b
    requires UserPhotoName(a, ta) == UserPhotoName(b, tb)
    ensures a == b && ta == tb
  {
    UserPhotoNameRoundTrip(a, ta);
    UserPhotoNameRoundTrip(b, tb);
  }

  /** `resizeUserPhoto`: without a file it does nothing; otherwise the file is stored under
      the current user's photo name (the image processing itself is not modelled). */
  function ResizeUserPhoto(ctx: Ctx, nowMs: nat): (r: Step)
    ensures ctx.req.file.None? ==> r == Next(ctx)
    ensures ctx.req.file.Some? && ctx.req.user.None? ==> r == Abort(Auth.NoCurrentUser)
    ensures ctx.req.file.Some? && ctx.req.user.Some? ==>
              && r.Next? && r.ctx.req.file.Some?
              && r.ctx.req.file.value.filename == Some(UserPhotoName(ctx.req.user.value.id, nowMs))
              && r.ctx.req.file.value.(filename := ctx.req.file.value.filename) == ctx.req.file.value
              && r.ctx.(req := r.ctx.req.(file := ctx.req.file)) == ctx
  {
    match ctx.req.file
    case None => Next(ctx)
    case Some(f) =>
      match ctx.req.user
      case None => Abort(Auth.NoCurrentUser)
      case Some(me) => Next(ctx.(req := ctx.req.(file := Some(f.(filename := Some(UserPhotoName(me.id, nowMs)))))))
  }
}

=== FILE: user_model.dfy ===
/** The User model (src/models/user.model.ts): the schema's roles and required paths, the
    save hooks that hash the password and stamp `passwordChangedAt`, the query hook that
    hides inactive users, and the instance methods the authentication core calls. */
module UserModel {
  import opened Common
  import opened Errors
  import opened Crypto

  datatype Role = RegularUser | Guide | LeadGuide | Admin

  /** The enum value each role is stored as. */
  function RoleName(r: Role): string {
    match r
    case RegularUser => "user"
    case Guide => "guide"
    case LeadGuide => "lead-guide"
    case Admin => "admin"
  }

  /** Casting a value for the `role` path: one of the four enum names, `'user'` when
      undefined, a validation error otherwise. */
  function CastRole(s: Option<string>): (r: Result<Role>)
    ensures s.None? ==> r == Ok(RegularUser)
    ensures s.Some? ==> (r.Ok? <==> s.value in {"user", "guide", "lead-guide", "admin"})
    ensures s.Some? && r.Ok? ==> RoleName(r.value) == s.value
  {
    match s
    case None => Ok(RegularUser)
    case Some(name) =>
      if name == "user" then Ok(RegularUser)
      else if name == "guide" then Ok(Guide)
      else if name == "lead-guide" then Ok(LeadGuide)
      else if name == "admin" then Ok(Admin)
      else Error(LibraryError("ValidationError: role"))
  }

  /** Every role survives being stored under its name and cast back. */
  lemma RoleRoundTrip(r: Role)
    ensures CastRole(Some(RoleName(r))) == Ok(r)
  {
  }

  /** A user document. Timestamps are milliseconds since the epoch. `passwordResetExpires` is
      the schema's expiry path (see `CreatePasswordResetTokenAsWritten` for the source's
      misspelt assignments to it). */
  datatype User = User(
    id: string,
    name: Option<string>,
    email: Option<string>,
    photo: Option<string>,
    role: Role,
    password: Option<string>,
    passwordConfirm: Option<string>,
    passwordChangedAt: Option<int>,
    passwordResetToken: Option<string>,
    passwordResetExpires: Option<int>,
    active: bool)

  /** The users collection in its natural order. */
  type Users = seq<User>

  ghost predicate UniqueIds(users: Users) {
    forall i, j :: 0 <= i < |users| && 0 <= j < |users| && users[i].id == users[j].id ==> i == j
  }

  /** `findOne(filter)` under the `pre(/^find/)` hook, which adds `active: { $ne: false }`:
      the first active user the filter accepts. */
  function FindFirst(users: Users, filter: User -> bool): (r: Option<User>)
    ensures r.Some? ==> r.value in users && r.value.active && filter(r.value)
    ensures r.None? ==> forall i :: 0 <= i < |users| ==> !(users[i].active && filter(users[i]))
    decreases |users|
  {
    if |users| == 0 then None
    else if users[0].active && filter(users[0]) then Some(users[0])
    else
      var r := FindFirst(users[1..], filter);
      assert r.None? ==> forall i :: 1 <= i < |users| ==> users[i] == users[1..][i - 1];
      r
  }

  /** `findById(id)`. */
  function FindById(users: Users, id: string): (r: Option<User>)
    ensures r.Some? ==> r.value in users && r.value.active && r.value.id == id
    ensures r.None? ==> forall u :: u in users && u.active ==> u.id != id
  {
    FindFirst(users, (u: User) => u.id == id)
  }

  /** With unique ids, `findById` finds exactly the active user that has the id. */
  lemma FindByIdUnique(users: Users, u: User)
    requires UniqueIds(users)
    requires u in users && u.active
    ensures FindById(users, u.id) == Some(u)
  {
    var r := FindById(users, u.id);
    var j :| 0 <= j < |users| && users[j] == u;
    if r.Some? {
      var i :| 0 <= i < |users| && users[i] == r.value;
    }
  }

  /** The unique index on `email`. */
  ghost predicate UniqueEmails(users: Users) {
    forall i, j :: 0 <= i < |users| && 0 <= j < |users| && users[i].email == users[j].email ==> i == j
  }

  /** The schema's `lowercase` setter, which the ORM also applies to query values. */
  function CastEmail(email: Option<string>): (r: Option<string>)
    ensures r.Some? <==> email.Some?
    ensures r.Some? ==> r.value == ToLower(email.value)
  {
    match email
    case Some(e) => Some(ToLower(e))
    case None => None
  }

  /** `findOne({ email })`. */
  function FindByEmail(users: Users, email: Option<string>): (r: Option<User>)
    ensures r.Some? ==> r.value in users && r.value.active && r.value.email == CastEmail(email)
    ensures r.None? ==> forall u :: u in users && u.active ==> u.email != CastEmail(email)
  {
    var key := CastEmail(email);
    FindFirst(users, (u: User) => u.email == key)
  }

  /** With unique emails, `findOne({ email })` finds exactly the active user with that email. */
  lemma FindByEmailUnique(users: Users, u: User, email: Option<string>)
    requires UniqueEmails(users)
    requires u in users && u.active && u.email == CastEmail(email)
    ensures FindByEmail(users, email) == Some(u)
  {
    var r := FindByEmail(users, email);
    var j :| 0 <= j < |users| && users[j] == u;
    if r.Some? {
      var i :| 0 <= i < |users| && users[i] == r.value;
    }
  }

  /** `save()` of a document that is already stored: the record with its id is replaced. */
  function Replace(users: Users, u: User): (r: Users)
    ensures |r| == |users|
    ensures forall i :: 0 <= i < |users| ==> r[i] == (if users[i].id == u.id then u else users[i])
  {
    seq(|users|, i requires 0 <= i < |users| => if users[i].id == u.id then u else users[i])
  }

  /** Replacing a stored record by one with the same id and email keeps emails unique. */
  lemma ReplaceKeepsEmails(users: Users, before: User, u: User)
    requires UniqueIds(users) && UniqueEmails(users)
    requires before in users && before.id == u.id && before.email == u.email
    ensures UniqueEmails(Replace(users, u))
  {
    var r := Replace(users, u);
    var k :| 0 <= k < |users| && users[k] == before;
    assert forall i :: 0 <= i < |users| ==> r[i].email == users[i].email;
  }

  /** Replacing a record keeps ids unique and puts the new record in the collection. */
  lemma ReplaceKeepsIds(users: Users, u: User)
    requires UniqueIds(users)
    requires exists i :: 0 <= i < |users| && users[i].id == u.id
    ensures UniqueIds(Replace(users, u))
    ensures u in Replace(users, u)
  {
    var r := Replace(users, u);
    var i :| 0 <= i < |users| && users[i].id == u.id;
    assert r[i] == u;
  }

  /** The record the `pre(/^find/)` hook lets a query on `_id` see. */
  predicate ActiveWithId(u: User, id: string) {
    u.active && u.id == id
  }

  /** The position of the first active record with the id. */
  function FirstActiveIndex(users: Users, id: string): (k: Option<nat>)
    ensures k.None? ==> forall i :: 0 <= i < |users| ==> !ActiveWithId(users[i], id)
    ensures k.Some? ==> k.value < |users| && ActiveWithId(users[k.value], id)
                        && forall j :: 0 <= j < k.value ==> !ActiveWithId(users[j], id)
    decreases |users|
  {
    if |users| == 0 then None
    else if ActiveWithId(users[0], id) then Some(0)
    else
      var k := FirstActiveIndex(users[1..], id);
      assert forall i :: 1 <= i < |users| ==> users[i] == users[1..][i - 1];
      if k.None? then None else Some(k.value + 1)
  }

  /** `findByIdAndDelete(id)`, which runs as `findOneAndDelete` and so under the
      `pre(/^find/)` hook: the first active record with the id is removed and nothing else, so
      an inactive record with the id is left in place. */
  function DeleteById(users: Users, id: string): (r: Users)
    ensures (forall i :: 0 <= i < |users| ==> !ActiveWithId(users[i], id)) ==> r == users
    ensures (exists i :: 0 <= i < |users| && ActiveWithId(users[i], id)) ==>
              exists k :: 0 <= k < |users| && ActiveWithId(users[k], id)
                          && (forall j :: 0 <= j < k ==> !ActiveWithId(users[j], id))
                          && r == users[..k] + users[k + 1..]
    ensures forall u :: u in r ==> u in users
    ensures forall u :: u in users && !ActiveWithId(u, id) ==> u in r
    ensures |r| == |users| || |r| == |users| - 1
  {
    match FirstActiveIndex(users, id)
    case None => users
    case Some(k) =>
      var r := users[..k] + users[k + 1..];
      assert forall i :: 0 <= i < |users| && i != k ==> users[i] in r by {
        forall i | 0 <= i < |users| && i != k ensures users[i] in r {
          if i < k { assert r[i] == users[i]; } else { assert r[i - 1] == users[i]; }
        }
      }
      r
  }

  /** With unique ids, no active record with the id survives its deletion. */
  lemma DeleteByIdRemovesId(users: Users, id: string)
    requires UniqueIds(users)
    ensures forall u :: u in DeleteById(users, id) ==> !ActiveWithId(u, id)
  {
    var r := DeleteById(users, id);
    if exists i :: 0 <= i < |users| && ActiveWithId(users[i], id) {
      var k :| 0 <= k < |users| && ActiveWithId(users[k], id) && r == users[..k] + users[k + 1..];
      forall u | u in r ensures !ActiveWithId(u, id) {
        var j :| 0 <= j < |r| && r[j] == u;
        var i := if j < k then j else j + 1;
        assert users[i] == u && i != k;
      }
    }
  }

  // ---------------------------------------------------------------- instance methods

  /** `correctPassword(candidate, hashed)`: bcrypt's comparison. */
  function CorrectPassword(p: Primitives, candidate: string, hashed: string): bool {
    p.bcryptCompare(candidate, hashed)
  }

  /** `changedPasswordAfter(JWTTimestamp)`: false without a recorded change, otherwise whether
      the token's issue time (seconds) is before the change time converted to seconds. The
      source divides the millisecond time by 1000 in floating point; the comparison is stated
      here over the reals and decided over the integers. */
  function ChangedPasswordAfter(u: User, jwtTimestamp: int): (changed: bool)
    ensures u.passwordChangedAt.None? ==> !changed
    ensures u.passwordChangedAt.Some? ==>
              (changed <==> (jwtTimestamp as real) < (u.passwordChangedAt.value as real) / 1000.0)
  {
    match u.passwordChangedAt
    case None => false
    case Some(changedAt) =>
      assert (jwtTimestamp as real) < (changedAt as real) / 1000.0
             <==> (jwtTimestamp * 1000) as real < changedAt as real;
      jwtTimestamp * 1000 < changedAt
  }

  // ---------------------------------------------------------------- saving

  /** A document about to be saved, with the two flags the hooks consult. */
  datatype UserDoc = UserDoc(user: User, isNew: bool, passwordModified: bool)

  /** The required paths: name, email, password and passwordConfirm (an empty string fails
      `required` as well). Nothing compares password with passwordConfirm. */
  predicate HasRequiredPaths(u: User) {
    Truthy(u.name) && Truthy(u.email) && Truthy(u.password) && Truthy(u.passwordConfirm)
  }

  const PasswordChangeBackdateMs: int := 1000

  /** First save hook: when the password was modified, replace it with its bcrypt hash
      (cost 12) and drop passwordConfirm; otherwise leave the document alone. */
  function HashPasswordHook(d: UserDoc, p: Primitives): (r: Result<UserDoc>)
    ensures !d.passwordModified ==> r == Ok(d)
    ensures d.passwordModified && d.user.password.None? ==> r.Error?
    ensures d.passwordModified && d.user.password.Some? ==>
              && r.Ok?
              && r.value.user.password == Some(p.bcryptHash(d.user.password.value))
              && r.value.user.passwordConfirm == None
              && r.value.user.(password := d.user.password, passwordConfirm := d.user.passwordConfirm)
                 == d.user
              && r.value.isNew == d.isNew && r.value.passwordModified
  {
    if !d.passwordModified then Ok(d)
    else match d.user.password
      case None => Error(LibraryError("Error: data and salt arguments required"))
      case Some(plain) =>
        Ok(d.(user := d.user.(password := Some(p.bcryptHash(plain)), passwordConfirm := None)))
  }

  /** Second save hook: a modified password on a document that is not new sets
      `passwordChangedAt` one second before now; otherwise nothing changes. */
  function PasswordChangedAtHook(d: UserDoc, nowMs: nat): (r: UserDoc)
    ensures r.isNew == d.isNew && r.passwordModified == d.passwordModified
    ensures r.user.(passwordChangedAt := d.user.passwordChangedAt) == d.user
    ensures d.passwordModified && !d.isNew ==>
              r.user.passwordChangedAt == Some(nowMs - PasswordChangeBackdateMs)
    ensures !(d.passwordModified && !d.isNew) ==> r == d
  {
    if !d.passwordModified || d.isNew then d
    else d.(user := d.user.(passwordChangedAt := Some(nowMs - PasswordChangeBackdateMs)))
  }

  /** `save()`: validation first (unless `validateBeforeSave: false`), then the two hooks in
      the order the schema registers them. */
  function Save(d: UserDoc, validate: bool, p: Primitives, nowMs: nat): (r: Result<User>)
    ensures validate && !HasRequiredPaths(d.user) ==> r.Error?
    ensures (!validate || HasRequiredPaths(d.user)) && (d.passwordModified ==> d.user.password.Some?)
            ==> r.Ok?
    ensures r.Ok? && !d.passwordModified ==> r.value == d.user
    ensures r.Ok? && d.passwordModified ==>
              && d.user.password.Some?
              && r.value.password == Some(p.bcryptHash(d.user.password.value))
              && r.value.passwordConfirm == None
    ensures r.Ok? ==>
              r.value.passwordChangedAt
              == (if d.passwordModified && !d.isNew then Some(nowMs - PasswordChangeBackdateMs)
                  else d.user.passwordChangedAt)
    ensures r.Ok? ==> r.value.(password := d.user.password, passwordConfirm := d.user.passwordConfirm,
                               passwordChangedAt := d.user.passwordChangedAt) == d.user
  {
    if validate && !HasRequiredPaths(d.user) then Error(LibraryError("ValidationError"))
    else match HashPasswordHook(d, p)
      case Error(e) => Error(e)
      case Ok(hashed) => Ok(PasswordChangedAtHook(hashed, nowMs).user)
  }

  /** A saved password matches the plaintext it was saved from. */
  lemma SavedPasswordMatches(d: UserDoc, validate: bool, p: Primitives, nowMs: nat)
    requires BcryptSound(p)
    requires d.passwordModified
    requires Save(d, validate, p, nowMs).Ok?
    ensures CorrectPassword(p, d.user.password.value, Save(d, validate, p, nowMs).value.password.value)
  {
    assert p.bcryptCompare(d.user.password.value, p.bcryptHash(d.user.password.value));
  }

  /** The one-second backdate: a token issued no earlier than the save that changed the
      password is not stale for the saved user. */
  lemma TokenIssuedAfterChangeIsFresh(changedAtMs: nat, issuedMs: nat, u: User)
    requires u.passwordChangedAt == Some(changedAtMs - PasswordChangeBackdateMs)
    requires issuedMs >= changedAtMs
    ensures !ChangedPasswordAfter(u, Seconds(issuedMs))
  {
  }

  /** Conversely a token issued more than a second before the change is stale. */
  lemma TokenIssuedBeforeChangeIsStale(changedAtMs: nat, issuedMs: nat, u: User)
    requires u.passwordChangedAt == Some(changedAtMs - PasswordChangeBackdateMs)
    requires issuedMs < changedAtMs - PasswordChangeBackdateMs
    ensures ChangedPasswordAfter(u, Seconds(issuedMs))
  {
  }

  // ---------------------------------------------------------------- reset tokens

  const ResetTokenLifetimeMs: nat := 10 * 60 * 1000

  const ResetTokenBytes: nat := 32

  datatype ResetIssue = ResetIssue(user: User, token: string)

  /** `createPasswordResetToken()`, as intended: 32 random bytes as 64 hex digits are
      returned, only their SHA-256 hex digest is stored, and the expiry is ten minutes
      from now. Any earlier hash and expiry are overwritten. */
  function CreatePasswordResetToken(u: User, random: seq<byte>, p: Primitives, nowMs: nat)
    : (r: ResetIssue)
    requires |random| == ResetTokenBytes
    ensures |r.token| == 64 && IsLowerHex(r.token)
    ensures FromHex(r.token) == Some(random)
    ensures r.user.passwordResetToken == Some(p.sha256Hex(r.token))
    ensures r.user.passwordResetExpires == Some(nowMs + ResetTokenLifetimeMs)
    ensures r.user.(passwordResetToken := u.passwordResetToken,
                    passwordResetExpires := u.passwordResetExpires) == u
  {
    var token := ToHex(random);
    HexRoundTrip(random);
    ResetIssue(u.(passwordResetToken := Some(p.sha256Hex(token)),
                  passwordResetExpires := Some(nowMs + ResetTokenLifetimeMs)), token)
  }

  /** `createPasswordResetToken()` as written: the expiry is assigned to
      `passwordresetExpires`, a path the schema does not declare, so it is never persisted;
      only the hash reaches the stored record. */
  function CreatePasswordResetTokenAsWritten(u: User, random: seq<byte>, p: Primitives, nowMs: nat)
    : (r: ResetIssue)
    requires |random| == ResetTokenBytes
    ensures r.token == CreatePasswordResetToken(u, random, p, nowMs).token
    ensures r.user.passwordResetToken == Some(p.sha256Hex(r.token))
    ensures r.user.passwordResetExpires == u.passwordResetExpires
  {
    var token := ToHex(random);
    ResetIssue(u.(passwordResetToken := Some(p.sha256Hex(token))), token)
  }

  /** The lookup `resetPassword` runs: the stored digest equals the digest of the presented
      token and the stored expiry lies after now. */
  predicate ResetTokenMatches(u: User, token: string, p: Primitives, nowMs: nat) {
    && u.passwordResetToken == Some(p.sha256Hex(token))
    && u.passwordResetExpires.Some? && u.passwordResetExpires.value > nowMs
  }

  /** An issued token matches exactly until ten minutes have passed. */
  lemma IssuedResetTokenMatches(u: User, random: seq<byte>, p: Primitives, issuedMs: nat, nowMs: nat)
    requires |random| == ResetTokenBytes
    ensures var r := CreatePasswordResetToken(u, random, p, issuedMs);
            ResetTokenMatches(r.user, r.token, p, nowMs) <==> nowMs < issuedMs + ResetTokenLifetimeMs
  {
  }

  /** Issuing again supersedes: the record is as if only the second token had been issued,
      and the first token no longer matches unless the two digests collide. */
  lemma ReissueSupersedes(u: User, r1: seq<byte>, r2: seq<byte>, p: Primitives, t1: nat, t2: nat,
                          nowMs: nat)
    requires |r1| == ResetTokenBytes && |r2| == ResetTokenBytes
    requires p.sha256Hex(ToHex(r1)) != p.sha256Hex(ToHex(r2))
    ensures var first := CreatePasswordResetToken(u, r1, p, t1);
            var second := CreatePasswordResetToken(first.user, r2, p, t2);
            && second.user == CreatePasswordResetToken(u, r2, p, t2).user
            && !ResetTokenMatches(second.user, first.token, p, nowMs)
  {
  }
}

=== FILE: views.dfy ===
/** The server-rendered pages (src/controllers/view.controller.ts): the booking alert, the tour
    page, the signed-in user's booked tours and the account form. Templates are not modelled;
    each handler yields what it would render or the error it passes on. */
module Views {
  import opened Common
  import opened Errors
  import Tours
  import UserModel
  import UserController
  import Http
  import Auth

  const BookingAlert: string := "Your booking was successful! Please check your email for a confirmation"

  /** `alerts`: `res.locals.alert` is set exactly when the query's `alert` is "booking";
      nothing else changes and the step never fails. */
  function Alerts(ctx: Http.Ctx): (r: Http.Ctx)
    ensures r.req == ctx.req && r.localsUser == ctx.localsUser
    ensures Lookup(ctx.req.query, "alert") == Some("booking") ==> r.localsAlert == Some(BookingAlert)
    ensures Lookup(ctx.req.query, "alert") != Some("booking") ==> r.localsAlert == ctx.localsAlert
  {
    if Lookup(ctx.req.query, "alert") == Some("booking") then ctx.(localsAlert := Some(BookingAlert)) else ctx
  }

  /** Running the step twice is running it once. */
  lemma AlertsIdempotent(ctx: Http.Ctx)
    ensures Alerts(Alerts(ctx)) == Alerts(ctx)
  {
  }

  const NoSuchTour: Err := AppError("There is no tour with that name.", 404)

  /** Selects the tour with the given slug. */
  function SlugIs(slug: string): Tours.Tour -> bool {
    (t: Tours.Tour) => t.slug == slug
  }

  /** `getTour`: the first visible tour with the slug, or 404. */
  function GetTour(tours: seq<Tours.Tour>, slug: string): (r: Result<Tours.Tour>)
    ensures r.Ok? ==> r.value in tours && r.value.slug == slug && Tours.Visible(r.value)
    ensures r.Error? <==> forall t :: t in tours ==> !(Tours.Visible(t) && t.slug == slug)
    ensures r.Error? ==> r.err == NoSuchTour
  {
    match Tours.FindTour(tours, SlugIs(slug))
    case None => Error(NoSuchTour)
    case Some(t) => Ok(t)
  }

  /** A secret tour has no page, even when its slug is known. */
  lemma SecretTourHasNoPage(tours: seq<Tours.Tour>, slug: string)
    requires forall t :: t in tours && t.slug == slug ==> t.secretTour
    ensures GetTour(tours, slug) == Error(NoSuchTour)
  {
  }

  /** A booking (src/models/booking.model.ts): which tour, for which user, at what price. */
  datatype Booking = Booking(tour: string, user: string, price: real)

  /** The tours the user has booked: `BookingModel.find({ user }).map(el => el.tour)`. */
  function BookedTourIds(bookings: seq<Booking>, userId: string): (ids: set<string>)
    ensures forall id :: id in ids <==> exists b :: b in bookings && b.user == userId && b.tour == id
  {
    set b | b in bookings && b.user == userId :: b.tour
  }

  /** `TourModel.find({ _id: { $in: ids } })`: the visible tours whose id is listed, in
      collection order. */
  function ToursWithIds(tours: seq<Tours.Tour>, ids: set<string>): (r: seq<Tours.Tour>)
    ensures forall t :: t in r <==> t in tours && Tours.Visible(t) && t.id in ids
    ensures |r| <= |tours|
  {
    if |tours| == 0 then []
    else
      assert forall t :: t in tours <==> t == tours[0] || t in tours[1..];
      (if Tours.Visible(tours[0]) && tours[0].id in ids then [tours[0]] else []) + ToursWithIds(tours[1..], ids)
  }

  /** `getMytours`: exactly the visible tours some booking of the current user refers to;
      without a current user reading its id throws. */
  function GetMyTours(bookings: seq<Booking>, tours: seq<Tours.Tour>, user: Option<UserModel.User>): (r: Result<seq<Tours.Tour>>)
    ensures user.None? <==> r == Error(Auth.NoCurrentUser)
    ensures r.Ok? ==>
              forall t :: t in r.value <==>
                t in tours && Tours.Visible(t) && exists b :: b in bookings && b.user == user.value.id && b.tour == t.id
  {
    match user
    case None => Error(Auth.NoCurrentUser)
    case Some(me) => Ok(ToursWithIds(tours, BookedTourIds(bookings, me.id)))
  }

  /** Another user's bookings never show up on my page. */
  lemma OthersBookingsIgnored(bookings: seq<Booking>, tours: seq<Tours.Tour>, me: UserModel.User, other: Booking)
    requires other.user != me.id
    ensures GetMyTours(bookings + [other], tours, Some(me)) == GetMyTours(bookings, tours, Some(me))
  {
    assert BookedTourIds(bookings + [other], me.id) == BookedTourIds(bookings, me.id);
  }

  /** `updateUserData`: the account form's update always names both paths, taking their values
      from the body. A path the body lacks is set to undefined, which the ORM keeps in the
      update, so the `required` validators refuse it; otherwise the stored name and email
      become the submitted ones (the email lower-cased) and the updated user is rendered. */
  function UpdateUserData(users: UserModel.Users, req: Http.Req): (o: UserController.Outcome)
    ensures req.user.None? ==> o == UserController.Outcome(users, Error(Auth.NoCurrentUser))
    ensures o.result.Error? ==> o.users == users
    ensures req.user.Some? && ("name" !in req.body || "email" !in req.body) ==>
              o == UserController.Outcome(users, Error(ValidationFailed))
    ensures o.result.Ok? ==> req.user.Some? && Truthy(Lookup(req.body, "name")) && Truthy(Lookup(req.body, "email"))
    ensures o.result.Ok? && o.result.value.None? ==>
              o.users == users && UserModel.FindById(users, req.user.value.id).None?
    ensures o.result.Ok? && o.result.value.Some? ==>
              var u := o.result.value.value;
              var prev := UserModel.FindById(users, req.user.value.id);
              && prev.Some?
              && u.name == Some(req.body["name"]) && u.email == Some(ToLower(req.body["email"]))
              && u == prev.value.(name := u.name, email := u.email)
              && (forall v :: v in users && v.id != u.id ==> v.email != u.email)
              && o.users == UserModel.Replace(users, u)
    ensures (&& req.user.Some? && Truthy(Lookup(req.body, "name")) && Truthy(Lookup(req.body, "email"))
             && UserModel.FindById(users, req.user.value.id).Some?
             && forall v :: v in users && v.id != req.user.value.id ==> v.email != Some(ToLower(req.body["email"])))
            ==> o.result.Ok? && o.result.value.Some?
  {
    match req.user
    case None => UserController.Outcome(users, Error(Auth.NoCurrentUser))
    case Some(me) =>
      if "name" !in req.body || "email" !in req.body then
        UserController.Outcome(users, Error(ValidationFailed))
      else
        UserController.UpdateProfile(users, me.id, map["name" := req.body["name"], "email" := req.body["email"]])
  }

  /** The account form changes only the name and the email: the photo, the credentials, the
      role and the activity flag stay as they were, whatever else the body holds. */
  lemma UpdateUserDataOnlyNameAndEmail(users: UserModel.Users, req: Http.Req)
    requires UpdateUserData(users, req).result.Ok? && UpdateUserData(users, req).result.value.Some?
    ensures var u := UpdateUserData(users, req).result.value.value;
            var prev := UserModel.FindById(users, req.user.value.id);
            && prev.Some?
            && u == prev.value.(name := u.name, email := u.email)
  {
  }
}
